=== FILE: README.md ===
# Cartagen data pipeline in Dafny

This project models the single-threaded data pipeline of Cartagen, a JavaScript
vector-map renderer, and proves properties of that model. It covers:

- the cooperative task scheduler: `Task` and `TaskManager`, with a step budget
  standing in for the wall-clock quota;
- the `TimerManager` sample buffer and its delay rule;
- the geohash key algebra: keys, upward prefixes, neighbours, the `fill_bbox`
  flood fill and the key-length tables;
- the spatial index in `Data`: `put`, `should_draw` and `get_features`;
- the plot loader in `Importer`: the plot cache, the request counter and its
  abort, node and way parsing, and the node→way→coastline task chain;
- the feature-level rules: hover and click styles, `sort_by_area`, and the
  relation's way and coastline collection;
- the configuration and style cascade: `Config`, in both of its copies, and
  `Style`;
- the `tags`, `highlight` and `go_to` helpers.

JavaScript values are a `Js.Value` datatype with JavaScript truthiness. A
property read on a missing key gives `undefined`. An exception the source
would throw becomes `Result.Error`. Prototype `Hash` key sets are sequences in
insertion order (JavaScript lists all-digit keys first; see Left out). Ajax, localStorage, timers and library code that is not shown
become parameters, events or uninterpreted functions.

Files, one module each:

| file | module | source |
|---|---|---|
| js.dfy | Js | JavaScript values, truthiness, `split`, `toLowerCase`, substring search, `parseInt` |
| tasks.dfy | Tasks | glop/tasks.js |
| timer.dfy | Timer | glop/timer.js |
| geohash.dfy | Geohash | mapping/geohash.js |
| data.dfy | Data | data/data.js |
| importer.dfy | Importer | data/importer.js and the legacy copies in cartagen.js |
| features.dfy | Features | data/feature.js, and `sort_by_area` in cartagen.js |
| relation.dfy | Relation | data/types/relation.js |
| style.dfy | Style | config/style.js |
| config.dfy | Config | the two copies of config/config.js |
| cartagen.dfy | Cartagen | src/cartagen.js: `tags`, `highlight`, `go_to` |

## Model

| member | source | states |
|---|---|---|
| Tasks.Register | cartagen/public/cartagen/src/glop/tasks.js:212-229 | The current uid is handed out and recorded as not done; the uid advances by one; on a fresh state the id was unused and the state stays fresh |
| Tasks.RegisterHandsOutConsecutiveIds | cartagen/public/cartagen/src/glop/tasks.js:212-229 | n registrations hand out consecutive ids (1, 2, 3, … from the initial state), each recorded as not done, and earlier entries are kept |
| Tasks.Complete | cartagen/public/cartagen/src/glop/tasks.js:235-237 | The id becomes done and every other registry entry is unchanged |
| Tasks.IsDone | cartagen/public/cartagen/src/glop/tasks.js:243-245 | The registry entry, or `undefined` for an id never registered |
| Tasks.NoneBlocking | cartagen/public/cartagen/src/glop/tasks.js:185-195 | The dependency loop passes iff no dependency is registered as exactly not done |
| Tasks.NewTask | cartagen/public/cartagen/src/glop/tasks.js:136-166 | The task gets the next id, its members, their count and its deps; a missing condition becomes `true`, any other is kept |
| Tasks.DefaultConditionPasses | cartagen/public/cartagen/src/glop/tasks.js:152-204 | A task built without a condition always passes it |
| Tasks.ExecNext | cartagen/public/cartagen/src/glop/tasks.js:170-180 | A task held back by a dependency changes nothing and answers true. Otherwise the head member is shifted off and processed (`undefined` for an empty queue). It answers false, and its id becomes done, exactly when no member is left |
| Tasks.DependentWaits | cartagen/public/cartagen/src/glop/tasks.js:170-192 | With an unfinished dependency, exec_next leaves task, registry and data untouched and answers true |
| Tasks.DrainProcessesInOrder | cartagen/public/cartagen/src/glop/tasks.js:170-180 | A runnable task is drained by max(1, \|members\|) calls, processing its members in order; an empty task processes `undefined` once and then completes |
| Tasks.WithoutId | cartagen/public/cartagen/src/glop/tasks.js:64 | The ids left are exactly the other ids, and distinct ids stay distinct |
| Tasks.WithoutIdKeepsOthers | cartagen/public/cartagen/src/glop/tasks.js:64-65 | `without` keeps exactly the tasks with a different id |
| Tasks.Remove | cartagen/public/cartagen/src/glop/tasks.js:65 | `cur_tasks.without` leaves exactly the other eligible ids, still distinct |
| Tasks.Step | cartagen/public/cartagen/src/glop/tasks.js:60-67 | One loop iteration serves `cur_tasks[i % length]` and keeps the tick invariants (ineligible tasks untouched, tasks leave only when done, conditions kept); a blocked task changes nothing but the counter |
| Tasks.StepOutcome | cartagen/public/cartagen/src/glop/tasks.js:60-67 | A task answering false leaves both the task list and the eligible ids, and every other task and id stays. Otherwise the eligible ids are unchanged and only the served task is rewritten. The loop ends early iff the process call threw |
| Tasks.ServedWereEligible | cartagen/public/cartagen/src/glop/tasks.js:54-61 | Every id a tick hands to exec_next belongs to a task that passed its condition when the tick started (cur_tasks is built once, before the loop) |
| Tasks.CompletedNotServedAgain | cartagen/public/cartagen/src/glop/tasks.js:60-67 | A task that answered false is never served again in the same tick |
| Tasks.Steps | cartagen/public/cartagen/src/glop/tasks.js:60-67 | The loop under a budget stops on an empty list, a spent budget or a thrown exception, and keeps the tick invariants |
| Tasks.BlockedTickSpins | cartagen/public/cartagen/src/glop/tasks.js:60-67 | When every eligible task waits on a dependency, the tick spends its whole budget and changes nothing else |
| Tasks.GetCompleted | cartagen/public/cartagen/src/glop/tasks.js:104-112 | completed × total = (total − left) × 100, and it is NaN exactly when total is 0 |
| Tasks.CompletedInRange | cartagen/public/cartagen/src/glop/tasks.js:104-112 | While no task holds more members than it started with, completion is between 0 and 100 |
| Tasks.Eligible | cartagen/public/cartagen/src/glop/tasks.js:54-58 | The ids picked at tick start are exactly those of tasks passing their condition |
| Tasks.Select | cartagen/public/cartagen/src/glop/tasks.js:69 | The tasks whose id is still eligible, and only those |
| Tasks.TickOutcome | cartagen/public/cartagen/src/glop/tasks.js:48-75 | Ineligible tasks are untouched; a task that disappears was eligible and is done; once no eligible id is left, every task left fails its condition |
| Tasks.Run | cartagen/public/cartagen/src/glop/tasks.js:48-75 | At most budget exec_next calls. A task leaves only once done in the registry, and completion is never undone. `completed` is the completion of the tasks eligible at tick start that are still listed, and lies in 0..100 while no task grew. The manager goes inactive iff its list empties. An exception leaves `completed` and `active` as they were |
| Tasks.IdleRun | cartagen/public/cartagen/src/glop/tasks.js:48-75 | When no task passes its condition, a tick serves nothing, changes no task or registry entry, and reports NaN completion |
| Tasks.Add | cartagen/public/cartagen/src/glop/tasks.js:80-84 | The task is appended and the manager is active afterwards |
| Timer.Run | cartagen/public/cartagen/src/glop/timer.js:69-76 | The new time goes in front; the oldest is dropped beyond 100 entries; the next delay is max(50, parseInt(spacing × sample)), so never below 50 |
| Timer.RunsKeepTimesBounded | cartagen/public/cartagen/src/glop/timer.js:73-74 | Any series of runs keeps at most 100 times, exactly min(start + runs, 100) of them |
| Timer.NewestTimeIgnored | cartagen/public/cartagen/src/glop/timer.js:73-92 | Index 0 is never sampled, so the run just finished does not affect the delay it schedules |
| Timer.Delay | cartagen/public/cartagen/src/glop/timer.js:75 | The next delay is never below 50 ms |
| Timer.SampleReadsOnlyIndices | cartagen/public/cartagen/src/glop/timer.js:81-92 | The sample depends only on the entries at indices 1, 2, 3, 5, 8, 13, with missing entries read as 0 |
| Timer.SampleBounds | cartagen/public/cartagen/src/glop/timer.js:86-92 | With all times in 0..top, the sample (six entries over 9) lies in 0..6·top/9 |
| Timer.Setup | cartagen/public/cartagen/src/glop/timer.js:44-57 | A falsy spacing or interval keeps the current value; the first delay is the interval |
| Timer.SetupDefaults | cartagen/public/cartagen/src/glop/timer.js:22-57 | Without arguments the spacing stays 0.8 (not the 2 of the doc comment) and the first run is 10 ms away |
| Geohash.Truncate | cartagen/public/cartagen/src/mapping/geohash.js:52 | `truncate(n, '')` gives a prefix of length min(\|s\|, n); a falsy n of 0 is read as 30 |
| Geohash.GetKey | cartagen/public/cartagen/src/mapping/geohash.js:48-53 | The key is a prefix of the encoded point: length 6 for a missing or zero length, 1 for a negative one, otherwise the length asked for |
| Geohash.GetKeyNests | cartagen/public/cartagen/src/mapping/geohash.js:48-53 | A coarser key of a point is a prefix of a finer one |
| Geohash.Mark | cartagen/public/cartagen/src/mapping/geohash.js:65 | `hash.set(key, true)` keeps every entry in place and adds the key once |
| Geohash.UpwardAddsPrefixes | cartagen/public/cartagen/src/mapping/geohash.js:62-71 | get_keys_upward keeps every entry in place and adds exactly the key and its non-empty prefixes, without duplicates |
| Geohash.UpwardKeepsClosed | cartagen/public/cartagen/src/mapping/geohash.js:62-71 | Marking upward keeps a prefix-closed hash prefix-closed |
| Geohash.FourNeighbors | cartagen/public/cartagen/src/mapping/geohash.js:79-85 | The neighbours in the order top, right, bottom, left |
| Geohash.EightNeighbors | cartagen/public/cartagen/src/mapping/geohash.js:93-101 | Clockwise from the top, diagonals taken from the top and bottom neighbours |
| Geohash.NeighborsKeepLength | cartagen/public/cartagen/src/mapping/geohash.js:93-101 | With a well-formed library every neighbour is a valid key of the same length |
| Geohash.Bbox | cartagen/public/cartagen/src/mapping/geohash.js:137-140 | The decoded cell in `[lon0, lat1, lon1, lat0]` layout, with the key |
| Geohash.ExpandableIffBboxInside | cartagen/public/cartagen/src/mapping/geohash.js:118-140 | The fill test holds iff the key's bbox lies inside the viewport box |
| Geohash.FillBbox | cartagen/public/cartagen/src/mapping/geohash.js:109-130 | Terminates over the finite set of fixed-length keys; only appends, and keeps the hash free of duplicates |
| Geohash.FillBboxCloses | cartagen/public/cartagen/src/mapping/geohash.js:109-130 | Every neighbour of the start key ends up present. Every added key that was expanded has all its neighbours present. Every added key was reached from the start or from an expanded key |
| Geohash.KeyBranchesMatchTables | cartagen/public/cartagen/src/mapping/geohash.js:199-226 | Each if-chain equals 12 minus the number of thresholds its value has reached |
| Geohash.GetKeyLength | cartagen/public/cartagen/src/mapping/geohash.js:199-229 | The minimum of the two branch results, in 0..12 |
| Geohash.GetKeyLengthMonotone | cartagen/public/cartagen/src/mapping/geohash.js:199-229 | A larger feature never gets a longer key |
| Data.GetFeaturesByKey | cartagen/public/cartagen/src/data/data.js:157-159 | The features filed under the key, or none |
| Data.Put | cartagen/public/cartagen/src/data/data.js:120-133 | Only the index changes, and it gains the feature's key |
| Data.PutThenGet | cartagen/public/cartagen/src/data/data.js:120-159 | After put, the feature is last in its key's list, the earlier entries are kept, and other keys are unchanged |
| Data.PutDefaultLength | cartagen/public/cartagen/src/data/data.js:120-133 | Without a length the feature is filed under the 6-character key |
| Data.ShouldDraw | cartagen/public/cartagen/src/data/data.js:97-110 | A forced update draws. Otherwise it throws while `features` is undefined; else it draws iff the list is empty, the zoom left the ±10% band, or the map moved more than 100 on an axis |
| Data.ZoomChangedOutsideBand | cartagen/public/cartagen/src/data/data.js:100-101 | For a positive last zoom, the ratio test is zoom > 1.1·last or zoom < 0.9·last |
| Data.StillMapNeedsNoDraw | cartagen/public/cartagen/src/data/data.js:97-110 | An unmoved, unzoomed map with features needs no new draw |
| Data.InitialShouldDrawThrows | cartagen/public/cartagen/src/data/data.js:97-110 | Before the first get_features, an unforced should_draw throws |
| Data.KeyLengthAtZoom | cartagen/public/cartagen/src/data/data.js:245 | The key length lies in 0..12, and zoom 0 gives 0 |
| Data.KeyLengthGrowsWithZoom | cartagen/public/cartagen/src/data/data.js:245 | Zooming in never shortens the key |
| Data.UpwardAllAddsPrefixes | cartagen/public/cartagen/src/data/data.js:253-255 | Marking every key upward adds exactly the non-empty prefixes of those keys |
| Data.CollectedHolds | cartagen/public/cartagen/src/data/data.js:257-262 | A feature is gathered iff it is filed under one of the current keys |
| Data.CurrentKeys | cartagen/public/cartagen/src/data/data.js:245-255 | The central key is a prefix of the encoded view centre |
| Data.SetAll | cartagen/public/cartagen/src/data/data.js:257-262 | Every current key maps to its index entry, other keys are kept, and the key set is the union |
| Data.GetFeatures | cartagen/public/cartagen/src/data/data.js:232-266 | The position is recorded and `features` reset. The key length and central key follow the zoom. The gathered features go in front of the previous list before sorting. The index and the force flag are unchanged |
| Data.GetFeaturesKeys | cartagen/public/cartagen/src/data/data.js:245-255 | The current keys are duplicate-free and prefix-closed, contain the filled keys, and are exactly their prefixes |
| Data.GetFeaturesKeepsPrevious | cartagen/public/cartagen/src/data/data.js:257-264 | The previous current_features are kept: with a permuting sort, the new list is the gathered features plus the old ones |
| Data.DrawsAfterGetFeatures | cartagen/public/cartagen/src/data/data.js:97-110 | Right after get_features, `features` is empty, so should_draw answers true |
| Data.GetFeaturesUpward | cartagen/public/cartagen/src/data/data.js:177-186 | Always undefined: the features gathered from the key and its prefixes stay in a local that is discarded, and so is the truncated key |
| Importer.LoadPlot | cartagen/public/cartagen/src/data/importer.js:108-116 | One more request is in flight for the key, and the counter goes up by one |
| Importer.GetCachedPlot | cartagen/public/cartagen/src/data/importer.js:66-99 | With live set it always fetches; a key already seen does nothing; a localStorage hit parses the stored text; any other key is fetched; then the key is marked. It throws, changing nothing, iff the cached text is one the parser rejects |
| Importer.BrokenCacheThrowsForever | cartagen/public/cartagen/src/data/importer.js:66-99 | A cached text the parser rejects is never marked, so every later ask throws again |
| Importer.CachedPlotIdempotent | cartagen/public/cartagen/src/data/importer.js:66-99 | Asking twice for the same key when not live is the same as asking once |
| Importer.FetchOk | cartagen/public/cartagen/src/data/importer.js:117-127 | A response to an attached request sets finished. A text that parses is queued, and then, with localStorage, cached and counted down; a missing localStorage or a throwing parse stops before the decrement, leaving the request counted |
| Importer.BrokenResponseStaysCounted | cartagen/public/cartagen/src/data/importer.js:117-143 | After a response whose parse throws, the counter is unchanged, and the timer no longer unmarks the key |
| Importer.FetchFailed | cartagen/public/cartagen/src/data/importer.js:128-130 | A failure of an attached request settles and detaches it and decrements the counter, leaving `finished` as it was; a detached request's failure changes nothing; no other request, plot mark or parse changes |
| Importer.TimeoutFired | cartagen/public/cartagen/src/data/importer.js:134-143 | After 120 s a pending timer of an unfinished request unmarks its key and detaches its callbacks; otherwise marks and attachment stay; either way the timer is spent, the settled flag, the counter, the parses and every other request are unchanged |
| Importer.ApplyKeepsInv | cartagen/public/cartagen/src/data/importer.js:108-144 | Every event, including a response or cached text the parser rejects, keeps the counter equal to the number of unsettled requests |
| Importer.CounterTracksRequests | cartagen/public/cartagen/src/data/importer.js:108-144 | Over any event sequence, whichever texts the parser rejects, the counter tracks the unsettled requests and never goes negative |
| Importer.AbortedStaysCounted | cartagen/public/cartagen/src/data/importer.js:134-143 | An aborted request is never settled again, so it stays counted |
| Importer.AbortedKeyRefetched | cartagen/public/cartagen/src/data/importer.js:66-143 | After an abort, the next request for the key fetches it again |
| Importer.CachedAll | cartagen/public/cartagen/src/data/importer.js:30-39 | Every 6-character key goes through get_cached_plot and ends up marked, unless a cached text throws, which ends the walk; with no such text (or live loading) nothing throws |
| Importer.BrokenCacheAbandonsWalk | cartagen/public/cartagen/src/data/importer.js:30-39 | A throwing cached text for the first key abandons the rest of the walk |
| Importer.GetCurrentPlot | cartagen/public/cartagen/src/data/importer.js:26-44 | The position is recorded. Requests are only added, with 6-character keys. Nothing is requested unless both coordinates moved, or it is forced, or the frame is below 100; when it moved, every wanted 6-character key ends up marked unless a cached text throws |
| Importer.SamePositionIsQuiet | cartagen/public/cartagen/src/data/importer.js:26-44 | Past frame 100, an unforced call at the recorded position changes nothing |
| Importer.HorizontalPanRequestsNothing | cartagen/public/cartagen/src/data/importer.js:27 | A pan along one axis only (after frame 100, unforced) requests nothing |
| Importer.NewNodeAsWritten | cartagen/public/cartagen/src/data/importer.js:145-159 | The node as the code builds it: author and img come from the new node itself, so they are lost |
| Importer.NewNode | cartagen/public/cartagen/src/data/importer.js:145-159 | The corrected node copies author and img, with h = w = 10 and radius 50 when displayed |
| Importer.AuthorDropped | cartagen/public/cartagen/src/data/importer.js:148 | A raw node with an author loses it in the code as written |
| Importer.StoreNode | cartagen/public/cartagen/src/data/importer.js:160-169 | The node is stored under its id with every other entry kept; the index changes iff the node is displayed, by appending it to the list of its one-character key |
| Importer.ParseNode | cartagen/public/cartagen/src/data/importer.js:145-170 | As written: the stored node has the raw id and position but no author or image; other entries are kept; the index changes iff the node is displayed |
| Importer.ParseNodeFixed | cartagen/public/cartagen/src/data/importer.js:145-170 | Corrected: the same, with the raw author and image kept |
| Importer.DisplayedNodeIndexed | cartagen/public/cartagen/src/data/importer.js:165-169 | A displayed node lands last under the one-character key of its position, and it is the node stored under its id (as written, without author) |
| Importer.Decimate | cartagen/public/cartagen/src/data/importer.js:181-186 | The loop keeps exactly the known nodes at the indices the simplify rule selects |
| Importer.KeptMembers | cartagen/public/cartagen/src/data/importer.js:182-184 | A node is kept iff some selected reference resolves to it |
| Importer.KeptEnds | cartagen/public/cartagen/src/data/importer.js:182 | The first and last nodes of a way are always kept when known |
| Importer.ShortWayKeepsAll | cartagen/public/cartagen/src/data/importer.js:182 | A way of at most 2·simplify nodes keeps every node |
| Importer.ParseWayAsWritten | cartagen/public/cartagen/src/data/importer.js:171-198 | An already-loaded way is skipped unless live. A single tag object throws a ReferenceError and a missing tag a TypeError. Otherwise coastline is set iff some tag value is 'coastline' |
| Importer.ParseWay | cartagen/public/cartagen/src/data/importer.js:171-198 | The corrected parser: a single tag is handled like a one-element list, so only a missing tag throws; the way keeps id, user and timestamp, the kept nodes, and its name exactly when the name is truthy (`if (way.name)`) |
| Importer.OneTagWayThrows | cartagen/public/cartagen/src/data/importer.js:192-195 | A way with one coastline tag throws as written but parses after correction |
| Importer.ParseWayAgrees | cartagen/public/cartagen/src/data/importer.js:171-198 | The two parsers agree on every way whose tag is not a single object |
| Importer.ParseObjects | cartagen/public/cartagen/src/data/importer.js:204-226 | Three tasks are appended with consecutive new ids and the same condition: way waits on node, coastline on way |
| Importer.PlotConditionMeaning | cartagen/public/cartagen/src/data/importer.js:206-214 | With a key, the tasks pass iff the wanted-key hash maps it to exactly `true`; without one they always pass |
| Importer.ChainWaits | cartagen/public/cartagen/src/data/importer.js:216-218 | The way task cannot run until the node task is done, nor the coastline task until the way task is |
| Features.GetType | cartagen/public/cartagen/src/data/feature.js:125-127 | "Way" exactly for ways |
| Features.ApplyStyles | cartagen/public/cartagen/src/data/feature.js:70-75 | Each style key takes the style's value; its old value is saved only when truthy; nothing else changes |
| Features.RemoveStyles | cartagen/public/cartagen/src/data/feature.js:80-82 | The saved values are written back over the properties |
| Features.ApplyDefaultStyles | cartagen/public/cartagen/src/data/feature.js:103-119 | The fixed defaults are restored and both saved maps emptied; every other property, the area, kind and hover and click styles are unchanged |
| Features.HoverRoundTrip | cartagen/public/cartagen/src/data/feature.js:70-82 | Hover on then off restores truthy originals; falsy ones keep the hover value; nothing else moves |
| Features.DefaultsThenHoverRestores | cartagen/public/cartagen/src/data/feature.js:70-119 | After defaults, hover on and off restores every truthy default |
| Features.HoverTwiceLosesOriginal | cartagen/public/cartagen/src/data/feature.js:70-75 | Hovering twice saves the hover value, so removing no longer restores the original |
| Features.HoverAndClickIndependent | cartagen/public/cartagen/src/data/feature.js:70-99 | Hover and click keep separate saved maps |
| Features.ClickRoundTrip | cartagen/public/cartagen/src/data/feature.js:87-99 | Click on then off restores like hover does |
| Features.SortByArea | cartagen/public/cartagen/src/cartagen.js:387-401 | Two ways compare by descending area, and a way comes first. Any non-way first argument answers 1 |
| Features.SortByAreaNotAntisymmetric | cartagen/public/cartagen/src/cartagen.js:398-400 | A node and a relation each compare greater than the other |
| Features.SortByAreaFixedConsistent | cartagen/public/cartagen/src/cartagen.js:387-401 | The corrected comparator is antisymmetric and agrees with the original whenever a way is involved |
| Features.SortByAreaFixedTransitive | cartagen/public/cartagen/src/cartagen.js:387-401 | The corrected comparator is transitive |
| Relation.CollectWays | cartagen/public/cartagen/src/data/types/relation.js:98-103 | The node count adds up, and the tags come back unchanged because the merge result is discarded |
| Relation.CollectWaysReverses | cartagen/public/cartagen/src/data/types/relation.js:98-103 | The members' node lists end up concatenated in reverse member order, in front of the nodes already there |
| Relation.RelationFlags | cartagen/public/cartagen/src/data/types/relation.js:47-63 | closed_poly iff more than one node and the ends coincide; coastline always; island iff natural=land |
| Relation.ClosedWayMakesClosedPoly | cartagen/public/cartagen/src/data/types/relation.js:56-103 | A relation of one closed way is a closed polygon |
| Relation.CollectNodes | cartagen/public/cartagen/src/data/types/relation.js:137-165 | The entry node (the first node if inside, else the one before the first inside node), then every inside node; the angle step fails iff nothing was collected |
| Relation.InsideKeepsExactlyInside | cartagen/public/cartagen/src/data/types/relation.js:145-153 | A node is among the pushed nodes iff it is inside the viewport (the entry node is added separately) |
| Relation.FirstInsideTwice | cartagen/public/cartagen/src/data/types/relation.js:143-153 | A first node already inside is collected twice, at the front |
| Relation.NoneInsideFails | cartagen/public/cartagen/src/data/types/relation.js:137-165 | With no node inside, nothing is collected |
| Style.ExtendValue | cartagen/public/cartagen/src/config/style.js:133-139 | Two arrays are concatenated; otherwise the new value wins |
| Style.ResolveIsFold | cartagen/public/cartagen/src/config/style.js:74-102 | A property starts from the selector's value and is extended, in order, by the name's style and then each tag's key and value styles, counting only truthy ones |
| Style.LastSourceWins | cartagen/public/cartagen/src/config/style.js:74-102 | The last non-array source supersedes every earlier one |
| Style.ArraysAccumulate | cartagen/public/cartagen/src/config/style.js:133-139 | When every source is an array, the result is all of them concatenated in order |
| Style.ParseStyles | cartagen/public/cartagen/src/config/style.js:70-124 | Only truthy resolved values are written. Label properties go to the label and the rest to the feature. A value with gss_update_interval is written by its refresher, which is not modelled |
| Style.ZeroOpacityNeverSet | cartagen/public/cartagen/src/config/style.js:105 | An opacity of 0 can never be set |
| Style.LastTagValueDecides | cartagen/public/cartagen/src/config/style.js:96-101 | A plain value from the last tag's value style decides the property over selector and name |
| Style.StylesheetUrl | cartagen/public/cartagen/src/config/style.js:188-190 | A URL starting "http" is prefixed with "/utility/proxy?url="; any other is unchanged |
| Style.StylesheetUrlIdempotent | cartagen/public/cartagen/src/config/style.js:188-190 | Rewriting twice is rewriting once |
| Style.Debugged | cartagen/public/cartagen/src/config/style.js:208-213 | A truthy debug section is always deleted, and merged in only when Config.debug is set |
| Style.ApplyGss | cartagen/public/cartagen/src/config/style.js:204-237 | The new styles have the keys left after the debug step, each style refreshed; it throws iff some style's refresh throws, in particular for a null style |
| Style.Refresh | cartagen/public/cartagen/src/config/style.js:215-220 | A null or undefined style throws on reading `refresh`; without a truthy `refresh` the style is unchanged; a change keeps the style's property names; a property not named in `refresh`, or whose value is not an object, keeps its value; with an object `refresh`, the pass throws iff some named property is undefined or null |
| Style.NullStyleThrows | cartagen/public/cartagen/src/config/style.js:215-216 | A null style entry makes apply_gss throw |
| Style.RefreshSetsInterval | cartagen/public/cartagen/src/config/style.js:215-220 | When every property named in `refresh` is present and not null, the pass succeeds and each named object value gets its gss_update_interval |
| Style.RefreshOfMissingThrows | cartagen/public/cartagen/src/config/style.js:218 | A refresh entry naming a property the style lacks throws |
| Config.Defaults | cartagen/public/cartagen/src/config/config.js:7-26 | The stylesheet default is "/style.gss", debug is off, and the default layer list has one entry |
| Config.Handler | cartagen/public/cartagen/src/config/config.js:40-63 | Only static_map_layers writes the configuration; the other handlers only act elsewhere |
| Config.RunOne | cartagen/public/cartagen/src/config/config.js:108-110 | run_handler calls the handler, with the option's value, iff the option is truthy; only the layer option can change, and only under its own handler |
| Config.Init | cartagen/public/cartagen/src/config/config.js:69-77 | Initialisation leaves every option but the layer list as the passed options, URL parameters and aliases set it |
| Config.ApplyAliasesKeepsOthers | cartagen/public/cartagen/src/config/config.js:89-95 | Aliases only write their canonical options |
| Config.SingleAlias | cartagen/public/cartagen/src/config/config.js:89-95 | A single alias is copied when truthy, and nothing else is touched |
| Config.RanIff | cartagen/public/cartagen/src/config/config.js:99-110 | A handler runs, with its option's value, iff that option is truthy |
| Config.LayersSplit | cartagen/public/cartagen/src/config/config.js:52-56 | A string layer list becomes its comma-separated pieces, which join back to the string |
| Config.AliasPassLastTruthy | cartagen/public/cartagen/src/config/config.js:89-95 | An alias pass sets the option to the last truthy alias and leaves it alone when none is truthy |
| Config.LastTruthy | cartagen/public/cartagen/src/config/config.js:89-95 | The reference: the value of a truthy alias after which no alias is truthy |
| Config.GssAlias | cartagen/public/cartagen/src/config/config.js:31-33 | The stylesheet option takes a truthy gss, in both copies |
| Config.ZoomAlias | src/config/config.js:27-75 | Only the src copy copies a truthy zoom into zoom_level |
| Config.UrlValue | src/config/config.js:61-68 | The src copy turns exactly 'true' and 'false' into booleans; the public copy keeps strings |
| Config.GetUrlParams | src/config/config.js:61-68 | The same parameters, each read as the copy reads it |
| Config.InitOverrideOrder | src/config/config.js:52-60 | A URL parameter beats a passed option, which beats the current value, for every option no alias or handler rewrites |
| Config.InitRunsTruthyHandlers | cartagen/public/cartagen/src/config/config.js:69-77 | Initialisation runs exactly the handlers whose option is truthy after aliases |
| Config.SrcUrlFalseNeverRuns | src/config/config.js:64-81 | In the src copy a URL 'false' never triggers its handler |
| Config.PublicUrlFalseRuns | cartagen/public/cartagen/src/config/config.js:83-110 | In the public copy a URL 'false' is a non-empty string, so its handler runs |
| Cartagen.CollectMembers | src/cartagen.js:411-431 | A tag is listed iff it occurs and is not blocked |
| Cartagen.CollectIsFirstAppearances | src/cartagen.js:411-431 | The listing is exactly the first appearance of each unblocked tag, in order |
| Cartagen.Tags | src/cartagen.js:406-436 | A missing or empty type means text (JSON); 'alert' returns nothing; any other returns the array. The list holds exactly the unblocked tags |
| Cartagen.FilterCannotBeDisabled | src/cartagen.js:408 | Passing false as filter lists the same tags as passing true |
| Cartagen.TagsInFirstAppearanceOrder | src/cartagen.js:411-418 | The listing has no duplicates and follows first appearance |
| Cartagen.Highlight | src/cartagen.js:329-342 | Every object is cleared. A way with tags, under a non-empty query, is set iff the query matches a tag key or value, the user or the description, ignoring ASCII case |
| Cartagen.HighlightOneMeaning | src/cartagen.js:331-340 | One object is set iff it is a way with tags, the query is non-empty, and some tag key or value, the user or the description matches |
| Cartagen.EmptyQueryClears | src/cartagen.js:331-332 | An empty query leaves no object highlighted |
| Cartagen.MatchIgnoresCase | src/cartagen.js:334 | Matching ignores ASCII case on either side |
| Cartagen.GoTo | src/cartagen.js:317-323 | The zoom falls back to Map.zoom_level when the zoom given is falsy; lat and lon are set |
| Cartagen.FalsyZoomsAgree | src/cartagen.js:318 | Every falsy zoom, 0 included, behaves like an omitted one, so zoom 0 cannot be asked for |

## Left out

- Rendering, events, the context menu and debug output. They draw to a canvas or react to UI input.
- Ajax, localStorage and `setTimeout`/`delay` become events (`Importer.Event`) over an optional storage map. The `Importer.FetchOk` storage write is modelled as the exception it raises when storage is missing.
- Which plot texts make parse_objects throw (a body evalJSON rejects, or a plot without a node or a way list, whose `members.length` the Task constructor reads) is a parameter `broken` of the importer operations, not derived from the text.
- Library code that is not shown becomes parameters:
  - encodeGeoHash, decodeGeoHash, calculateAdjacent and Math.in_range are fields of `Geohash.Lib`;
  - `Object.deep_extend` is a parameter of `Style.ApplyGss`;
  - `Geometry.sort_by_area` (sort_objects) is a parameter of `Data.GetFeatures`;
  - `Object.value` is the identity in `Style`;
  - `toQueryParams` is given already parsed as a string map;
  - Projection is left out, so `Cartagen.GoTo` does not compute Map.x and Map.y.
- `Geohash.put` and `Geohash.keys` are called at importer.js:168 and :209, but geohash.js defines neither. Index insertion uses `Data.Put`, and the wanted-key hash is a plain map.
- `Geohash.last_get_objects` at importer.js:125 and `Glop.trigger_draw` are not modelled.
- `Data.GetFeatures`: JavaScript enumerates the all-digit keys of an object (such as "9" or "23") first, in ascending numeric order, and the rest in insertion order. The model keeps every key list in insertion order, so for such geohash keys the order of `currentKeys`, and of the features gathered before sorting, can differ. The sets of keys and features are the same.
- `Data.GetFeatures`: `current_geohash_index` entries are modelled as copies. In the source they alias index arrays, so later puts show through. Not modelled.
- `Data.GetFeaturesUpward` is modelled as the function's result only.
- Relation: the constructor's `Datarelations` reference, the centroid, and the `entry_angle` trigonometry are not modelled. `Relation.CollectNodes` reports only whether the angle step can read a first node.
- Style refreshers (`create_refresher`, `refresh_style`) are not modelled; `Style.ParseStyles` reports which properties get one. The menu registration of `apply_gss` is not modelled either, nor is its rewrite of a non-body style's menu.
- `Style.Refresh`: a truthy non-object `refresh` value (a string or an array, whose indices Prototype would enumerate) is treated as having no entries. A refresh write to an array value has no effect here.
- Label defaults of `apply_default_styles` are not modelled; `Feature` has no label.
- `Tasks`: the wall-clock quota of `TaskManager#run` is a budget of exec_next calls. A member list given as a non-array is not modelled.
- `Tasks.Run`: the calls to `Data.get_features()` and `Glop.trigger_draw()` at the end of every tick (tasks.js:71-72) are not part of the result; `Data.GetFeatures` models the first on its own.
- `Timer.Run` takes the execution time as a parameter, since it comes from the clock.
- `Timer.Delay`: `parseInt` of a number reads the number's decimal string, so for a magnitude of 1e21 or more it reads only the leading digit of the exponent form (`parseInt(1.5e21)` is 1). `Js.Trunc` gives the full truncated value instead; the delay differs only for sample times of that size.
- `Timer.Run`: `this.f.apply(...)` runs before the `setTimeout` (timer.js:71-75), so an exception from `f` ends the timer loop for good. The model takes `f`'s execution time as a parameter and has no such outcome.
- `Style.ApplyGss`: the `force_update` argument of apply_gss (style.js:243-247) is not modelled; the model covers the argument list of its one caller (style.js:197). With a truthy `force_update`, `Data.each` reaches `Data._each`, which calls `this.hash.each` (data.js:273-274) on a Data object that has no `hash` field, so the call would throw whatever the styles are.
- `Cartagen.Highlight`: `String#match` treats the query as a regular expression. The model reads it as plain text, so regex metacharacters are not modelled.
- `Cartagen.Highlight`: `Js.Lower` folds only ASCII letters, while `String#toLowerCase` folds all of Unicode, so a query with non-ASCII capitals can match in the source and not in the model.
- `Cartagen.Tags`: only string or missing `type` arguments are modelled, and the JSON text is represented by the list it encodes.
- `Config.Init`: an option named like a method of Config (`aliases`, `handlers`, `initialize`) would overwrite it; this is not modelled.
- `Data.ZoomChanged`: a zoom of −0 is not distinguished from 0.
- Numbers are exact reals, with NaN and the infinities handled only where the source reaches them.
- `Style.Debugged`: apply_gss deletes the debug section only when it is truthy (style.js:208-213). A falsy `debug` entry stays among the styles, and the model keeps it too.

## Findings

| source | as written | input that shows it | evidently intended | confidence | as-written member | corrected member |
|---|---|---|---|---|---|---|
| cartagen/public/cartagen/src/data/importer.js:194 (also cartagen/public/cartagen/src/cartagen.js:464) | the single-tag branch tests `tag.v`, but no `tag` is in scope there | a way whose `tag` is one object `{k: "natural", v: "coastline"}` | test `way.tag.v`, as the array branch tests each tag | high; not executed | Importer.ParseWayAsWritten (Importer.OneTagWayThrows) | Importer.ParseWay |
| cartagen/public/cartagen/src/cartagen.js:398-400 | a non-Way first argument answers 1 whatever the second is | a Node and a Relation: each compares greater than the other | non-Ways tie with each other, so the comparator is antisymmetric | high; not executed | Features.SortByArea (Features.SortByAreaNotAntisymmetric) | Features.SortByAreaFixed (Features.SortByAreaFixedConsistent) |
| cartagen/public/cartagen/src/data/importer.js:148-149 (also cartagen/public/cartagen/src/cartagen.js:418-419) | `n.author = n.author` and `n.img = n.img` copy the new node onto itself | a raw node with author "alice" | copy `node.author` and `node.img`, as the neighbouring lines copy the other fields | high; not executed | Importer.NewNodeAsWritten (Importer.AuthorDropped, Importer.ParseNode) | Importer.NewNode (Importer.ParseNodeFixed) |

=== FILE: cartagen.dfy ===
/**
 * Three small rules of the Cartagen namespace (src/cartagen.js): the tag
 * listing with its de-duplication and blacklist, tag search highlighting, and
 * the zoom fallback of go_to.
 */
module Cartagen {
  import opened Js

  /** A tag as `[key, value]`. */
  type Tag = (string, string)

  /** Keys and values never listed. "tiger:name_base" appears twice in the source list. */
  const Blacklist: seq<string> :=
    ["created_by", "tiger:upload_uuid", "tiger:source", "tiger:name_base",
     "tiger:reviewed", "tiger:cfcc", "tiger:county", "tiger:separated",
     "tiger:name_base", "tiger:name_type", "tiger:tlid", "tiger:zip_left",
     "tiger:zip_right"]

  /** A tag is blocked when its key or its value equals a blacklist entry. */
  predicate Blocked(t: Tag) {
    t.0 in Blacklist || t.1 in Blacklist
  }

  /** The tags of all objects in order; objects without tags contribute nothing. */
  function AllTags(objs: seq<Option<seq<Tag>>>): seq<Tag> {
    if |objs| == 0 then []
    else (if objs[0].Some? then objs[0].value else []) + AllTags(objs[1..])
  }

  /**
   * The collection loop of Cartagen.tags: a tag already collected is skipped;
   * otherwise, when filtering, a blocked tag is dropped, and the rest are
   * appended.
   */
  function Collect(tags: seq<Tag>, filter: Value): (r: seq<Tag>)
    ensures |r| <= |tags|
  {
    if |tags| == 0 then []
    else
      var prev := Collect(tags[..|tags| - 1], filter);
      var t := tags[|tags| - 1];
      if t in prev then prev
      else if Truthy(filter) && Blocked(t) then prev
      else prev + [t]
  }

  /** Independent statement of the listing: a tag is kept at its first occurrence, unless blocked. */
  function FirstAppearances(tags: seq<Tag>): seq<Tag> {
    if |tags| == 0 then []
    else
      var t := tags[|tags| - 1];
      FirstAppearances(tags[..|tags| - 1]) + (if !Blocked(t) && t !in tags[..|tags| - 1] then [t] else [])
  }

  /** With filtering on, a tag is collected iff it occurs and is not blocked. */
  lemma {:induction false} CollectMembers(tags: seq<Tag>, t: Tag)
    ensures t in Collect(tags, Bool(true)) <==> t in tags && !Blocked(t)
  {
    if |tags| > 0 {
      var n := |tags| - 1;
      CollectMembers(tags[..n], t);
      assert tags == tags[..n] + [tags[n]];
    }
  }

  lemma CollectMembersAll(tags: seq<Tag>)
    ensures forall t :: t in Collect(tags, Bool(true)) <==> t in tags && !Blocked(t)
  {
    forall t {
      CollectMembers(tags, t);
    }
  }

  /** The collection loop lists exactly the first appearances of the unblocked tags. */
  lemma {:induction false} CollectIsFirstAppearances(tags: seq<Tag>)
    ensures Collect(tags, Bool(true)) == FirstAppearances(tags)
  {
    if |tags| > 0 {
      var n := |tags| - 1;
      CollectIsFirstAppearances(tags[..n]);
      CollectMembers(tags[..n], tags[n]);
    }
  }

  lemma {:induction false} CollectDistinct(tags: seq<Tag>, filter: Value)
    ensures NoDuplicates(Collect(tags, filter))
  {
    if |tags| > 0 {
      var prev := Collect(tags[..|tags| - 1], filter);
      CollectDistinct(tags[..|tags| - 1], filter);
      var t := tags[|tags| - 1];
      if t !in prev && !(Truthy(filter) && Blocked(t)) {
        var r := prev + [t];
        assert Collect(tags, filter) == r;
        forall i, j | 0 <= i < j < |r|
          ensures r[i] != r[j]
        {
          assert r[i] == prev[i];
          if j == |prev| {
            assert r[j] == t;
          } else {
            assert r[j] == prev[j];
          }
        }
      }
    }
  }

  /** No tag is listed twice. */
  predicate NoDuplicates(r: seq<Tag>) {
    forall i, j :: 0 <= i < j < |r| ==> r[i] != r[j]
  }

  /** What Cartagen.tags hands back. */
  datatype Listing =
    | Json(tags: seq<Tag>)  // the JSON text of these tags
    | Nothing               // after showing them in an alert
    | Pairs(tags: seq<Tag>)

  /**
   * Cartagen.tags: a missing or empty type means "text"; `filter || true`
   * makes the filter truthy whatever is passed.
   */
  function Tags(objs: seq<Option<seq<Tag>>>, kind: Option<string>, filter: Value): (r: Listing)
    ensures (kind.None? || kind == Some("") || kind == Some("text")) <==> r.Json?
    ensures r.Nothing? <==> kind == Some("alert")
    ensures !r.Nothing? ==> forall t :: t in r.tags <==> t in AllTags(objs) && !Blocked(t)
  {
    var k := if kind.Some? && kind.value != "" then kind.value else "text";
    var f := if Truthy(filter) then filter else Bool(true);
    var tags := Collect(AllTags(objs), f);
    CollectMembersAll(AllTags(objs));
    FilterAlwaysOn(AllTags(objs), f);
    if k == "text" then Json(tags)
    else if k == "alert" then Nothing
    else Pairs(tags)
  }

  /** The collection only asks whether the filter is truthy. */
  lemma {:induction false} FilterAlwaysOn(tags: seq<Tag>, f: Value)
    requires Truthy(f)
    ensures Collect(tags, f) == Collect(tags, Bool(true))
  {
    if |tags| > 0 {
      FilterAlwaysOn(tags[..|tags| - 1], f);
    }
  }

  /** Filtering cannot be switched off: passing false lists the same tags as passing true. */
  lemma FilterCannotBeDisabled(objs: seq<Option<seq<Tag>>>, kind: Option<string>)
    ensures Tags(objs, kind, Bool(false)) == Tags(objs, kind, Bool(true))
  {
  }

  /** The listing is in order of first appearance and free of duplicates. */
  lemma TagsInFirstAppearanceOrder(objs: seq<Option<seq<Tag>>>, kind: Option<string>, filter: Value)
    requires !Tags(objs, kind, filter).Nothing?
    ensures Tags(objs, kind, filter).tags == FirstAppearances(AllTags(objs))
    ensures NoDuplicates(Tags(objs, kind, filter).tags)
  {
    var f := if Truthy(filter) then filter else Bool(true);
    FilterAlwaysOn(AllTags(objs), f);
    CollectIsFirstAppearances(AllTags(objs));
    CollectDistinct(AllTags(objs), f);
  }

  /** An object as highlight looks at it. */
  datatype Item = Item(isWay: bool, tags: Option<seq<Tag>>, user: Option<string>, description: Option<string>, highlight: bool)

  /** `s.toLowerCase().match(query.toLowerCase())`, with the query read as plain text. */
  predicate Matches(s: string, query: string) {
    Contains(Lower(s), Lower(query))
  }

  /** Some tag's key or value matches, scanning the tags in order. */
  function AnyTagMatches(tags: seq<Tag>, query: string): bool {
    if |tags| == 0 then false
    else Matches(tags[0].0, query) || Matches(tags[0].1, query) || AnyTagMatches(tags[1..], query)
  }

  lemma {:induction false} AnyTagMatchesExists(tags: seq<Tag>, query: string)
    ensures AnyTagMatches(tags, query) <==>
      exists i :: 0 <= i < |tags| && (Matches(tags[i].0, query) || Matches(tags[i].1, query))
  {
    if |tags| > 0 {
      AnyTagMatchesExists(tags[1..], query);
      if AnyTagMatches(tags[1..], query) {
        var i :| 0 <= i < |tags[1..]| && (Matches(tags[1..][i].0, query) || Matches(tags[1..][i].1, query));
        assert tags[1..][i] == tags[i + 1];
      }
    }
  }

  /** A user or description counts only when it is a non-empty string. */
  predicate TextMatches(s: Option<string>, query: string) {
    s.Some? && s.value != "" && Matches(s.value, query)
  }

  /** The highlight decision for one object, after it has been cleared. */
  function HighlightOne(o: Item, query: string): (r: Item)
    ensures r == o.(highlight := r.highlight)
  {
    var hit := query != "" && o.tags.Some? && o.isWay &&
      (AnyTagMatches(o.tags.value, query) || TextMatches(o.user, query) || TextMatches(o.description, query));
    o.(highlight := hit)
  }

  /** The decision for one object, with the tag scan stated as an existential. */
  lemma HighlightOneMeaning(o: Item, query: string)
    ensures HighlightOne(o, query).highlight <==>
      query != "" && o.isWay && o.tags.Some? &&
      ((exists j :: 0 <= j < |o.tags.value| && (Matches(o.tags.value[j].0, query) || Matches(o.tags.value[j].1, query)))
       || TextMatches(o.user, query) || TextMatches(o.description, query))
  {
    if o.tags.Some? {
      AnyTagMatchesExists(o.tags.value, query);
    }
  }

  /**
   * Cartagen.highlight: every object is cleared; a Way with tags, under a
   * non-empty query, is then set when the query matches one of its tag keys or
   * values, its user or its description.
   */
  function Highlight(objs: seq<Item>, query: string): (r: seq<Item>)
    ensures |r| == |objs|
    ensures forall i :: 0 <= i < |objs| ==> r[i] == objs[i].(highlight := r[i].highlight)
    ensures forall i :: 0 <= i < |objs| ==> (r[i].highlight <==>
      query != "" && objs[i].isWay && objs[i].tags.Some? &&
      ((exists j :: 0 <= j < |objs[i].tags.value| &&
         (Matches(objs[i].tags.value[j].0, query) || Matches(objs[i].tags.value[j].1, query)))
       || TextMatches(objs[i].user, query) || TextMatches(objs[i].description, query)))
  {
    if |objs| == 0 then []
    else
      HighlightOneMeaning(objs[0], query);
      [HighlightOne(objs[0], query)] + Highlight(objs[1..], query)
  }

  /** An empty query clears every highlight. */
  lemma EmptyQueryClears(objs: seq<Item>)
    ensures forall i :: 0 <= i < |objs| ==> !Highlight(objs, "")[i].highlight
  {
  }

  /** Matching ignores ASCII case on both sides. */
  lemma MatchIgnoresCase(s: string, query: string)
    ensures Matches(Lower(s), query) == Matches(s, query)
    ensures Matches(s, Lower(query)) == Matches(s, query)
  {
    LowerTwice(s);
    LowerTwice(query);
  }

  lemma LowerTwice(s: string)
    ensures Lower(Lower(s)) == Lower(s)
  {
    forall i | 0 <= i < |s|
      ensures Lower(Lower(s))[i] == Lower(s)[i]
    {
      LowerCharTwice(s[i]);
    }
  }

  lemma LowerCharTwice(c: char)
    ensures LowerChar(LowerChar(c)) == LowerChar(c)
  {
  }

  /** The parts of Map that go_to sets. Map.x and Map.y come from a projection outside this model. */
  datatype MapState = MapState(zoom: Value, zoomLevel: Value, lat: Value, lon: Value)

  /** Cartagen.go_to: the zoom falls back to Map.zoom_level when the one given is falsy. */
  function GoTo(m: MapState, lat: Value, lon: Value, zoom: Value): (r: MapState)
    ensures r.lat == lat && r.lon == lon && r.zoomLevel == m.zoomLevel
    ensures Truthy(zoom) ==> r.zoom == zoom
    ensures !Truthy(zoom) ==> r.zoom == m.zoomLevel
  {
    MapState(if Truthy(zoom) then zoom else m.zoomLevel, m.zoomLevel, lat, lon)
  }

  /**
   * Every falsy zoom, 0 included, means "keep the current zoom level": go_to
   * cannot tell them apart from an omitted one, so zoom 0 cannot be asked for.
   */
  lemma FalsyZoomsAgree(m: MapState, lat: Value, lon: Value, zoom: Value)
    requires !Truthy(zoom)
    ensures GoTo(m, lat, lon, zoom) == GoTo(m, lat, lon, Undefined)
    ensures GoTo(m, lat, lon, Num(0.0)).zoom == m.zoomLevel
  {
  }
}

=== FILE: config.dfy ===
/**
 * Config (config/config.js, in its two copies): the configuration object is a
 * map from option name to Js value. Initialisation layers the passed options
 * and then the URL parameters over the defaults, copies aliases into their
 * canonical option, and runs the handler of every truthy option. Handlers act
 * on other parts of the program, so they are recorded as effects.
 */
module Config {
  import opened Js

  /**
   * The two copies of config.js: the one under cartagen/public (Public), and
   * the one under src (Src) with the zoom alias and URL boolean coercion but
   * without the key_input handler.
   */
  datatype Profile = Public | Src

  /** The option values written out in each copy of config.js. */
  function Defaults(p: Profile): (r: map<string, Value>)
    ensures Get(r, "stylesheet") == Str("/style.gss") && Get(r, "debug") == Bool(false)
    ensures Get(r, "static_map_layers") == Arr([Str("/static/rome/park.js")])
  {
    var common := map[
      "stylesheet" := Str("/style.gss"),
      "live" := Bool(false),
      "powersave" := Bool(true),
      "zoom_out_limit" := Num(0.02),
      "simplify" := Num(1.0),
      "live_gss" := Bool(false),
      "static_map" := Bool(true),
      "static_map_layers" := Arr([Str("/static/rome/park.js")]),
      "dynamic_layers" := Arr([]),
      "lat" := Num(41.89685),
      "lng" := Num(12.49715),
      "fullscreen" := Bool(false),
      "debug" := Bool(false),
      "load_user_features" := Bool(false)];
    match p
    case Public => common
    case Src => common + map[
      "tiles" := Bool(false),
      "vectors" := Bool(true),
      "padding_top" := Num(0.0),
      "padding_left" := Num(0.0),
      "layered_map" := Bool(false),
      "layers" := Arr([])]
  }

  /** Config.aliases: each canonical option with the names that may stand for it. */
  function Aliases(p: Profile): seq<(string, seq<string>)> {
    match p
    case Public => [("stylesheet", ["gss"])]
    case Src => [("stylesheet", ["gss"]), ("zoom_level", ["zoom"])]
  }

  /** The options that aliases may write. */
  function AliasTargets(p: Profile): (r: set<string>)
    ensures forall j :: 0 <= j < |Aliases(p)| ==> Aliases(p)[j].0 in r
  {
    match p
    case Public => {"stylesheet"}
    case Src => {"stylesheet", "zoom_level"}
  }

  /** Config.handlers, in the order the Hash holds them. */
  function HandlerKeys(p: Profile): seq<string> {
    match p
    case Public => ["debug", "grid", "fullscreen", "static_map_layers", "zoom_level", "key_input"]
    case Src => ["debug", "grid", "fullscreen", "static_map_layers", "zoom_level"]
  }

  predicate Distinct(keys: seq<string>) {
    forall i, j :: 0 <= i < j < |keys| ==> keys[i] != keys[j]
  }

  lemma HandlerKeysDistinct(p: Profile)
    ensures Distinct(HandlerKeys(p))
  {
  }

  /** What running a handler does outside the configuration object. */
  datatype Effect =
    | Ran(key: string, value: Value)
    | EnableDebug
    | ShowGrid
    | GridColor(color: string)
    | HideBrief
    | SetMapZoom(zoom: Value)
    | SetKeyInput(input: Value)

  /** Wrap each piece of a split string as a Js string. */
  function StrList(parts: seq<string>): (r: seq<Value>)
    ensures |r| == |parts|
    ensures forall i :: 0 <= i < |parts| ==> r[i] == Str(parts[i])
  {
    if |parts| == 0 then [] else [Str(parts[0])] + StrList(parts[1..])
  }

  /**
   * One handler applied to the option's value: debug enables the debug console
   * and the grid, grid shows it (in the given colour when the value is a
   * string), fullscreen hides the brief, a string static_map_layers is split on
   * ',' into the option itself, zoom_level sets the map zoom and key_input the
   * keyboard input mode.
   */
  function Handler(key: string, v: Value, cfg: map<string, Value>): (r: (map<string, Value>, seq<Effect>))
    ensures forall k :: k != "static_map_layers" ==> Get(r.0, k) == Get(cfg, k)
    ensures key != "static_map_layers" ==> r.0 == cfg
    ensures forall x :: x in r.1 ==> !x.Ran?
  {
    match key
    case "debug" => (cfg, [EnableDebug, ShowGrid])
    case "grid" => (cfg, [ShowGrid] + (if v.Str? then [GridColor(v.s)] else []))
    case "fullscreen" => (cfg, [HideBrief])
    case "static_map_layers" =>
      (if v.Str? then cfg["static_map_layers" := Arr(StrList(Split(v.s, ',')))] else cfg, [])
    case "zoom_level" => (cfg, [SetMapZoom(v)])
    case "key_input" => (cfg, [SetKeyInput(v)])
    case _ => (cfg, [])
  }

  /** Config.run_handlers: each handler, in order, runs with the option's value iff that value is truthy. */
  function RunHandlers(cfg: map<string, Value>, keys: seq<string>): (r: (map<string, Value>, seq<Effect>))
    ensures forall k :: k != "static_map_layers" ==> Get(r.0, k) == Get(cfg, k)
    decreases |keys|
  {
    if |keys| == 0 then (cfg, [])
    else
      var first := RunOne(cfg, keys[0]);
      var rest := RunHandlers(first.0, keys[1..]);
      (rest.0, first.1 + rest.1)
  }

  /** One entry of run_handlers: the handler runs, and is recorded as run, iff the option is truthy. */
  function RunOne(cfg: map<string, Value>, key: string): (r: (map<string, Value>, seq<Effect>))
    ensures forall k :: k != key ==> Get(r.0, k) == Get(cfg, k)
    ensures forall k :: k != "static_map_layers" ==> Get(r.0, k) == Get(cfg, k)
    ensures key != "static_map_layers" ==> r.0 == cfg
    ensures forall k, v :: Ran(k, v) in r.1 <==> k == key && Truthy(Get(cfg, key)) && v == Get(cfg, key)
  {
    if Truthy(Get(cfg, key)) then
      var h := Handler(key, cfg[key], cfg);
      (h.0, [Ran(key, cfg[key])] + h.1)
    else (cfg, [])
  }

  /**
   * A handler runs, with the option's value, iff the option is truthy when
   * run_handlers starts: no handler changes another handler's option.
   */
  lemma {:induction false} RanIff(cfg: map<string, Value>, keys: seq<string>, k: string, v: Value)
    requires Distinct(keys)
    ensures Ran(k, v) in RunHandlers(cfg, keys).1 <==> k in keys && Truthy(Get(cfg, k)) && v == Get(cfg, k)
    decreases |keys|
  {
    if |keys| > 0 {
      var first := RunOne(cfg, keys[0]);
      assert Distinct(keys[1..]);
      RanIff(first.0, keys[1..], k, v);
      if k in keys[1..] {
        assert k != keys[0];
      }
      assert keys == [keys[0]] + keys[1..];
    }
  }

  /** A string layer list ends up as its comma-separated pieces, which join back to the string. */
  lemma LayersSplit(p: Profile, cfg: map<string, Value>, s: string)
    requires Get(cfg, "static_map_layers") == Str(s) && s != ""
    ensures var r := RunHandlers(cfg, HandlerKeys(p)).0;
      Get(r, "static_map_layers").Arr?
      && |Get(r, "static_map_layers").items| == |Split(s, ',')|
      && Join(Split(s, ','), ',') == s
      && (forall i :: 0 <= i < |Split(s, ',')| ==> Get(r, "static_map_layers").items[i] == Str(Split(s, ',')[i]))
  {
    var keys := HandlerKeys(p);
    var after := cfg["static_map_layers" := Arr(StrList(Split(s, ',')))];
    SkipHandler(cfg, keys);
    SkipHandler(cfg, keys[1..]);
    SkipHandler(cfg, keys[2..]);
    assert keys[1..][1..] == keys[2..] && keys[2..][1..] == keys[3..] && keys[3..][1..] == keys[4..];
    NoLayersLater(after, keys[4..]);
  }

  /** A first handler other than static_map_layers leaves the configuration as it was. */
  lemma SkipHandler(cfg: map<string, Value>, keys: seq<string>)
    requires |keys| > 0 && keys[0] != "static_map_layers"
    ensures RunHandlers(cfg, keys).0 == RunHandlers(cfg, keys[1..]).0
  {
  }

  /** Handlers other than static_map_layers leave the layer option alone. */
  lemma {:induction false} NoLayersLater(cfg: map<string, Value>, keys: seq<string>)
    requires "static_map_layers" !in keys
    ensures RunHandlers(cfg, keys).0 == cfg
    decreases |keys|
  {
    if |keys| > 0 {
      var k := keys[0];
      assert k != "static_map_layers";
      NoLayersLater(cfg, keys[1..]);
    }
  }

  /** The last truthy value among the aliases, if any. */
  function LastTruthy(cfg: map<string, Value>, names: seq<string>): (r: Option<Value>)
    ensures r.Some? ==> exists i :: 0 <= i < |names| && Truthy(Get(cfg, names[i])) && r.value == Get(cfg, names[i])
                                && (forall j :: i < j < |names| ==> !Truthy(Get(cfg, names[j])))
    ensures r.None? ==> forall i :: 0 <= i < |names| ==> !Truthy(Get(cfg, names[i]))
    decreases |names|
  {
    if |names| == 0 then None
    else
      var rest := LastTruthy(cfg, names[1..]);
      if rest.Some? then
        var i :| 0 <= i < |names[1..]| && Truthy(Get(cfg, names[1..][i])) && rest.value == Get(cfg, names[1..][i])
          && (forall j :: i < j < |names[1..]| ==> !Truthy(Get(cfg, names[1..][j])));
        assert forall j :: i + 1 < j < |names| ==> names[j] == names[1..][j - 1];
        rest
      else if Truthy(Get(cfg, names[0])) then Some(Get(cfg, names[0]))
      else None
  }

  /** One alias pair of apply_aliases: each alias, in order, is copied into the option when truthy. */
  function AliasPass(cfg: map<string, Value>, key: string, names: seq<string>): map<string, Value>
    decreases |names|
  {
    if |names| == 0 then cfg
    else AliasPass(if Truthy(Get(cfg, names[0])) then cfg[key := cfg[names[0]]] else cfg, key, names[1..])
  }

  /** An alias pass sets the option to the last truthy alias and leaves it alone when there is none. */
  lemma {:induction false} AliasPassLastTruthy(cfg: map<string, Value>, key: string, names: seq<string>)
    requires key !in names
    ensures Get(AliasPass(cfg, key, names), key) ==
      (if LastTruthy(cfg, names).Some? then LastTruthy(cfg, names).value else Get(cfg, key))
    ensures forall k :: k != key ==> Get(AliasPass(cfg, key, names), k) == Get(cfg, k)
    decreases |names|
  {
    if |names| > 0 {
      var c1 := if Truthy(Get(cfg, names[0])) then cfg[key := cfg[names[0]]] else cfg;
      AliasPassLastTruthy(c1, key, names[1..]);
      SameAliases(cfg, c1, names[1..]);
    }
  }

  /** LastTruthy only looks at the aliases' values. */
  lemma {:induction false} SameAliases(a: map<string, Value>, b: map<string, Value>, names: seq<string>)
    requires forall i :: 0 <= i < |names| ==> Get(a, names[i]) == Get(b, names[i])
    ensures LastTruthy(a, names) == LastTruthy(b, names)
    decreases |names|
  {
    if |names| > 0 {
      SameAliases(a, b, names[1..]);
    }
  }

  /** Config.apply_aliases: the alias pairs in order. */
  function ApplyAliases(cfg: map<string, Value>, aliases: seq<(string, seq<string>)>): map<string, Value>
    decreases |aliases|
  {
    if |aliases| == 0 then cfg
    else ApplyAliases(AliasPass(cfg, aliases[0].0, aliases[0].1), aliases[1..])
  }

  /** Aliases only ever write their canonical options. */
  lemma {:induction false} ApplyAliasesKeepsOthers(cfg: map<string, Value>, aliases: seq<(string, seq<string>)>, k: string)
    requires forall j :: 0 <= j < |aliases| ==> aliases[j].0 != k && aliases[j].0 !in aliases[j].1
    ensures Get(ApplyAliases(cfg, aliases), k) == Get(cfg, k)
    decreases |aliases|
  {
    if |aliases| > 0 {
      AliasPassLastTruthy(cfg, aliases[0].0, aliases[0].1);
      ApplyAliasesKeepsOthers(AliasPass(cfg, aliases[0].0, aliases[0].1), aliases[1..], k);
    }
  }

  /** A pass with a single alias copies it when truthy and touches nothing else. */
  lemma SingleAlias(cfg: map<string, Value>, key: string, alias: string)
    requires key != alias
    ensures Get(AliasPass(cfg, key, [alias]), key) == if Truthy(Get(cfg, alias)) then Get(cfg, alias) else Get(cfg, key)
    ensures forall k :: k != key ==> Get(AliasPass(cfg, key, [alias]), k) == Get(cfg, k)
  {
    AliasPassLastTruthy(cfg, key, [alias]);
    assert [alias][1..] == [];
  }

  /** The stylesheet option takes the gss alias when that is truthy, in both copies. */
  lemma GssAlias(p: Profile, cfg: map<string, Value>)
    ensures Get(ApplyAliases(cfg, Aliases(p)), "stylesheet") ==
      (if Truthy(Get(cfg, "gss")) then Get(cfg, "gss") else Get(cfg, "stylesheet"))
  {
    SingleAlias(cfg, "stylesheet", "gss");
    var c1 := AliasPass(cfg, "stylesheet", ["gss"]);
    if p == Src {
      SingleAlias(c1, "zoom_level", "zoom");
      var c2 := AliasPass(c1, "zoom_level", ["zoom"]);
      assert Aliases(p)[1..] == [("zoom_level", ["zoom"])];
      assert ApplyAliases(cfg, Aliases(p)) == ApplyAliases(c1, [("zoom_level", ["zoom"])]);
      assert ApplyAliases(cfg, Aliases(p)) == c2;
    } else {
      assert ApplyAliases(cfg, Aliases(p)) == ApplyAliases(c1, []);
    }
  }

  /** Only the src copy copies a truthy zoom into zoom_level. */
  lemma ZoomAlias(p: Profile, cfg: map<string, Value>)
    ensures Get(ApplyAliases(cfg, Aliases(p)), "zoom_level") ==
      (if p == Src && Truthy(Get(cfg, "zoom")) then Get(cfg, "zoom") else Get(cfg, "zoom_level"))
  {
    SingleAlias(cfg, "stylesheet", "gss");
    var c1 := AliasPass(cfg, "stylesheet", ["gss"]);
    if p == Src {
      SingleAlias(c1, "zoom_level", "zoom");
      var c2 := AliasPass(c1, "zoom_level", ["zoom"]);
      assert Aliases(p)[1..] == [("zoom_level", ["zoom"])];
      assert ApplyAliases(cfg, Aliases(p)) == ApplyAliases(c1, [("zoom_level", ["zoom"])]);
      assert ApplyAliases(cfg, Aliases(p)) == c2;
    } else {
      assert ApplyAliases(cfg, Aliases(p)) == ApplyAliases(c1, []);
    }
  }

  /** A URL parameter as the copy reads it: src turns exactly 'true' and 'false' into booleans. */
  function UrlValue(p: Profile, s: string): (r: Value)
    ensures p == Src && s == "false" ==> !Truthy(r)
    ensures p == Src && s == "true" ==> r == Bool(true)
    ensures p == Public || (s != "true" && s != "false") ==> r == Str(s)
  {
    if p == Src && s == "true" then Bool(true)
    else if p == Src && s == "false" then Bool(false)
    else Str(s)
  }

  /** Config.get_url_params over the already parsed query string. */
  function GetUrlParams(p: Profile, params: map<string, string>): (r: map<string, Value>)
    ensures r.Keys == params.Keys
    ensures forall k :: k in params ==> r[k] == UrlValue(p, params[k])
  {
    map k | k in params :: UrlValue(p, params[k])
  }

  /** The configuration after the passed options, the URL parameters and the aliases. */
  function Aliased(p: Profile, cfg: map<string, Value>, config: map<string, Value>, params: map<string, string>)
    : map<string, Value>
  {
    ApplyAliases(cfg + config + GetUrlParams(p, params), Aliases(p))
  }

  /** Config.initialize / Config.init: the resulting configuration and the handlers' effects. */
  function Init(p: Profile, cfg: map<string, Value>, config: map<string, Value>, params: map<string, string>)
    : (r: (map<string, Value>, seq<Effect>))
    ensures forall k :: k != "static_map_layers" ==> Get(r.0, k) == Get(Aliased(p, cfg, config, params), k)
  {
    RunHandlers(Aliased(p, cfg, config, params), HandlerKeys(p))
  }

  lemma AliasesWellFormed(p: Profile)
    ensures forall j :: 0 <= j < |Aliases(p)| ==> Aliases(p)[j].0 !in Aliases(p)[j].1
  {
  }

  /**
   * The override order: a URL parameter beats a passed option, which beats the
   * value already there, for every option that no alias or handler rewrites.
   */
  lemma InitOverrideOrder(p: Profile, cfg: map<string, Value>, config: map<string, Value>, params: map<string, string>, k: string)
    requires k !in AliasTargets(p) && k != "static_map_layers"
    ensures Get(Init(p, cfg, config, params).0, k) ==
      if k in params then UrlValue(p, params[k])
      else if k in config then config[k]
      else Get(cfg, k)
  {
    AliasesWellFormed(p);
    ApplyAliasesKeepsOthers(cfg + config + GetUrlParams(p, params), Aliases(p), k);
  }

  /** Handlers run, with their option's value, exactly for the options that are truthy after the aliases. */
  lemma InitRunsTruthyHandlers(p: Profile, cfg: map<string, Value>, config: map<string, Value>, params: map<string, string>, k: string, v: Value)
    ensures Ran(k, v) in Init(p, cfg, config, params).1 <==>
      k in HandlerKeys(p) && Truthy(Get(Aliased(p, cfg, config, params), k)) && v == Get(Aliased(p, cfg, config, params), k)
  {
    HandlerKeysDistinct(p);
    RanIff(Aliased(p, cfg, config, params), HandlerKeys(p), k, v);
  }

  /** In the src copy a URL value 'false' turns its option's handler off, whatever was passed. */
  lemma SrcUrlFalseNeverRuns(cfg: map<string, Value>, config: map<string, Value>, params: map<string, string>, k: string, v: Value)
    requires k in params && params[k] == "false" && k !in AliasTargets(Src)
    ensures Ran(k, v) !in Init(Src, cfg, config, params).1
  {
    AliasesWellFormed(Src);
    ApplyAliasesKeepsOthers(cfg + config + GetUrlParams(Src, params), Aliases(Src), k);
    InitRunsTruthyHandlers(Src, cfg, config, params, k, v);
  }

  /** In the public copy the URL value 'false' is a non-empty string, so its handler does run. */
  lemma PublicUrlFalseRuns(cfg: map<string, Value>, config: map<string, Value>, params: map<string, string>, k: string)
    requires k in params && params[k] == "false" && k in HandlerKeys(Public)
    ensures Ran(k, Str("false")) in Init(Public, cfg, config, params).1
  {
    AliasesWellFormed(Public);
    ApplyAliasesKeepsOthers(cfg + config + GetUrlParams(Public, params), Aliases(Public), k);
    InitRunsTruthyHandlers(Public, cfg, config, params, k, Str("false"));
  }
}

=== FILE: data.dfy ===
/**
 * The Data object of data/data.js: the geohash index of features, the test
 * deciding whether the viewport moved enough to re-gather features, and the
 * gathering itself (key length from the zoom, flood fill from the central key,
 * upward closure, per-key lookup). Features are opaque (type parameter `F`);
 * the map view and the frame number are parameters, and the sort the gathered
 * list goes through (Geometry.sort_by_area via Array#sort) is a function
 * parameter.
 */
module Data {
  import opened Js
  import opened Geohash

  /** `last_get_features`: where the map was when features were last gathered. */
  datatype Position = Position(x: real, y: real, zoom: real, frame: int)

  /** What get_features reads from Map: pixel position, zoom, centre and bbox. */
  datatype MapView = MapView(x: real, y: real, zoom: real, lat: real, lon: real, bbox: Rect)

  /**
   * The fields of Data the core touches. `features` is `None` while the
   * property is still undefined (the object literal never declares it).
   */
  datatype Data<F> = Data(
    geohashIndex: map<string, seq<F>>,
    currentFeatures: seq<F>,
    currentGeohashIndex: map<string, seq<F>>,
    currentKeys: seq<string>,
    currentKeyLength: int,
    currentCentralKey: string,
    lastGetFeatures: Position,
    features: Option<seq<F>>,
    forceGetFeatures: bool)

  /** The object literal's initial state. */
  function Initial<F>(): Data<F> {
    Data(map[], [], map[], [], 0, "", Position(0.0, 0.0, 0.0, 0), None, false)
  }

  /** The list stored under a key, or `[]`: `geohash_index.get(key) || []`. */
  function Lookup<F>(index: map<string, seq<F>>, key: string): seq<F> {
    if key in index then index[key] else []
  }

  /** Data.get_features_by_key: the features stored under the key, never an error. */
  function GetFeaturesByKey<F>(d: Data<F>, key: string): (r: seq<F>)
    ensures key in d.geohashIndex ==> r == d.geohashIndex[key]
    ensures key !in d.geohashIndex ==> r == []
  {
    Lookup(d.geohashIndex, key)
  }

  /**
   * Data.put. Data has no `default_length`, so a missing or zero length reaches
   * get_key as undefined and the key has the default length; the feature goes at
   * the end of that key's list, which is created when absent.
   */
  function Put<F>(d: Data<F>, lib: Lib, lat: real, lon: real, f: F, length: Option<int>): (r: Data<F>)
    ensures r == d.(geohashIndex := r.geohashIndex)
    ensures r.geohashIndex.Keys == d.geohashIndex.Keys + {GetKey(lib, lat, lon, length)}
  {
    var len := if length == Some(0) then None else length;
    var key := GetKey(lib, lat, lon, len);
    var merged := if key in d.geohashIndex then d.geohashIndex[key] + [f] else [f];
    d.(geohashIndex := d.geohashIndex[key := merged])
  }

  /**
   * Reading back after a put: the key the point falls under has gained the
   * feature at its end (nothing is de-duplicated), and every other key reads
   * as before.
   */
  lemma PutThenGet<F>(d: Data<F>, lib: Lib, lat: real, lon: real, f: F, length: Option<int>, key: string)
    ensures var r := Put(d, lib, lat, lon, f, length);
      GetFeaturesByKey(r, key) ==
        if key == GetKey(lib, lat, lon, length) then GetFeaturesByKey(d, key) + [f]
        else GetFeaturesByKey(d, key)
  {
  }

  /** With no length, a feature lands under the point's key of the default length 6. */
  lemma PutDefaultLength<F>(d: Data<F>, lib: Lib, lat: real, lon: real, f: F)
    requires |lib.encode(lat, lon)| >= DefaultLength
    ensures var k := lib.encode(lat, lon)[..DefaultLength];
      GetFeaturesByKey(Put(d, lib, lat, lon, f, None), k) == GetFeaturesByKey(d, k) + [f]
  {
    var k := GetKey(lib, lat, lon, None);
    assert k == lib.encode(lat, lon)[..DefaultLength];
    PutThenGet(d, lib, lat, lon, f, None, k);
  }

  function Abs(x: real): real {
    if x < 0.0 then -x else x
  }

  /**
   * `z / lz > 1.1 || z / lz < 0.9` with JavaScript division: by zero the ratio
   * is an infinity (true) unless `z` is zero as well, giving NaN (false).
   */
  predicate ZoomChanged(z: real, lz: real) {
    if lz == 0.0 then z != 0.0 else z / lz > 1.1 || z / lz < 0.9
  }

  /** For a positive last zoom, the ratio test is "outside [0.9 lz, 1.1 lz]". */
  lemma ZoomChangedOutsideBand(z: real, lz: real)
    requires lz > 0.0
    ensures ZoomChanged(z, lz) <==> z > 1.1 * lz || z < 0.9 * lz
  {
    assert z / lz * lz == z;
    if z / lz > 1.1 {
      assert z > 1.1 * lz;
    }
    if z / lz < 0.9 {
      assert z < 0.9 * lz;
    }
    if z > 1.1 * lz {
      assert z / lz > 1.1;
    }
    if z < 0.9 * lz {
      assert z / lz < 0.9;
    }
  }

  /**
   * Data.should_draw. The force flag is tested first; otherwise reading
   * `features.length` while features is undefined throws.
   */
  function ShouldDraw<F>(d: Data<F>, view: MapView): (r: Result<bool>)
    ensures r.Error? <==> !d.forceGetFeatures && d.features.None?
    ensures d.forceGetFeatures ==> r == Ok(true)
    ensures r.Ok? && !d.forceGetFeatures ==>
      (r.value <==>
        || |d.features.value| == 0
        || ZoomChanged(view.zoom, d.lastGetFeatures.zoom)
        || Abs(d.lastGetFeatures.x - view.x) > 100.0
        || Abs(d.lastGetFeatures.y - view.y) > 100.0)
  {
    if d.forceGetFeatures then Ok(true)
    else if d.features.None? then Error("TypeError: features is undefined")
    else
      var last := d.lastGetFeatures;
      Ok(|d.features.value| == 0
         || ZoomChanged(view.zoom, last.zoom)
         || Abs(last.x - view.x) > 100.0
         || Abs(last.y - view.y) > 100.0)
  }

  /**
   * With features present and the map where it was last gathered (at a non-zero
   * zoom), nothing needs redrawing unless forced.
   */
  lemma StillMapNeedsNoDraw<F>(d: Data<F>, view: MapView)
    requires !d.forceGetFeatures && d.features.Some? && |d.features.value| > 0
    requires d.lastGetFeatures.zoom != 0.0
    requires view.x == d.lastGetFeatures.x && view.y == d.lastGetFeatures.y
    requires view.zoom == d.lastGetFeatures.zoom
    ensures ShouldDraw(d, view) == Ok(false)
  {
    assert view.zoom / d.lastGetFeatures.zoom == 1.0;
  }

  /**
   * The key length get_features asks for: get_key_length of 0.0015 / zoom in
   * both directions. At zoom 0 the quotient is +Infinity, which is below no
   * threshold, giving length 0.
   */
  function KeyLengthAtZoom(zoom: real): (r: int)
    ensures 0 <= r <= 12
    ensures zoom == 0.0 ==> r == 0
  {
    if zoom == 0.0 then 0 else GetKeyLength(0.0015 / zoom, 0.0015 / zoom)
  }

  /** Zooming in never asks for shorter keys. */
  lemma KeyLengthGrowsWithZoom(z1: real, z2: real)
    requires 0.0 < z1 <= z2
    ensures KeyLengthAtZoom(z1) <= KeyLengthAtZoom(z2)
  {
    assert 0.0015 / z2 <= 0.0015 / z1 by {
      assert 0.0015 / z2 * z2 == 0.0015 && 0.0015 / z1 * z1 == 0.0015;
      assert 0.0015 / z1 * z2 >= 0.0015 / z1 * z1;
    }
    GetKeyLengthMonotone(0.0015 / z2, 0.0015 / z2, 0.0015 / z1, 0.0015 / z1);
  }

  /** `x` is one of `ks`, or a non-empty prefix of one of them. */
  ghost predicate PrefixOfSome(x: string, ks: seq<string>) {
    exists j :: 0 <= j < |ks| && (x == ks[j] || (x <= ks[j] && |x| >= 1))
  }

  /** get_keys_upward applied, in order, to each key of a snapshot of the hash's keys. */
  function UpwardAll(ks: seq<string>, hash: seq<string>): seq<string> {
    if |ks| == 0 then hash else UpwardAll(ks[1..], Upward(ks[0], hash))
  }

  /**
   * Marking upward from every key of a list keeps what was there and adds
   * exactly the listed keys and their non-empty prefixes.
   */
  lemma {:induction false} UpwardAllAddsPrefixes(ks: seq<string>, hash: seq<string>)
    ensures hash <= UpwardAll(ks, hash)
    ensures Distinct(hash) ==> Distinct(UpwardAll(ks, hash))
    ensures forall x :: x in UpwardAll(ks, hash) <==> x in hash || PrefixOfSome(x, ks)
  {
    if |ks| > 0 {
      var h := Upward(ks[0], hash);
      UpwardAddsPrefixes(ks[0], hash);
      UpwardAllAddsPrefixes(ks[1..], h);
      forall x
        ensures x in UpwardAll(ks, hash) <==> x in hash || PrefixOfSome(x, ks)
      {
        if PrefixOfSome(x, ks[1..]) {
          var j :| 0 <= j < |ks[1..]| && (x == ks[1..][j] || (x <= ks[1..][j] && |x| >= 1));
          assert ks[j + 1] == ks[1..][j];
        }
        if PrefixOfSome(x, ks) {
          var j :| 0 <= j < |ks| && (x == ks[j] || (x <= ks[j] && |x| >= 1));
          if j > 0 {
            assert ks[1..][j - 1] == ks[j];
            assert PrefixOfSome(x, ks[1..]);
          }
        }
      }
    }
  }

  /** The keys of a hash, each closed upward in turn, form an upward-closed hash. */
  lemma UpwardAllCloses(ks: seq<string>)
    ensures UpwardClosed(UpwardAll(ks, ks))
  {
    var r := UpwardAll(ks, ks);
    UpwardAllAddsPrefixes(ks, ks);
    forall k, j | k in r && 1 <= j <= |k|
      ensures k[..j] in r
    {
      if k in ks {
        var i :| 0 <= i < |ks| && ks[i] == k;
        assert k[..j] <= ks[i];
        assert PrefixOfSome(k[..j], ks);
      } else {
        var i :| 0 <= i < |ks| && (k == ks[i] || (k <= ks[i] && |k| >= 1));
        assert k[..j] <= ks[i];
        assert PrefixOfSome(k[..j], ks);
      }
    }
  }

  /** The features-loop of get_features: each key's list is put in front of the accumulator. */
  function Gather<F>(index: map<string, seq<F>>, keys: seq<string>, acc: seq<F>): seq<F> {
    if |keys| == 0 then acc else Gather(index, keys[1..], Lookup(index, keys[0]) + acc)
  }

  /** The lists of the keys, last key first, each list in its stored order. */
  function Collected<F>(index: map<string, seq<F>>, keys: seq<string>): seq<F> {
    if |keys| == 0 then [] else Collected(index, keys[1..]) + Lookup(index, keys[0])
  }

  /** The loop keeps the accumulator it started from as a suffix. */
  lemma {:induction false} GatherPrepends<F>(index: map<string, seq<F>>, keys: seq<string>, acc: seq<F>)
    ensures Gather(index, keys, acc) == Collected(index, keys) + acc
  {
    if |keys| > 0 {
      GatherPrepends(index, keys[1..], Lookup(index, keys[0]) + acc);
      assert Collected(index, keys[1..]) + (Lookup(index, keys[0]) + acc)
          == (Collected(index, keys[1..]) + Lookup(index, keys[0])) + acc;
    }
  }

  /** A feature is collected iff it is stored under one of the keys. */
  lemma {:induction false} CollectedHolds<F>(index: map<string, seq<F>>, keys: seq<string>, f: F)
    ensures f in Collected(index, keys) <==> exists j :: 0 <= j < |keys| && f in Lookup(index, keys[j])
  {
    if |keys| > 0 {
      CollectedHolds(index, keys[1..], f);
      if exists j :: 0 <= j < |keys| && f in Lookup(index, keys[j]) {
        var j :| 0 <= j < |keys| && f in Lookup(index, keys[j]);
        if j > 0 {
          assert keys[1..][j - 1] == keys[j];
        }
      }
      if exists j :: 0 <= j < |keys[1..]| && f in Lookup(index, keys[1..][j]) {
        var j :| 0 <= j < |keys[1..]| && f in Lookup(index, keys[1..][j]);
        assert keys[j + 1] == keys[1..][j];
      }
    }
  }

  /** `current_geohash_index.set(key, features)` for each key, in order. */
  function SetAll<F>(cur: map<string, seq<F>>, index: map<string, seq<F>>, keys: seq<string>): (r: map<string, seq<F>>)
    ensures forall k :: k in keys ==> k in r && r[k] == Lookup(index, k)
    ensures forall k :: k !in keys && k in cur ==> k in r && r[k] == cur[k]
    ensures r.Keys == cur.Keys + set k | k in keys
    decreases |keys|
  {
    if |keys| == 0 then cur
    else
      var r := SetAll(cur[keys[0] := Lookup(index, keys[0])], index, keys[1..]);
      assert forall k :: k in keys ==> k == keys[0] || k in keys[1..];
      r
  }

  /** The central key and the hash of keys get_features assembles, before the feature loop. */
  function CurrentKeys(lib: Lib, view: MapView): (r: (string, seq<string>))
    requires WellFormed(lib)
    ensures r.0 <= lib.encode(view.lat, view.lon)
  {
    var central := GetKey(lib, view.lat, view.lon, Some(KeyLengthAtZoom(view.zoom)));
    ValidPrefix(lib.encode(view.lat, view.lon), central);
    var filled := FillBbox(lib, view.bbox, central, []);
    (central, UpwardAll(filled, filled))
  }

  /**
   * Data.get_features: record the position, reset `features` to `[]`, rebuild the
   * current keys from the flood fill around the central key, copy each key's list
   * into the current index and put it in front of the current features, then sort.
   */
  function GetFeatures<F>(d: Data<F>, lib: Lib, view: MapView, frame: int, sort: seq<F> -> seq<F>): (r: Data<F>)
    requires WellFormed(lib)
    ensures r.lastGetFeatures == Position(view.x, view.y, view.zoom, frame)
    ensures r.features == Some([])
    ensures r.geohashIndex == d.geohashIndex && r.forceGetFeatures == d.forceGetFeatures
    ensures r.currentKeyLength == KeyLengthAtZoom(view.zoom)
    ensures r.currentCentralKey == GetKey(lib, view.lat, view.lon, Some(r.currentKeyLength))
    ensures r.currentFeatures == sort(Collected(d.geohashIndex, r.currentKeys) + d.currentFeatures)
    ensures forall k :: k in r.currentKeys ==> k in r.currentGeohashIndex && r.currentGeohashIndex[k] == Lookup(d.geohashIndex, k)
    ensures forall k :: k !in r.currentKeys && k in d.currentGeohashIndex ==>
      k in r.currentGeohashIndex && r.currentGeohashIndex[k] == d.currentGeohashIndex[k]
  {
    var len := KeyLengthAtZoom(view.zoom);
    var (central, keys) := CurrentKeys(lib, view);
    var cgi := SetAll(d.currentGeohashIndex, d.geohashIndex, keys);
    var gathered := Gather(d.geohashIndex, keys, d.currentFeatures);
    GatherPrepends(d.geohashIndex, keys, d.currentFeatures);
    Data(d.geohashIndex, sort(gathered), cgi, keys, len, central, Position(view.x, view.y, view.zoom, frame), Some([]), d.forceGetFeatures)
  }

  /**
   * The current keys after get_features are upward-closed and distinct, and they
   * are exactly the keys the flood fill reached around the central key together
   * with their non-empty prefixes.
   */
  lemma GetFeaturesKeys<F>(d: Data<F>, lib: Lib, view: MapView, frame: int, sort: seq<F> -> seq<F>)
    requires WellFormed(lib)
    ensures var r := GetFeatures(d, lib, view, frame, sort);
      var central := r.currentCentralKey;
      ValidKey(central) &&
      var filled := FillBbox(lib, view.bbox, central, []);
      && UpwardClosed(r.currentKeys)
      && Distinct(r.currentKeys)
      && filled <= r.currentKeys
      && (forall x :: x in r.currentKeys <==> PrefixOfSome(x, filled))
  {
    var r := GetFeatures(d, lib, view, frame, sort);
    var central := r.currentCentralKey;
    ValidPrefix(lib.encode(view.lat, view.lon), central);
    var filled := FillBbox(lib, view.bbox, central, []);
    assert Distinct<string>([]);
    UpwardAllAddsPrefixes(filled, filled);
    UpwardAllCloses(filled);
    forall x | x in filled
      ensures PrefixOfSome(x, filled)
    {
      var i :| 0 <= i < |filled| && filled[i] == x;
    }
  }

  /**
   * With a sort that only permutes, get_features never loses a feature: the
   * current features are the previous ones plus every list of every current key.
   */
  lemma GetFeaturesKeepsPrevious<F>(d: Data<F>, lib: Lib, view: MapView, frame: int, sort: seq<F> -> seq<F>)
    requires WellFormed(lib)
    requires forall s :: multiset(sort(s)) == multiset(s)
    ensures var r := GetFeatures(d, lib, view, frame, sort);
      multiset(r.currentFeatures) == multiset(Collected(d.geohashIndex, r.currentKeys)) + multiset(d.currentFeatures)
  {
    var r := GetFeatures(d, lib, view, frame, sort);
    SortedKeepsBoth(sort, Collected(d.geohashIndex, r.currentKeys), d.currentFeatures);
  }

  lemma SortedKeepsBoth<F>(sort: seq<F> -> seq<F>, a: seq<F>, b: seq<F>)
    requires forall s :: multiset(sort(s)) == multiset(s)
    ensures multiset(sort(a + b)) == multiset(a) + multiset(b)
  {
    assert multiset(sort(a + b)) == multiset(a + b);
  }

  /** `features` is left empty, so once get_features has run should_draw always answers true. */
  lemma DrawsAfterGetFeatures<F>(d: Data<F>, lib: Lib, view: MapView, frame: int, sort: seq<F> -> seq<F>, view': MapView)
    requires WellFormed(lib)
    ensures ShouldDraw(GetFeatures(d, lib, view, frame, sort), view') == Ok(true)
  {
  }

  /** Until get_features first runs, should_draw throws unless a redraw is forced. */
  lemma InitialShouldDrawThrows<F>(view: MapView)
    ensures ShouldDraw(Initial<F>(), view).Error?
  {
  }

  /**
   * Data.get_features_upward: its truncation result is discarded and it has no
   * return statement, so whatever the index holds it returns undefined.
   */
  function GetFeaturesUpward<F>(d: Data<F>, key: string): (r: Option<seq<F>>)
    ensures r == None
  {
    None
  }
}

=== FILE: features.dfy ===
/**
 * The style-state rules of Feature (data/feature.js) and the area comparator
 * Cartagen.sort_by_area (cartagen.js). A feature's own properties are a map
 * from property name to value; the hover and mouseDown style sets and the two
 * maps of saved originals are kept beside it.
 */
module Features {
  import opened Js

  /** The class a feature was built from; `__type__` names it. */
  datatype Kind = NodeKind | WayKind | RelationKind

  datatype Feature = Feature(
    kind: Kind,
    area: real,
    props: map<string, Value>,
    hover: map<string, Value>,
    mouseDown: map<string, Value>,
    unhovered: map<string, Value>,
    unclicked: map<string, Value>)

  /** Feature#get_type: the `__type__` string of the feature's class. */
  function GetType(f: Feature): (r: string)
    ensures r in {"Node", "Way", "Relation"}
    ensures r == "Way" <==> f.kind == WayKind
  {
    match f.kind
    case NodeKind => "Node"
    case WayKind => "Way"
    case RelationKind => "Relation"
  }

  /** The values of the style properties of Feature#apply_default_styles. */
  const DefaultStyles: map<string, Value> := map[
    "fillStyle" := Str("rgba(0,0,0,0)"),
    "fontColor" := Str("#eee"),
    "fontSize" := Num(12.0),
    "fontRotation" := Num(0.0),
    "opacity" := Num(1.0),
    "strokeStyle" := Str("black"),
    "lineWidth" := Num(6.0),
    "pattern" := Null,
    "outlineColor" := Null,
    "outlineWidth" := Null,
    "distort" := Bool(false),
    "image" := Null]

  /**
   * One pass of apply_hover_styles / apply_click_styles: every key of the style
   * set is written with the style's value; the previous value is saved first,
   * but only when it was truthy. Keys of a Hash are distinct, so the order of
   * the pass does not matter.
   */
  function ApplyStyles(props: map<string, Value>, saved: map<string, Value>, styles: map<string, Value>)
    : (r: (map<string, Value>, map<string, Value>))
    ensures forall k :: k in styles ==> k in r.0 && r.0[k] == styles[k]
    ensures forall k :: k !in styles ==> Get(r.0, k) == Get(props, k)
    ensures forall k :: k in styles && Truthy(Get(props, k)) ==> k in r.1 && r.1[k] == props[k]
    ensures forall k :: !(k in styles && Truthy(Get(props, k))) ==> Get(r.1, k) == Get(saved, k)
  {
    var kept := map k | k in styles && Truthy(Get(props, k)) :: props[k];
    (props + styles, saved + kept)
  }

  /** remove_*_styles: `Object.extend(this, saved)`; the saved map itself is kept. */
  function RemoveStyles(props: map<string, Value>, saved: map<string, Value>): (r: map<string, Value>)
    ensures forall k :: k in saved ==> k in r && r[k] == saved[k]
    ensures forall k :: k !in saved ==> Get(r, k) == Get(props, k)
  {
    props + saved
  }

  /** Feature#apply_hover_styles. */
  function ApplyHover(f: Feature): (r: Feature)
    ensures r == f.(props := r.props, unhovered := r.unhovered)
  {
    var (props, saved) := ApplyStyles(f.props, f.unhovered, f.hover);
    f.(props := props, unhovered := saved)
  }

  /** Feature#remove_hover_styles: the saved originals are written back and kept. */
  function RemoveHover(f: Feature): (r: Feature)
    ensures r == f.(props := r.props)
  {
    f.(props := RemoveStyles(f.props, f.unhovered))
  }

  /** Feature#apply_click_styles, over mouseDown and the unclicked map. */
  function ApplyClick(f: Feature): (r: Feature)
    ensures r == f.(props := r.props, unclicked := r.unclicked)
  {
    var (props, saved) := ApplyStyles(f.props, f.unclicked, f.mouseDown);
    f.(props := props, unclicked := saved)
  }

  /** Feature#remove_click_styles. */
  function RemoveClick(f: Feature): (r: Feature)
    ensures r == f.(props := r.props)
  {
    f.(props := RemoveStyles(f.props, f.unclicked))
  }

  /**
   * Feature#apply_default_styles: the fixed defaults are restored and both
   * saved maps emptied. (The label's own defaults are outside this model.)
   */
  function ApplyDefaultStyles(f: Feature): (r: Feature)
    ensures forall k :: k in DefaultStyles ==> k in r.props && r.props[k] == DefaultStyles[k]
    ensures r.unhovered == map[] && r.unclicked == map[]
    ensures r.kind == f.kind && r.hover == f.hover && r.mouseDown == f.mouseDown
    ensures forall k :: k !in DefaultStyles ==> Get(r.props, k) == Get(f.props, k)
    ensures r == f.(props := r.props, unhovered := map[], unclicked := map[])
  {
    f.(props := f.props + DefaultStyles, unhovered := map[], unclicked := map[])
  }

  /**
   * Hover on, then off, from a fresh saved map: a hovered property that was
   * truthy gets its old value back; one that was falsy keeps the hover value;
   * nothing else moves.
   */
  lemma HoverRoundTrip(f: Feature, k: string)
    requires f.unhovered == map[]
    ensures var r := RemoveHover(ApplyHover(f));
      && (k in f.hover && Truthy(Get(f.props, k)) ==> Get(r.props, k) == Get(f.props, k))
      && (k in f.hover && !Truthy(Get(f.props, k)) ==> Get(r.props, k) == f.hover[k])
      && (k !in f.hover ==> Get(r.props, k) == Get(f.props, k))
  {
  }

  /** After defaults, hover on and off restores every hovered truthy property. */
  lemma DefaultsThenHoverRestores(f: Feature, k: string)
    requires k in f.hover && k in DefaultStyles && Truthy(DefaultStyles[k])
    ensures Get(RemoveHover(ApplyHover(ApplyDefaultStyles(f))).props, k) == DefaultStyles[k]
  {
    HoverRoundTrip(ApplyDefaultStyles(f), k);
  }

  /**
   * Applying hover twice without removing it saves the hover values themselves,
   * so removing no longer restores the originals of truthy hover values.
   */
  lemma HoverTwiceLosesOriginal(f: Feature, k: string)
    requires k in f.hover && Truthy(f.hover[k])
    ensures var r := ApplyHover(ApplyHover(f));
      k in r.unhovered && r.unhovered[k] == f.hover[k]
      && Get(RemoveHover(r).props, k) == f.hover[k]
  {
  }

  /** Hover and click keep separate saved maps: each leaves the other's alone. */
  lemma HoverAndClickIndependent(f: Feature)
    ensures ApplyHover(f).unclicked == f.unclicked && RemoveHover(f).unclicked == f.unclicked
    ensures ApplyClick(f).unhovered == f.unhovered && RemoveClick(f).unhovered == f.unhovered
  {
  }

  /**
   * Click on, then off, from a fresh saved map, restores exactly as hover does:
   * truthy originals come back, falsy ones keep the mouseDown value.
   */
  lemma ClickRoundTrip(f: Feature, k: string)
    requires f.unclicked == map[]
    ensures var r := RemoveClick(ApplyClick(f));
      && (k in f.mouseDown && Truthy(Get(f.props, k)) ==> Get(r.props, k) == Get(f.props, k))
      && (k in f.mouseDown && !Truthy(Get(f.props, k)) ==> Get(r.props, k) == f.mouseDown[k])
      && (k !in f.mouseDown ==> Get(r.props, k) == Get(f.props, k))
  {
  }

  /**
   * Cartagen.sort_by_area, as written: two Ways by descending area; a Way before
   * anything else; but any non-Way first argument answers 1.
   */
  function SortByArea(a: Feature, b: Feature): (r: int)
    ensures r in {-1, 0, 1}
    ensures a.kind == WayKind && b.kind == WayKind ==>
      (r == 1 <==> a.area < b.area) && (r == -1 <==> a.area > b.area)
    ensures a.kind == WayKind && b.kind != WayKind ==> r == -1
    ensures a.kind != WayKind ==> r == 1
  {
    if a.kind == WayKind then
      if b.kind == WayKind then
        if a.area < b.area then 1
        else if a.area > b.area then -1
        else 0
      else -1
    else 1
  }

  /** Two non-Ways compare as "greater" both ways round: the comparator is not antisymmetric. */
  lemma SortByAreaNotAntisymmetric()
    ensures var n := Feature(NodeKind, 0.0, map[], map[], map[], map[], map[]);
      var m := Feature(RelationKind, 5.0, map[], map[], map[], map[], map[]);
      SortByArea(n, m) == 1 && SortByArea(m, n) == 1
  {
  }

  /**
   * The comparator as its comments describe it: Ways first by descending area,
   * then every non-Way, non-Ways tied with each other.
   */
  function SortByAreaFixed(a: Feature, b: Feature): (r: int)
    ensures r in {-1, 0, 1}
  {
    if a.kind == WayKind && b.kind == WayKind then SortByArea(a, b)
    else if a.kind == WayKind then -1
    else if b.kind == WayKind then 1
    else 0
  }

  /** The corrected comparator is antisymmetric and agrees with the original whenever a Way is involved. */
  lemma SortByAreaFixedConsistent(a: Feature, b: Feature)
    ensures SortByAreaFixed(a, b) == -SortByAreaFixed(b, a)
    ensures a.kind == WayKind || b.kind == WayKind ==> SortByAreaFixed(a, b) == SortByArea(a, b)
  {
  }

  /** The corrected comparator is transitive: "not after" composes. */
  lemma SortByAreaFixedTransitive(a: Feature, b: Feature, c: Feature)
    requires SortByAreaFixed(a, b) <= 0 && SortByAreaFixed(b, c) <= 0
    ensures SortByAreaFixed(a, c) <= 0
  {
  }
}

=== FILE: geohash.dfy ===
/**
 * The geohash key algebra of mapping/geohash.js: keys at a chosen length,
 * prefix closure, neighbour lists, the viewport flood fill and the table that
 * picks a key length for a feature size. The geohash library itself
 * (encodeGeoHash, decodeGeoHash, calculateAdjacent) and Math.in_range are not
 * part of this model; they enter as the function fields of `Lib`.
 */
module Geohash {
  import opened Js

  /** The geohash alphabet. */
  const Base32: string := "0123456789bcdefghjkmnpqrstuvwxyz"

  /** Every character of the key is in the alphabet. */
  predicate ValidKey(k: string) {
    |k| == 0 || (k[0] in Base32 && ValidKey(k[1..]))
  }

  datatype Direction = Top | Right | Bottom | Left

  /** What decodeGeoHash answers: the latitude and longitude intervals of a cell. */
  datatype Cell = Cell(lat0: real, lat1: real, lon0: real, lon1: real)

  /**
   * A box in the array layout of Map.bbox and Geohash.bbox:
   * `[lon1, lat2, lon2, lat1]`.
   */
  datatype Rect = Rect(lon1: real, lat2: real, lon2: real, lat1: real)

  /** The library functions the geohash code calls. */
  datatype Lib = Lib(
    encode: (real, real) -> string,
    decode: string -> Cell,
    adjacent: (string, Direction) -> string,
    inRange: (real, real, real) -> bool)

  /**
   * encodeGeoHash answers keys over the geohash alphabet, and calculateAdjacent
   * maps a key to a key of the same length over the same alphabet.
   */
  ghost predicate WellFormed(lib: Lib) {
    && (forall lat, lon :: ValidKey(lib.encode(lat, lon)))
    && (forall k, d :: ValidKey(k) ==> ValidKey(lib.adjacent(k, d)) && |lib.adjacent(k, d)| == |k|)
  }

  /** A prefix of a valid key is valid. */
  lemma {:induction false} ValidPrefix(k: string, p: string)
    requires ValidKey(k) && p <= k
    ensures ValidKey(p)
  {
    if |p| > 0 {
      assert p[1..] <= k[1..];
      ValidPrefix(k[1..], p[1..]);
    }
  }

  /** The default key length of get_key. */
  const DefaultLength: nat := 6

  /**
   * Prototype's `String#truncate(n, '')`: the first `n` characters when the
   * string is longer. A length of 0 is falsy and falls back to 30.
   */
  function Truncate(s: string, n: nat): (r: string)
    ensures r <= s
    ensures n >= 1 ==> |r| == Min(|s|, n)
    ensures n == 0 ==> |r| == Min(|s|, 30)
  {
    var m := if n == 0 then 30 else n;
    if |s| > m then s[..m] else s
  }

  /**
   * Geohash.get_key. A missing or zero length falls back to 6 and a negative
   * one to 1; the key is the encoded point cut to that many characters.
   */
  function GetKey(lib: Lib, lat: real, lon: real, length: Option<int>): (r: string)
    ensures r <= lib.encode(lat, lon)
    ensures length.None? || length == Some(0) ==> |r| == Min(|lib.encode(lat, lon)|, DefaultLength)
    ensures length.Some? && length.value < 0 ==> |r| == Min(|lib.encode(lat, lon)|, 1)
    ensures length.Some? && length.value >= 1 ==> |r| == Min(|lib.encode(lat, lon)|, length.value)
  {
    var n := if length.None? || length.value == 0 then DefaultLength else length.value;
    var n1 := if n < 1 then 1 else n;
    Truncate(lib.encode(lat, lon), n1)
  }

  /** The key of a point at a coarser length is a prefix of its key at a finer length. */
  lemma GetKeyNests(lib: Lib, lat: real, lon: real, a: int, b: int)
    requires 1 <= a <= b
    ensures GetKey(lib, lat, lon, Some(a)) <= GetKey(lib, lat, lon, Some(b))
  {
    var e := lib.encode(lat, lon);
    var ka := GetKey(lib, lat, lon, Some(a));
    var kb := GetKey(lib, lat, lon, Some(b));
    assert ka == e[..|ka|] && kb == e[..|kb|];
  }

  /** Distinct entries: the keys of a Hash, in insertion order. */
  ghost predicate Distinct<T>(s: seq<T>) {
    forall a, b :: 0 <= a < b < |s| ==> s[a] != s[b]
  }

  /** `hash.set(k, true)` on a Hash whose values are all `true`. */
  function Mark(hash: seq<string>, k: string): (r: seq<string>)
    ensures hash <= r && k in r
    ensures forall x :: x in r <==> x in hash || x == k
    ensures Distinct(hash) ==> Distinct(r)
  {
    if k in hash then hash else hash + [k]
  }

  /**
   * Geohash.get_keys_upward: mark the key, then each shorter prefix down to
   * length 1.
   */
  function Upward(key: string, hash: seq<string>): (r: seq<string>)
    decreases |key|
  {
    var h := Mark(hash, key);
    if |key| > 1 then Upward(key[..|key| - 1], h) else h
  }

  /**
   * get_keys_upward keeps every entry already present, in place, and adds
   * exactly the key and its non-empty prefixes.
   */
  lemma {:induction false} UpwardAddsPrefixes(key: string, hash: seq<string>)
    ensures hash <= Upward(key, hash)
    ensures forall x :: x in Upward(key, hash) <==> x in hash || x == key || (x <= key && |x| >= 1)
    ensures Distinct(hash) ==> Distinct(Upward(key, hash))
    decreases |key|
  {
    var h := Mark(hash, key);
    if |key| > 1 {
      var p := key[..|key| - 1];
      UpwardAddsPrefixes(p, h);
      forall x
        ensures x in Upward(key, hash) <==> x in hash || x == key || (x <= key && |x| >= 1)
      {
        if x <= key && |x| >= 1 && x != key {
          assert x <= p;
        }
        if x <= p {
          assert x <= key;
        }
      }
    }
  }

  /** Every non-empty prefix of every key is itself a key. */
  ghost predicate UpwardClosed(keys: seq<string>) {
    forall k, j :: k in keys && 1 <= j <= |k| ==> k[..j] in keys
  }

  /** Marking keys upward from an upward-closed hash leaves it upward-closed. */
  lemma UpwardKeepsClosed(key: string, hash: seq<string>)
    requires UpwardClosed(hash)
    ensures UpwardClosed(Upward(key, hash))
  {
    UpwardAddsPrefixes(key, hash);
    var r := Upward(key, hash);
    forall k, j | k in r && 1 <= j <= |k|
      ensures k[..j] in r
    {
      if k !in hash {
        assert k[..j] <= k;
      }
    }
  }

  /** Geohash.get_four_neighbor_keys: top, right, bottom, left. */
  function FourNeighbors(lib: Lib, key: string): (r: seq<string>)
    ensures |r| == 4
    ensures r[0] == lib.adjacent(key, Top) && r[1] == lib.adjacent(key, Right)
    ensures r[2] == lib.adjacent(key, Bottom) && r[3] == lib.adjacent(key, Left)
  {
    [lib.adjacent(key, Top), lib.adjacent(key, Right), lib.adjacent(key, Bottom), lib.adjacent(key, Left)]
  }

  /**
   * Geohash.get_eight_neighbor_keys: clockwise from the top, with the diagonal
   * keys taken as the left and right neighbours of the top and bottom keys.
   */
  function EightNeighbors(lib: Lib, key: string): (r: seq<string>)
    ensures |r| == 8
    ensures var four := FourNeighbors(lib, key);
      && r[0] == four[0] && r[2] == four[1] && r[4] == four[2] && r[6] == four[3]
      && r[1] == lib.adjacent(four[0], Right) && r[7] == lib.adjacent(four[0], Left)
      && r[3] == lib.adjacent(four[2], Right) && r[5] == lib.adjacent(four[2], Left)
  {
    var four := FourNeighbors(lib, key);
    var top, right, bottom, left := four[0], four[1], four[2], four[3];
    [top, lib.adjacent(top, Right), right, lib.adjacent(bottom, Right),
     bottom, lib.adjacent(bottom, Left), left, lib.adjacent(top, Left)]
  }

  /** With a well-formed library every neighbour is a valid key of the same length. */
  lemma NeighborsKeepLength(lib: Lib, key: string)
    requires WellFormed(lib) && ValidKey(key)
    ensures forall j :: 0 <= j < 8 ==> ValidKey(EightNeighbors(lib, key)[j]) && |EightNeighbors(lib, key)[j]| == |key|
  {
    var four := FourNeighbors(lib, key);
    assert ValidKey(four[0]) && ValidKey(four[2]);
  }

  /** Geohash.bbox: the decoded cell as `[lon[0], lat[1], lon[1], lat[0]]`, with the key. */
  function Bbox(lib: Lib, key: string): (r: (Rect, string))
    ensures r.1 == key
    ensures r.0.lon1 == lib.decode(key).lon0 && r.0.lon2 == lib.decode(key).lon1
    ensures r.0.lat2 == lib.decode(key).lat1 && r.0.lat1 == lib.decode(key).lat0
  {
    var c := lib.decode(key);
    (Rect(c.lon0, c.lat1, c.lon1, c.lat0), key)
  }

  /** All four edges of `inner` lie within `outer`, both in Map.bbox layout. */
  predicate Inside(lib: Lib, inner: Rect, outer: Rect) {
    && lib.inRange(inner.lat1, outer.lat1, outer.lat2)
    && lib.inRange(inner.lat2, outer.lat1, outer.lat2)
    && lib.inRange(inner.lon1, outer.lon1, outer.lon2)
    && lib.inRange(inner.lon2, outer.lon1, outer.lon2)
  }

  /**
   * The test fill_bbox applies before expanding a key: every edge of the
   * decoded cell lies within the viewport box (containment, not overlap).
   */
  predicate Expandable(lib: Lib, view: Rect, k: string) {
    var c := lib.decode(k);
    && lib.inRange(c.lat0, view.lat1, view.lat2)
    && lib.inRange(c.lat1, view.lat1, view.lat2)
    && lib.inRange(c.lon0, view.lon1, view.lon2)
    && lib.inRange(c.lon1, view.lon1, view.lon2)
  }

  /** The fill test is exactly "the key's bbox lies inside the viewport". */
  lemma ExpandableIffBboxInside(lib: Lib, view: Rect, k: string)
    ensures Expandable(lib, view, k) <==> Inside(lib, Bbox(lib, k).0, view)
  {
  }

  /** A finite set holding every valid key of a given length. */
  ghost function Universe(len: nat): (u: set<string>)
    ensures forall k :: |k| == len && ValidKey(k) ==> k in u
  {
    if len == 0 then {""}
    else
      var prev := Universe(len - 1);
      PrefixedCover(len, prev);
      set c, k | c in Base32 && k in prev :: [c] + k
  }

  /** A key of length `len` is its first letter before a key of length `len - 1`. */
  lemma PrefixedCover(len: nat, prev: set<string>)
    requires len > 0
    requires forall k :: |k| == len - 1 && ValidKey(k) ==> k in prev
    ensures forall k :: |k| == len && ValidKey(k) ==> k in (set c, t | c in Base32 && t in prev :: [c] + t)
  {
    forall k | |k| == len && ValidKey(k)
      ensures k in (set c, t | c in Base32 && t in prev :: [c] + t)
    {
      var c, t := k[0], k[1..];
      assert c in Base32 && ValidKey(t) && |t| == len - 1;
      assert k == [c] + t;
    }
  }

  function Elems(s: seq<string>): set<string> {
    set x | x in s
  }

  /** Adding a fresh valid key strictly shrinks the set of keys still missing. */
  lemma FreshKeyShrinksRest(keys: seq<string>, k: string, len: nat)
    requires ValidKey(k) && |k| == len && k !in keys
    ensures Universe(len) - Elems(keys + [k]) < Universe(len) - Elems(keys)
  {
    var u := Universe(len);
    assert k in u - Elems(keys);
    assert k !in u - Elems(keys + [k]);
  }

  /** A hash that only grows leaves no more keys missing. */
  lemma GrowthShrinksRest(keys: seq<string>, keys': seq<string>, len: nat)
    requires keys <= keys'
    ensures Universe(len) - Elems(keys') <= Universe(len) - Elems(keys)
  {
  }

  /**
   * Geohash.fill_bbox: visit the eight neighbours of `key` in order; each one
   * not yet present is added, and expanded in turn when its cell lies inside
   * the viewport. Only keys are ever appended.
   */
  function FillBbox(lib: Lib, view: Rect, key: string, keys: seq<string>): (r: seq<string>)
    requires WellFormed(lib) && ValidKey(key)
    ensures keys <= r
    ensures Distinct(keys) ==> Distinct(r)
    decreases Universe(|key|) - Elems(keys), 1, 0
  {
    NeighborsKeepLength(lib, key);
    FillList(lib, view, EightNeighbors(lib, key), keys, |key|)
  }

  /** The loop of fill_bbox over a list of neighbours of length `len`. */
  function FillList(lib: Lib, view: Rect, ns: seq<string>, keys: seq<string>, len: nat): (r: seq<string>)
    requires WellFormed(lib)
    requires forall j :: 0 <= j < |ns| ==> ValidKey(ns[j]) && |ns[j]| == len
    ensures keys <= r
    ensures Distinct(keys) ==> Distinct(r)
    decreases Universe(len) - Elems(keys), 0, |ns|
  {
    if |ns| == 0 then keys
    else
      var k := ns[0];
      if k in keys then FillList(lib, view, ns[1..], keys, len)
      else
        var keys1 := keys + [k];
        assert keys1 == Mark(keys, k);
        FreshKeyShrinksRest(keys, k, len);
        var keys2 := if Expandable(lib, view, k) then FillBbox(lib, view, k, keys1) else keys1;
        GrowthShrinksRest(keys1, keys2, len);
        FillList(lib, view, ns[1..], keys2, len)
  }

  /** Every neighbour of `y` is among `keys`. */
  ghost predicate NeighborsIn(lib: Lib, y: string, keys: seq<string>) {
    forall j :: 0 <= j < 8 ==> EightNeighbors(lib, y)[j] in keys
  }

  /** Some key added between `keys` and `r` was expanded and has `x` as a neighbour. */
  ghost predicate ReachedFromAdded(lib: Lib, view: Rect, keys: seq<string>, r: seq<string>, x: string) {
    exists y :: y in r && y !in keys && Expandable(lib, view, y) && x in EightNeighbors(lib, y)
  }

  /**
   * The fill loop over `ns` took `keys` to `r`: every key of `ns` is present,
   * every added key that was expanded has all its neighbours present, and every
   * added key is one of `ns` or a neighbour of an added, expanded key.
   */
  ghost predicate Closes(lib: Lib, view: Rect, ns: seq<string>, keys: seq<string>, r: seq<string>) {
    && (forall j :: 0 <= j < |ns| ==> ns[j] in r)
    && (forall y :: y in r && y !in keys && Expandable(lib, view, y) ==> NeighborsIn(lib, y, r))
    && (forall x :: x in r && x !in keys ==> x in ns || ReachedFromAdded(lib, view, keys, r, x))
  }

  /**
   * What fill_bbox adds: every neighbour of the start key ends up present, every
   * added key that was expanded has all its neighbours present, and every added
   * key is a neighbour of the start key or of an added, expanded key.
   */
  lemma {:induction false} FillBboxCloses(lib: Lib, view: Rect, key: string, keys: seq<string>)
    requires WellFormed(lib) && ValidKey(key)
    ensures Closes(lib, view, EightNeighbors(lib, key), keys, FillBbox(lib, view, key, keys))
    decreases Universe(|key|) - Elems(keys), 1, 0
  {
    NeighborsKeepLength(lib, key);
    FillListCloses(lib, view, EightNeighbors(lib, key), keys, |key|);
  }

  lemma {:induction false} FillListCloses(lib: Lib, view: Rect, ns: seq<string>, keys: seq<string>, len: nat)
    requires WellFormed(lib)
    requires forall j :: 0 <= j < |ns| ==> ValidKey(ns[j]) && |ns[j]| == len
    ensures Closes(lib, view, ns, keys, FillList(lib, view, ns, keys, len))
    decreases Universe(len) - Elems(keys), 0, |ns|
  {
    if |ns| > 0 {
      var k := ns[0];
      var r := FillList(lib, view, ns, keys, len);
      if k in keys {
        FillListCloses(lib, view, ns[1..], keys, len);
        SkipStepComposes(lib, view, ns, keys, r);
      } else {
        var keys1 := keys + [k];
        FreshKeyShrinksRest(keys, k, len);
        var keys2 := if Expandable(lib, view, k) then FillBbox(lib, view, k, keys1) else keys1;
        GrowthShrinksRest(keys1, keys2, len);
        FillListCloses(lib, view, ns[1..], keys2, len);
        if Expandable(lib, view, k) {
          FillBboxCloses(lib, view, k, keys1);
        }
        AddedStepComposes(lib, view, ns, keys, keys1, keys2, r);
      }
    }
  }

  /** One loop iteration whose key was already present. */
  lemma SkipStepComposes(lib: Lib, view: Rect, ns: seq<string>, keys: seq<string>, r: seq<string>)
    requires |ns| > 0 && ns[0] in keys && keys <= r
    requires Closes(lib, view, ns[1..], keys, r)
    ensures Closes(lib, view, ns, keys, r)
  {
    assert ns[0] in r;
    forall j | 1 <= j < |ns|
      ensures ns[j] in r
    {
      assert ns[j] == ns[1..][j - 1];
    }
  }

  /**
   * One loop iteration that adds `ns[0]`: the closure facts of its expansion
   * (`keys1` to `keys2`) and of the rest of the loop (`keys2` to `r`) combine
   * into those of the whole iteration.
   */
  lemma AddedStepComposes(lib: Lib, view: Rect, ns: seq<string>, keys: seq<string>, keys1: seq<string>,
                          keys2: seq<string>, r: seq<string>)
    requires |ns| > 0 && ns[0] !in keys && keys1 == keys + [ns[0]]
    requires keys1 <= keys2 && keys2 <= r
    requires Expandable(lib, view, ns[0]) ==> Closes(lib, view, EightNeighbors(lib, ns[0]), keys1, keys2)
    requires !Expandable(lib, view, ns[0]) ==> keys2 == keys1
    requires Closes(lib, view, ns[1..], keys2, r)
    ensures Closes(lib, view, ns, keys, r)
  {
    var k := ns[0];
    assert k in keys1 && k in r;
    forall j | 1 <= j < |ns|
      ensures ns[j] in r
    {
      assert ns[j] == ns[1..][j - 1];
    }
    forall y | y in r && y !in keys && Expandable(lib, view, y)
      ensures NeighborsIn(lib, y, r)
    {
      AddedKeyClosed(lib, view, ns, keys, keys1, keys2, r, y);
    }
    forall x | x in r && x !in keys
      ensures x in ns || ReachedFromAdded(lib, view, keys, r, x)
    {
      AddedKeyReached(lib, view, ns, keys, keys1, keys2, r, x);
    }
  }

  lemma AddedKeyClosed(lib: Lib, view: Rect, ns: seq<string>, keys: seq<string>, keys1: seq<string>,
                       keys2: seq<string>, r: seq<string>, y: string)
    requires |ns| > 0 && ns[0] !in keys && keys1 == keys + [ns[0]]
    requires keys1 <= keys2 && keys2 <= r
    requires Expandable(lib, view, ns[0]) ==> Closes(lib, view, EightNeighbors(lib, ns[0]), keys1, keys2)
    requires !Expandable(lib, view, ns[0]) ==> keys2 == keys1
    requires Closes(lib, view, ns[1..], keys2, r)
    requires y in r && y !in keys && Expandable(lib, view, y)
    ensures NeighborsIn(lib, y, r)
  {
    if y !in keys2 {
    } else if y == ns[0] {
      forall j | 0 <= j < 8
        ensures EightNeighbors(lib, y)[j] in r
      {
        assert EightNeighbors(lib, y)[j] in keys2;
      }
    } else {
      assert y !in keys1;
      forall j | 0 <= j < 8
        ensures EightNeighbors(lib, y)[j] in r
      {
        assert EightNeighbors(lib, y)[j] in keys2;
      }
    }
  }

  lemma AddedKeyReached(lib: Lib, view: Rect, ns: seq<string>, keys: seq<string>, keys1: seq<string>,
                        keys2: seq<string>, r: seq<string>, x: string)
    requires |ns| > 0 && ns[0] !in keys && keys1 == keys + [ns[0]]
    requires keys1 <= keys2 && keys2 <= r
    requires Expandable(lib, view, ns[0]) ==> Closes(lib, view, EightNeighbors(lib, ns[0]), keys1, keys2)
    requires !Expandable(lib, view, ns[0]) ==> keys2 == keys1
    requires Closes(lib, view, ns[1..], keys2, r)
    requires x in r && x !in keys
    ensures x in ns || ReachedFromAdded(lib, view, keys, r, x)
  {
    var k := ns[0];
    assert k in keys1 && k in r;
    assert keys <= keys2;
    if x != k && x in keys2 {
      assert x !in keys1;
      assert Expandable(lib, view, k);
      if x in EightNeighbors(lib, k) {
        assert k !in keys;
        assert ReachedFromAdded(lib, view, keys, r, x);
      } else {
        ReachedGrows(lib, view, keys, r, keys1, keys2, x);
      }
    } else if x !in keys2 && x !in ns[1..] {
      ReachedGrows(lib, view, keys, r, keys2, r, x);
    }
  }

  /** A key reached from keys added between `a2` and `b2` is reached from those between `a` and `b`. */
  lemma ReachedGrows(lib: Lib, view: Rect, a: seq<string>, b: seq<string>, a2: seq<string>, b2: seq<string>, x: string)
    requires a <= a2 && b2 <= b
    requires ReachedFromAdded(lib, view, a2, b2, x)
    ensures ReachedFromAdded(lib, view, a, b, x)
  {
    var y :| y in b2 && y !in a2 && Expandable(lib, view, y) && x in EightNeighbors(lib, y);
    assert y in b && y !in a;
  }

  /** The upper bounds of the longitude table, smallest first. */
  const LonThresholds: seq<real> :=
    [0.0000003357, 0.000001341, 0.00001072, 0.00004291, 0.0003433, 0.001373,
     0.01098, 0.04394, 0.3515, 1.406, 11.25, 45.0]

  /** The upper bounds of the latitude table, smallest first. */
  const LatThresholds: seq<real> :=
    [0.0000001676, 0.000001341, 0.000005364, 0.00004291, 0.0001716, 0.001373,
     0.005493, 0.04394, 0.1757, 1.40625, 5.625, 45.0]

  /** The longitude branch of get_key_length, as written. */
  function LonKey(lon: real): int {
    if lon < 0.0000003357 then 12
    else if lon < 0.000001341 then 11
    else if lon < 0.00001072 then 10
    else if lon < 0.00004291 then 9
    else if lon < 0.0003433 then 8
    else if lon < 0.001373 then 7
    else if lon < 0.01098 then 6
    else if lon < 0.04394 then 5
    else if lon < 0.3515 then 4
    else if lon < 1.406 then 3
    else if lon < 11.25 then 2
    else if lon < 45.0 then 1
    else 0
  }

  /** The latitude branch of get_key_length, as written. */
  function LatKey(lat: real): int {
    if lat < 0.0000001676 then 12
    else if lat < 0.000001341 then 11
    else if lat < 0.000005364 then 10
    else if lat < 0.00004291 then 9
    else if lat < 0.0001716 then 8
    else if lat < 0.001373 then 7
    else if lat < 0.005493 then 6
    else if lat < 0.04394 then 5
    else if lat < 0.1757 then 4
    else if lat < 1.40625 then 3
    else if lat < 5.625 then 2
    else if lat < 45.0 then 1
    else 0
  }

  /** How many thresholds the value has reached (`t <= x`). */
  function Reached(ts: seq<real>, x: real): (n: nat)
    ensures n <= |ts|
  {
    if |ts| == 0 then 0 else (if ts[0] <= x then 1 else 0) + Reached(ts[1..], x)
  }

  /** The first-match reading of a table: the number of bounds left from the first one exceeding `x`. */
  function ChainKey(ts: seq<real>, x: real): int {
    if |ts| == 0 then 0 else if x < ts[0] then |ts| else ChainKey(ts[1..], x)
  }

  predicate Increasing(ts: seq<real>) {
    forall i :: 0 <= i < |ts| - 1 ==> ts[i] < ts[i + 1]
  }

  lemma {:induction false} NoneReached(ts: seq<real>, x: real)
    requires Increasing(ts) && |ts| > 0 && x < ts[0]
    ensures Reached(ts, x) == 0
  {
    if |ts| > 1 {
      NoneReached(ts[1..], x);
    }
  }

  /**
   * On increasing bounds, the first match of the if-chain is the number of
   * bounds the value has not reached.
   */
  lemma {:induction false} ChainKeyCountsUnreached(ts: seq<real>, x: real)
    requires Increasing(ts)
    ensures ChainKey(ts, x) == |ts| - Reached(ts, x)
  {
    if |ts| > 0 {
      if x < ts[0] {
        NoneReached(ts, x);
      } else {
        ChainKeyCountsUnreached(ts[1..], x);
      }
    }
  }

  /** A larger value reaches at least as many thresholds. */
  lemma {:induction false} ReachedMonotone(ts: seq<real>, x: real, y: real)
    requires x <= y
    ensures Reached(ts, x) <= Reached(ts, y)
  {
    if |ts| > 0 {
      ReachedMonotone(ts[1..], x, y);
    }
  }

  /** The longitude branch of get_key_length is the first-match reading of its table. */
  lemma LonKeyIsChain(lon: real)
    ensures LonKey(lon) == ChainKey(LonThresholds, lon)
  {
    assert ChainKey([0.0000003357, 0.000001341, 0.00001072, 0.00004291, 0.0003433, 0.001373, 0.01098, 0.04394, 0.3515, 1.406, 11.25, 45.0], lon) == if lon < 0.0000003357 then 12 else ChainKey([0.000001341, 0.00001072, 0.00004291, 0.0003433, 0.001373, 0.01098, 0.04394, 0.3515, 1.406, 11.25, 45.0], lon);
    assert ChainKey([0.000001341, 0.00001072, 0.00004291, 0.0003433, 0.001373, 0.01098, 0.04394, 0.3515, 1.406, 11.25, 45.0], lon) == if lon < 0.000001341 then 11 else ChainKey([0.00001072, 0.00004291, 0.0003433, 0.001373, 0.01098, 0.04394, 0.3515, 1.406, 11.25, 45.0], lon);
    assert ChainKey([0.00001072, 0.00004291, 0.0003433, 0.001373, 0.01098, 0.04394, 0.3515, 1.406, 11.25, 45.0], lon) == if lon < 0.00001072 then 10 else ChainKey([0.00004291, 0.0003433, 0.001373, 0.01098, 0.04394, 0.3515, 1.406, 11.25, 45.0], lon);
    assert ChainKey([0.00004291, 0.0003433, 0.001373, 0.01098, 0.04394, 0.3515, 1.406, 11.25, 45.0], lon) == if lon < 0.00004291 then 9 else ChainKey([0.0003433, 0.001373, 0.01098, 0.04394, 0.3515, 1.406, 11.25, 45.0], lon);
    assert ChainKey([0.0003433, 0.001373, 0.01098, 0.04394, 0.3515, 1.406, 11.25, 45.0], lon) == if lon < 0.0003433 then 8 else ChainKey([0.001373, 0.01098, 0.04394, 0.3515, 1.406, 11.25, 45.0], lon);
    assert ChainKey([0.001373, 0.01098, 0.04394, 0.3515, 1.406, 11.25, 45.0], lon) == if lon < 0.001373 then 7 else ChainKey([0.01098, 0.04394, 0.3515, 1.406, 11.25, 45.0], lon);
    assert ChainKey([0.01098, 0.04394, 0.3515, 1.406, 11.25, 45.0], lon) == if lon < 0.01098 then 6 else ChainKey([0.04394, 0.3515, 1.406, 11.25, 45.0], lon);
    assert ChainKey([0.04394, 0.3515, 1.406, 11.25, 45.0], lon) == if lon < 0.04394 then 5 else ChainKey([0.3515, 1.406, 11.25, 45.0], lon);
    assert ChainKey([0.3515, 1.406, 11.25, 45.0], lon) == if lon < 0.3515 then 4 else ChainKey([1.406, 11.25, 45.0], lon);
    assert ChainKey([1.406, 11.25, 45.0], lon) == if lon < 1.406 then 3 else ChainKey([11.25, 45.0], lon);
    assert ChainKey([11.25, 45.0], lon) == if lon < 11.25 then 2 else ChainKey([45.0], lon);
    assert ChainKey([45.0], lon) == if lon < 45.0 then 1 else ChainKey([], lon);
    assert ChainKey([], lon) == 0;
  }

  /** The latitude branch of get_key_length is the first-match reading of its table. */
  lemma LatKeyIsChain(lat: real)
    ensures LatKey(lat) == ChainKey(LatThresholds, lat)
  {
    assert ChainKey([0.0000001676, 0.000001341, 0.000005364, 0.00004291, 0.0001716, 0.001373, 0.005493, 0.04394, 0.1757, 1.40625, 5.625, 45.0], lat) == if lat < 0.0000001676 then 12 else ChainKey([0.000001341, 0.000005364, 0.00004291, 0.0001716, 0.001373, 0.005493, 0.04394, 0.1757, 1.40625, 5.625, 45.0], lat);
    assert ChainKey([0.000001341, 0.000005364, 0.00004291, 0.0001716, 0.001373, 0.005493, 0.04394, 0.1757, 1.40625, 5.625, 45.0], lat) == if lat < 0.000001341 then 11 else ChainKey([0.000005364, 0.00004291, 0.0001716, 0.001373, 0.005493, 0.04394, 0.1757, 1.40625, 5.625, 45.0], lat);
    assert ChainKey([0.000005364, 0.00004291, 0.0001716, 0.001373, 0.005493, 0.04394, 0.1757, 1.40625, 5.625, 45.0], lat) == if lat < 0.000005364 then 10 else ChainKey([0.00004291, 0.0001716, 0.001373, 0.005493, 0.04394, 0.1757, 1.40625, 5.625, 45.0], lat);
    assert ChainKey([0.00004291, 0.0001716, 0.001373, 0.005493, 0.04394, 0.1757, 1.40625, 5.625, 45.0], lat) == if lat < 0.00004291 then 9 else ChainKey([0.0001716, 0.001373, 0.005493, 0.04394, 0.1757, 1.40625, 5.625, 45.0], lat);
    assert ChainKey([0.0001716, 0.001373, 0.005493, 0.04394, 0.1757, 1.40625, 5.625, 45.0], lat) == if lat < 0.0001716 then 8 else ChainKey([0.001373, 0.005493, 0.04394, 0.1757, 1.40625, 5.625, 45.0], lat);
    assert ChainKey([0.001373, 0.005493, 0.04394, 0.1757, 1.40625, 5.625, 45.0], lat) == if lat < 0.001373 then 7 else ChainKey([0.005493, 0.04394, 0.1757, 1.40625, 5.625, 45.0], lat);
    assert ChainKey([0.005493, 0.04394, 0.1757, 1.40625, 5.625, 45.0], lat) == if lat < 0.005493 then 6 else ChainKey([0.04394, 0.1757, 1.40625, 5.625, 45.0], lat);
    assert ChainKey([0.04394, 0.1757, 1.40625, 5.625, 45.0], lat) == if lat < 0.04394 then 5 else ChainKey([0.1757, 1.40625, 5.625, 45.0], lat);
    assert ChainKey([0.1757, 1.40625, 5.625, 45.0], lat) == if lat < 0.1757 then 4 else ChainKey([1.40625, 5.625, 45.0], lat);
    assert ChainKey([1.40625, 5.625, 45.0], lat) == if lat < 1.40625 then 3 else ChainKey([5.625, 45.0], lat);
    assert ChainKey([5.625, 45.0], lat) == if lat < 5.625 then 2 else ChainKey([45.0], lat);
    assert ChainKey([45.0], lat) == if lat < 45.0 then 1 else ChainKey([], lat);
    assert ChainKey([], lat) == 0;
  }

  /**
   * Each branch of get_key_length is 12 minus the number of table bounds the
   * size has reached, so it lies in 0..12 and never grows with the size.
   */
  lemma KeyBranchesMatchTables(lat: real, lon: real)
    ensures LonKey(lon) == 12 - Reached(LonThresholds, lon)
    ensures LatKey(lat) == 12 - Reached(LatThresholds, lat)
  {
    LonKeyIsChain(lon);
    LatKeyIsChain(lat);
    ChainKeyCountsUnreached(LonThresholds, lon);
    ChainKeyCountsUnreached(LatThresholds, lat);
  }

  /**
   * Geohash.get_key_length: the smaller of the two branch results, each in
   * 0..12 and never larger for a larger feature.
   */
  function GetKeyLength(lat: real, lon: real): (r: int)
    ensures 0 <= r <= 12
    ensures r <= LatKey(lat) && r <= LonKey(lon) && (r == LatKey(lat) || r == LonKey(lon))
  {
    Min(LatKey(lat), LonKey(lon))
  }

  /** A bigger feature never gets a longer key. */
  lemma GetKeyLengthMonotone(lat: real, lon: real, lat': real, lon': real)
    requires lat <= lat' && lon <= lon'
    ensures GetKeyLength(lat', lon') <= GetKeyLength(lat, lon)
  {
    KeyBranchesMatchTables(lat, lon);
    KeyBranchesMatchTables(lat', lon');
    ReachedMonotone(LatThresholds, lat, lat');
    ReachedMonotone(LonThresholds, lon, lon');
  }
}

=== FILE: importer.dfy ===
/**
 * The Importer of data/importer.js (and its older copy inside cartagen.js):
 * the plot loader, which decides per geohash key whether to fetch, read the
 * localStorage copy or do nothing, with its outstanding-request counter and
 * its 120-second abort; and the parsers, which turn raw OSM nodes and ways
 * into features and queue them as a node → way → coastline task chain.
 *
 * Ajax requests are not performed: a request is a record, and its response,
 * its failure and its timer are events applied to the loader state. The
 * localStorage object is an optional map (absent in browsers without it).
 * Which plot texts make parse_objects throw is given as a set `broken`.
 */
module Importer {
  import opened Js
  import Geohash
  import Data
  import Tasks

  // ---------------------------------------------------------------------------
  // Plot loader
  // ---------------------------------------------------------------------------

  /**
   * One call of load_plot: the key, the closure's `finished` flag, whether the
   * Ajax callbacks are still attached (not yet answered and not aborted),
   * whether its 120 s timer has yet to fire, and whether it has decremented
   * requested_plots.
   */
  datatype Request = Request(key: string, finished: bool, attached: bool, timerPending: bool, settled: bool)

  /** A call of parse_objects that returned: the plot text and the key it was loaded for. */
  datatype Parse = Parse(text: string, key: string)

  /** The loader state: plots, requested_plots, the requests made, localStorage, the parses completed, Map.last_pos. */
  datatype Loader = Loader(
    plots: map<string, bool>,
    requested: int,
    requests: seq<Request>,
    storage: Option<map<string, string>>,
    parses: seq<Parse>,
    lastPos: (real, real))

  /** The loader when the page starts. */
  function InitialLoader(storage: Option<map<string, string>>): Loader {
    Loader(map[], 0, [], storage, [], (0.0, 0.0))
  }

  /** The localStorage item a plot is cached under. */
  function StorageKey(key: string): string {
    "geohash_" + key
  }

  /** The request load_plot starts. */
  function NewRequest(key: string): Request {
    Request(key, false, true, true, false)
  }

  /** Importer.load_plot: one more outstanding request. */
  function LoadPlot(s: Loader, key: string): (r: Loader)
    ensures r.requested == s.requested + 1
    ensures r.requests == s.requests + [NewRequest(key)]
    ensures r.plots == s.plots && r.parses == s.parses && r.storage == s.storage
  {
    s.(requested := s.requested + 1, requests := s.requests + [NewRequest(key)])
  }

  /** `plots.get(key)` is truthy: the key was handled this session. */
  predicate Seen(s: Loader, key: string) {
    key in s.plots && s.plots[key]
  }

  /** localStorage exists and holds a non-empty text for the key. */
  predicate CacheHit(s: Loader, key: string) {
    s.storage.Some? && StorageKey(key) in s.storage.value && s.storage.value[StorageKey(key)] != ""
  }

  /** get_cached_plot fetches: live loading, or a key neither seen nor cached. */
  predicate Fetches(s: Loader, live: bool, key: string) {
    live || (!Seen(s, key) && !CacheHit(s, key))
  }

  /**
   * get_cached_plot parses a localStorage copy on which parse_objects throws
   * (`broken` holds those texts: a body evalJSON rejects, or a plot without a
   * node or a way list, whose `members.length` the Task constructor reads).
   */
  predicate CacheThrows(s: Loader, live: bool, key: string, broken: set<string>) {
    !live && !Seen(s, key) && CacheHit(s, key) && s.storage.value[StorageKey(key)] in broken
  }

  /**
   * Importer.get_cached_plot. Live loading always fetches; otherwise a key seen
   * this session is left alone, a localStorage copy is parsed, and anything else
   * is fetched. On every path that returns the key is then marked as seen; a
   * cached copy whose parse throws ends the call before that (the second
   * component is `true`) and changes nothing.
   */
  function GetCachedPlot(s: Loader, live: bool, key: string, broken: set<string>): (r: (Loader, bool))
    ensures r.1 <==> CacheThrows(s, live, key, broken)
    ensures r.1 ==> r.0 == s
    ensures !r.1 ==> r.0.plots == s.plots[key := true]
    ensures r.0.storage == s.storage
    ensures Fetches(s, live, key) ==>
      r.0.requests == s.requests + [NewRequest(key)] && r.0.requested == s.requested + 1 && r.0.parses == s.parses
    ensures !Fetches(s, live, key) ==> r.0.requests == s.requests && r.0.requested == s.requested
    ensures !live && !Seen(s, key) && CacheHit(s, key) && !r.1 ==>
      r.0.parses == s.parses + [Parse(s.storage.value[StorageKey(key)], key)]
    ensures !live && Seen(s, key) ==> r.0.parses == s.parses
  {
    if CacheThrows(s, live, key, broken) then (s, true)
    else
      var s1 :=
        if live then LoadPlot(s, key)
        else if Seen(s, key) then s
        else if CacheHit(s, key) then s.(parses := s.parses + [Parse(s.storage.value[StorageKey(key)], key)])
        else LoadPlot(s, key);
      (s1.(plots := s1.plots[key := true]), false)
  }

  /** Without live loading, asking for the same plot twice in a row is the same as asking once. */
  lemma CachedPlotIdempotent(s: Loader, key: string, broken: set<string>)
    ensures GetCachedPlot(GetCachedPlot(s, false, key, broken).0, false, key, broken) == GetCachedPlot(s, false, key, broken)
  {
    var c := GetCachedPlot(s, false, key, broken);
    if !c.1 {
      assert c.0.plots[key := true] == c.0.plots;
    }
  }

  /** A broken localStorage copy is never marked as seen, so every later ask parses it again and throws again. */
  lemma BrokenCacheThrowsForever(s: Loader, key: string, broken: set<string>)
    requires CacheThrows(s, false, key, broken)
    ensures GetCachedPlot(s, false, key, broken) == (s, true)
    ensures !Seen(GetCachedPlot(s, false, key, broken).0, key)
  {
  }

  /**
   * The response of request `i` arrived. If its callbacks are still attached:
   * finished is set and the text parsed; then, with localStorage, the text is
   * cached and the counter decremented. Without localStorage the bare
   * `localStorage` reference throws before the decrement, and so does a parse
   * that throws (a text in `broken`), which also queues nothing and caches nothing.
   */
  function FetchOk(s: Loader, i: nat, text: string, broken: set<string>): (r: Loader)
    requires i < |s.requests|
    ensures |r.requests| == |s.requests| && r.plots == s.plots
    ensures forall j :: 0 <= j < |s.requests| && j != i ==> r.requests[j] == s.requests[j]
    ensures !s.requests[i].attached ==> r == s
    ensures s.requests[i].attached ==> r.requests[i].finished && !r.requests[i].attached
    ensures r.requests[i].settled <==> s.requests[i].settled || (s.requests[i].attached && text !in broken && s.storage.Some?)
    ensures r.requested == s.requested - (if s.requests[i].attached && text !in broken && s.storage.Some? then 1 else 0)
    ensures s.requests[i].attached && text !in broken ==> r.parses == s.parses + [Parse(text, s.requests[i].key)]
    ensures text in broken ==> r.parses == s.parses && r.storage == s.storage
  {
    var q := s.requests[i];
    if !q.attached then s
    else if text in broken then
      s.(requests := s.requests[i := q.(finished := true, attached := false)])
    else
      var parses := s.parses + [Parse(text, q.key)];
      if s.storage.Some? then
        s.(requests := s.requests[i := q.(finished := true, attached := false, settled := true)],
           parses := parses,
           storage := Some(s.storage.value[StorageKey(q.key) := text]),
           requested := s.requested - 1)
      else
        s.(requests := s.requests[i := q.(finished := true, attached := false)], parses := parses)
  }

  /**
   * A response whose parse throws leaves its request counted for good, and as
   * `finished` is already set, the timer no longer unmarks the key: the plot is
   * never fetched again this session.
   */
  lemma BrokenResponseStaysCounted(s: Loader, i: nat, text: string, broken: set<string>)
    requires i < |s.requests| && s.requests[i].attached && text in broken
    ensures var r := FetchOk(s, i, text, broken);
      && r.requested == s.requested
      && r.requests[i].settled == s.requests[i].settled
      && !r.requests[i].attached
      && TimeoutFired(r, i).plots == r.plots
  {
  }

  /** Request `i` failed: if still attached, the counter is decremented; finished stays false. */
  function FetchFailed(s: Loader, i: nat): (r: Loader)
    requires i < |s.requests|
    ensures |r.requests| == |s.requests| && r.plots == s.plots && r.parses == s.parses
    ensures s.requests[i].attached ==>
      && r.requested == s.requested - 1
      && r.requests[i].settled && !r.requests[i].attached
      && r.requests[i].finished == s.requests[i].finished
    ensures !s.requests[i].attached ==> r == s
    ensures forall j :: 0 <= j < |s.requests| && j != i ==> r.requests[j] == s.requests[j]
  {
    var q := s.requests[i];
    if !q.attached then s
    else s.(requests := s.requests[i := q.(attached := false, settled := true)], requested := s.requested - 1)
  }

  /**
   * The 120 s timer of request `i` fired (once). Unless the request finished,
   * its key is marked unseen and its callbacks are detached; the counter is
   * left as it is.
   */
  function TimeoutFired(s: Loader, i: nat): (r: Loader)
    requires i < |s.requests|
    ensures |r.requests| == |s.requests| && r.requested == s.requested && r.parses == s.parses
    ensures var q := s.requests[i];
      q.timerPending && !q.finished ==> r.plots == s.plots[q.key := false] && !r.requests[i].attached
    ensures var q := s.requests[i];
      !(q.timerPending && !q.finished) ==> r.plots == s.plots && r.requests[i].attached == q.attached
    ensures !r.requests[i].timerPending && r.requests[i].settled == s.requests[i].settled
    ensures forall j :: 0 <= j < |s.requests| && j != i ==> r.requests[j] == s.requests[j]
  {
    var q := s.requests[i];
    if !q.timerPending then s
    else if q.finished then s.(requests := s.requests[i := q.(timerPending := false)])
    else
      s.(requests := s.requests[i := q.(timerPending := false, attached := false)],
         plots := s.plots[q.key := false])
  }

  /** The requests whose callbacks have not decremented the counter. */
  function Unsettled(qs: seq<Request>): nat {
    if |qs| == 0 then 0 else Unsettled(qs[..|qs| - 1]) + (if qs[|qs| - 1].settled then 0 else 1)
  }

  /**
   * requested_plots counts exactly the requests that never decremented it; a
   * request answered or aborted has its callbacks detached.
   */
  ghost predicate Inv(s: Loader) {
    && s.requested == Unsettled(s.requests)
    && forall j :: 0 <= j < |s.requests| ==>
         (s.requests[j].settled || s.requests[j].finished ==> !s.requests[j].attached)
  }

  lemma {:induction false} UnsettledAppend(qs: seq<Request>, q: Request)
    ensures Unsettled(qs + [q]) == Unsettled(qs) + (if q.settled then 0 else 1)
  {
    assert (qs + [q])[..|qs|] == qs;
  }

  lemma {:induction false} UnsettledUpdate(qs: seq<Request>, i: nat, q: Request)
    requires i < |qs|
    ensures Unsettled(qs[i := q]) ==
      Unsettled(qs) - (if qs[i].settled then 0 else 1) + (if q.settled then 0 else 1)
  {
    var n := |qs| - 1;
    if i < n {
      assert qs[i := q][..n] == qs[..n][i := q];
      UnsettledUpdate(qs[..n], i, q);
    } else {
      assert qs[i := q][..n] == qs[..n];
    }
  }

  /** The events that change the loader. */
  datatype Event =
    | CachedPlot(live: bool, key: string)
    | Response(i: nat, text: string)
    | Failure(i: nat)
    | Timeout(i: nat)

  /**
   * Apply one event; an event naming a request that does not exist changes
   * nothing. `broken` holds the plot texts on which parse_objects throws.
   */
  function Apply(s: Loader, e: Event, broken: set<string>): Loader {
    match e
    case CachedPlot(live, key) => GetCachedPlot(s, live, key, broken).0
    case Response(i, text) => if i < |s.requests| then FetchOk(s, i, text, broken) else s
    case Failure(i) => if i < |s.requests| then FetchFailed(s, i) else s
    case Timeout(i) => if i < |s.requests| then TimeoutFired(s, i) else s
  }

  /** Every event keeps requested_plots equal to the number of unsettled requests. */
  lemma ApplyKeepsInv(s: Loader, e: Event, broken: set<string>)
    requires Inv(s)
    ensures Inv(Apply(s, e, broken))
  {
    match e
    case CachedPlot(live, key) =>
      if Fetches(s, live, key) && !CacheThrows(s, live, key, broken) {
        UnsettledAppend(s.requests, NewRequest(key));
      }
    case Response(i, text) =>
      if i < |s.requests| && s.requests[i].attached {
        var q := s.requests[i];
        if s.storage.Some? && text !in broken {
          UnsettledUpdate(s.requests, i, q.(finished := true, attached := false, settled := true));
        } else {
          UnsettledUpdate(s.requests, i, q.(finished := true, attached := false));
        }
      }
    case Failure(i) =>
      if i < |s.requests| && s.requests[i].attached {
        UnsettledUpdate(s.requests, i, s.requests[i].(attached := false, settled := true));
      }
    case Timeout(i) =>
      if i < |s.requests| && s.requests[i].timerPending {
        var q := s.requests[i];
        if q.finished {
          UnsettledUpdate(s.requests, i, q.(timerPending := false));
        } else {
          UnsettledUpdate(s.requests, i, q.(timerPending := false, attached := false));
        }
      }
  }

  /** Apply events in order. */
  function ApplyAll(s: Loader, es: seq<Event>, broken: set<string>): Loader
    decreases |es|
  {
    if |es| == 0 then s else ApplyAll(Apply(s, es[0], broken), es[1..], broken)
  }

  /** From the initial state, whatever happens, the counter is the number of unsettled requests, never negative. */
  lemma {:induction false} CounterTracksRequests(s: Loader, es: seq<Event>, broken: set<string>)
    requires Inv(s)
    ensures Inv(ApplyAll(s, es, broken)) && ApplyAll(s, es, broken).requested >= 0
    decreases |es|
  {
    if |es| > 0 {
      ApplyKeepsInv(s, es[0], broken);
      CounterTracksRequests(Apply(s, es[0], broken), es[1..], broken);
    }
  }

  lemma InitialInv(storage: Option<map<string, string>>)
    ensures Inv(InitialLoader(storage))
  {
  }

  /**
   * A request that is detached without having decremented the counter (aborted
   * by its timer, or answered where localStorage is missing) stays counted for
   * good: no event settles it again.
   */
  lemma AbortedStaysCounted(s: Loader, e: Event, broken: set<string>, j: nat)
    requires j < |s.requests| && !s.requests[j].attached && !s.requests[j].settled
    ensures var r := Apply(s, e, broken); j < |r.requests| && !r.requests[j].attached && !r.requests[j].settled
  {
  }

  /**
   * A fetch still unfinished when its timer fires leaves its key unseen, so the
   * next non-live get_cached_plot of that key fetches it again (when there is
   * no localStorage copy), whereas a key just handled is left alone.
   */
  lemma AbortedKeyRefetched(s: Loader, i: nat, broken: set<string>)
    requires i < |s.requests| && s.requests[i].timerPending && !s.requests[i].finished
    requires !CacheHit(s, s.requests[i].key)
    ensures var key := s.requests[i].key;
      var s1 := TimeoutFired(s, i);
      && Fetches(s1, false, key)
      && GetCachedPlot(s1, false, key, broken).0.requests == s1.requests + [NewRequest(key)]
      && !Fetches(GetCachedPlot(s1, false, key, broken).0, false, key)
  {
  }

  /** No 6-character key among `keys` has a localStorage copy on which parse_objects throws. */
  predicate NoBrokenCache(s: Loader, keys: seq<string>, broken: set<string>) {
    forall k :: k in keys && |k| == 6 && CacheHit(s, k) ==> s.storage.value[StorageKey(k)] !in broken
  }

  /**
   * The `each` over Geohash.keys in get_current_plot: every key of length 6
   * goes through get_cached_plot, in order. An exception ends the walk (the
   * `try` around it catches it), leaving the remaining keys untouched; the
   * second component says whether that happened.
   */
  function CachedAll(s: Loader, keys: seq<string>, live: bool, broken: set<string>): (r: (Loader, bool))
    ensures s.requests <= r.0.requests && r.0.storage == s.storage
    ensures forall j :: |s.requests| <= j < |r.0.requests| ==> |r.0.requests[j].key| == 6
    ensures forall k :: Seen(s, k) ==> Seen(r.0, k)
    ensures !r.1 ==> forall k :: k in keys && |k| == 6 ==> Seen(r.0, k)
    ensures live || NoBrokenCache(s, keys, broken) ==> !r.1
    decreases |keys|
  {
    if |keys| == 0 then (s, false)
    else if |keys[0]| != 6 then CachedAll(s, keys[1..], live, broken)
    else
      var c := GetCachedPlot(s, live, keys[0], broken);
      if c.1 then c
      else CachedAll(c.0, keys[1..], live, broken)
  }

  /** The test at the top of get_current_plot: both coordinates moved, or forced, or one of the first 100 frames. */
  predicate Moved(s: Loader, mapX: real, mapY: real, force: bool, frame: int) {
    (mapX != s.lastPos.0 && mapY != s.lastPos.1) || force || frame < 100
  }

  /**
   * Importer.get_current_plot: when the map moved, every wanted key of length 6
   * goes through get_cached_plot; the position is recorded on every call.
   */
  function GetCurrentPlot(s: Loader, mapX: real, mapY: real, force: bool, frame: int,
                          keys: Option<seq<string>>, live: bool, broken: set<string>): (r: Loader)
    ensures r.lastPos == (mapX, mapY)
    ensures s.requests <= r.requests
    ensures forall j :: |s.requests| <= j < |r.requests| ==> |r.requests[j].key| == 6
    ensures !Moved(s, mapX, mapY, force, frame) || keys.None? ==> r == s.(lastPos := (mapX, mapY))
    ensures Moved(s, mapX, mapY, force, frame) && keys.Some? && (live || NoBrokenCache(s, keys.value, broken)) ==>
      forall k :: k in keys.value && |k| == 6 ==> Seen(r, k)
  {
    var s1 := if Moved(s, mapX, mapY, force, frame) && keys.Some? then CachedAll(s, keys.value, live, broken).0 else s;
    s1.(lastPos := (mapX, mapY))
  }

  /** Past the first 100 frames, a second unforced call at the same position does nothing. */
  lemma SamePositionIsQuiet(s: Loader, mapX: real, mapY: real, force: bool, frame: int, frame2: int,
                            keys: Option<seq<string>>, keys2: Option<seq<string>>, live: bool, broken: set<string>)
    requires frame2 >= 100
    ensures var r := GetCurrentPlot(s, mapX, mapY, force, frame, keys, live, broken);
      GetCurrentPlot(r, mapX, mapY, false, frame2, keys2, live, broken) == r
  {
  }

  /**
   * A broken localStorage copy of the first wanted key abandons the walk: a
   * later key that was neither seen nor cached is not fetched.
   */
  lemma BrokenCacheAbandonsWalk(s: Loader, k1: string, k2: string, broken: set<string>)
    requires |k1| == 6 && CacheThrows(s, false, k1, broken)
    ensures CachedAll(s, [k1, k2], false, broken) == (s, true)
  {
  }

  /** Panning along one axis only, after the first 100 frames and unforced, requests nothing. */
  lemma HorizontalPanRequestsNothing(s: Loader, mapX: real, frame: int, keys: Option<seq<string>>, live: bool, broken: set<string>)
    requires frame >= 100
    ensures GetCurrentPlot(s, mapX, s.lastPos.1, false, frame, keys, live, broken).requests == s.requests
  {
  }

  // ---------------------------------------------------------------------------
  // Parsing
  // ---------------------------------------------------------------------------

  /** A node as it arrives in a plot. */
  datatype RawNode = RawNode(
    id: int, name: Option<string>, author: Option<string>, img: Option<string>,
    user: Option<string>, timestamp: Option<string>, lat: real, lon: real, display: bool)

  /**
   * The Node parse_node builds (position, colour and styles are outside this
   * model). `radius` is `Some(50)` when parse_node sets it for a displayed node;
   * `None` means parse_node left it at the value the Node constructor's default
   * styles (6) or the stylesheet gave it.
   */
  datatype Node = Node(
    id: int, name: Option<string>, author: Option<string>, img: Option<string>,
    user: Option<string>, timestamp: Option<string>, lat: real, lon: real,
    h: int, w: int, display: bool, radius: Option<int>)

  /** The node built as written: `n.author = n.author` and `n.img = n.img` copy nothing. */
  function NewNodeAsWritten(raw: RawNode): (n: Node)
    ensures n.author == None && n.img == None
    ensures n.id == raw.id && n.lat == raw.lat && n.lon == raw.lon
  {
    Node(raw.id, raw.name, None, None, raw.user, raw.timestamp, raw.lat, raw.lon, 10, 10,
         raw.display, if raw.display then Some(50) else None)
  }

  /** The node built as evidently intended: author and image copied from the raw node like the rest. */
  function NewNode(raw: RawNode): (n: Node)
    ensures n.author == raw.author && n.img == raw.img
    ensures n.id == raw.id && n.name == raw.name && n.user == raw.user && n.timestamp == raw.timestamp
    ensures n.lat == raw.lat && n.lon == raw.lon && n.h == 10 && n.w == 10
    ensures n.display == raw.display && (n.radius == if raw.display then Some(50) else None)
  {
    NewNodeAsWritten(raw).(author := raw.author, img := raw.img)
  }

  /** The author of a plot node never reaches the Node as written. */
  lemma AuthorDropped(raw: RawNode)
    requires raw.author.Some?
    ensures NewNodeAsWritten(raw).author != NewNode(raw).author
  {
  }

  /**
   * What parse_node does with the node it built: it is always registered under
   * its id; it goes into the geohash index at key length 1 only when displayed.
   * The index insertion is Data.put.
   */
  function StoreNode(nodes: map<int, Node>, d: Data.Data<Node>, lib: Geohash.Lib, n: Node)
    : (r: (map<int, Node>, Data.Data<Node>))
    ensures r.0.Keys == nodes.Keys + {n.id} && r.0[n.id] == n
    ensures forall id :: id in nodes && id != n.id ==> r.0[id] == nodes[id]
    ensures r.1 == d.(geohashIndex := r.1.geohashIndex)
    ensures r.1 == d <==> !n.display
    ensures n.display ==>
      forall k :: Data.GetFeaturesByKey(r.1, k) ==
        (if k == Geohash.GetKey(lib, n.lat, n.lon, Some(1)) then Data.GetFeaturesByKey(d, k) + [n] else Data.GetFeaturesByKey(d, k))
  {
    var d1 := if n.display then Data.Put(d, lib, n.lat, n.lon, n, Some(1)) else d;
    PutFiles(d, lib, n);
    (nodes[n.id := n], d1)
  }

  /** The put of a displayed node changes exactly the list of its one-character key, by appending it. */
  lemma PutFiles(d: Data.Data<Node>, lib: Geohash.Lib, n: Node)
    ensures var r := Data.Put(d, lib, n.lat, n.lon, n, Some(1));
      && r != d
      && forall k :: Data.GetFeaturesByKey(r, k) ==
           if k == Geohash.GetKey(lib, n.lat, n.lon, Some(1)) then Data.GetFeaturesByKey(d, k) + [n]
           else Data.GetFeaturesByKey(d, k)
  {
    var r := Data.Put(d, lib, n.lat, n.lon, n, Some(1));
    var key := Geohash.GetKey(lib, n.lat, n.lon, Some(1));
    forall k
      ensures Data.GetFeaturesByKey(r, k) ==
        if k == key then Data.GetFeaturesByKey(d, k) + [n] else Data.GetFeaturesByKey(d, k)
    {
      Data.PutThenGet(d, lib, n.lat, n.lon, n, Some(1), k);
    }
    assert |Data.GetFeaturesByKey(r, key)| == |Data.GetFeaturesByKey(d, key)| + 1;
  }

  /**
   * Importer.parse_node as written: the node, which carries the raw node's id
   * and position but no author and no image, is registered under its id, and
   * indexed at key length 1 exactly when displayed.
   */
  function ParseNode(nodes: map<int, Node>, d: Data.Data<Node>, lib: Geohash.Lib, raw: RawNode)
    : (r: (map<int, Node>, Data.Data<Node>))
    ensures raw.id in r.0 && r.0[raw.id].id == raw.id && r.0[raw.id].lat == raw.lat && r.0[raw.id].lon == raw.lon
    ensures r.0[raw.id].author == None && r.0[raw.id].img == None
    ensures forall id :: id in nodes && id != raw.id ==> id in r.0 && r.0[id] == nodes[id]
    ensures r.1 == d <==> !raw.display
  {
    StoreNode(nodes, d, lib, NewNodeAsWritten(raw))
  }

  /** parse_node with the corrected node: the same, but author and image come from the raw node. */
  function ParseNodeFixed(nodes: map<int, Node>, d: Data.Data<Node>, lib: Geohash.Lib, raw: RawNode)
    : (r: (map<int, Node>, Data.Data<Node>))
    ensures raw.id in r.0 && r.0[raw.id].id == raw.id && r.0[raw.id].lat == raw.lat && r.0[raw.id].lon == raw.lon
    ensures r.0[raw.id].author == raw.author && r.0[raw.id].img == raw.img
    ensures forall id :: id in nodes && id != raw.id ==> id in r.0 && r.0[id] == nodes[id]
    ensures r.1 == d <==> !raw.display
  {
    StoreNode(nodes, d, lib, NewNode(raw))
  }

  /**
   * A displayed node is found, last, in the list of its one-character key, and
   * it is the very node registered under its id (as written, without author).
   */
  lemma DisplayedNodeIndexed(nodes: map<int, Node>, d: Data.Data<Node>, lib: Geohash.Lib, raw: RawNode)
    requires raw.display && |lib.encode(raw.lat, raw.lon)| >= 1
    ensures var k := lib.encode(raw.lat, raw.lon)[..1];
      var r := ParseNode(nodes, d, lib, raw);
      var l := Data.GetFeaturesByKey(r.1, k);
      && |l| == |Data.GetFeaturesByKey(d, k)| + 1
      && l[|l| - 1] == r.0[raw.id]
      && l[|l| - 1].author == None
  {
    var k := Geohash.GetKey(lib, raw.lat, raw.lon, Some(1));
    assert k == lib.encode(raw.lat, raw.lon)[..1];
  }

  /**
   * The decimation rule: node index `i` of a way of `n` refs is kept when
   * `i % simplify == 0` (never, for simplify 0, where JavaScript gives NaN), when
   * it is the first or the last, or when the way has at most 2*simplify refs.
   */
  predicate Keep(i: int, n: int, simplify: int) {
    (simplify != 0 && i % simplify == 0) || i == 0 || i == n - 1 || n <= simplify * 2
  }

  /** The nodes kept from the first `k` refs, in order, dropping refs with no known node. */
  function Kept<N>(refs: seq<int>, nodes: map<int, N>, simplify: int, k: nat): (r: seq<N>)
    requires k <= |refs|
    ensures |r| <= k
  {
    if k == 0 then []
    else
      var i := k - 1;
      Kept(refs, nodes, simplify, i) +
        (if Keep(i, |refs|, simplify) && refs[i] in nodes then [nodes[refs[i]]] else [])
  }

  /** The `way.nd.each` loop of parse_way. */
  method Decimate<N>(refs: seq<int>, nodes: map<int, N>, simplify: int) returns (kept: seq<N>)
    ensures kept == Kept(refs, nodes, simplify, |refs|)
  {
    kept := [];
    var i := 0;
    while i < |refs|
      invariant 0 <= i <= |refs|
      invariant kept == Kept(refs, nodes, simplify, i)
    {
      if Keep(i, |refs|, simplify) && refs[i] in nodes {
        kept := kept + [nodes[refs[i]]];
      }
      i := i + 1;
    }
  }

  /** A node is kept iff some kept index refers to it. */
  lemma {:induction false} KeptMembers<N>(refs: seq<int>, nodes: map<int, N>, simplify: int, k: nat, x: N)
    requires k <= |refs|
    ensures x in Kept(refs, nodes, simplify, k) <==>
      exists i :: 0 <= i < k && Keep(i, |refs|, simplify) && refs[i] in nodes && nodes[refs[i]] == x
  {
    if k > 0 {
      KeptMembers(refs, nodes, simplify, k - 1, x);
    }
  }

  /** With every ref known, the first and last nodes always survive decimation. */
  lemma KeptEnds<N>(refs: seq<int>, nodes: map<int, N>, simplify: int)
    requires |refs| >= 1 && refs[0] in nodes && refs[|refs| - 1] in nodes
    ensures var r := Kept(refs, nodes, simplify, |refs|);
      |r| >= 1 && r[0] == nodes[refs[0]] && r[|r| - 1] == nodes[refs[|refs| - 1]]
  {
    KeptStart(refs, nodes, simplify, |refs|);
  }

  lemma {:induction false} KeptStart<N>(refs: seq<int>, nodes: map<int, N>, simplify: int, k: nat)
    requires 1 <= k <= |refs| && refs[0] in nodes
    ensures var r := Kept(refs, nodes, simplify, k); |r| >= 1 && r[0] == nodes[refs[0]]
  {
    if k > 1 {
      KeptStart(refs, nodes, simplify, k - 1);
    }
  }

  /** A way of at most 2*simplify refs keeps every known node. */
  lemma {:induction false} ShortWayKeepsAll<N>(refs: seq<int>, nodes: map<int, N>, simplify: int, k: nat)
    requires k <= |refs| <= simplify * 2
    requires forall i :: 0 <= i < |refs| ==> refs[i] in nodes
    ensures |Kept(refs, nodes, simplify, k)| == k
  {
    if k > 0 {
      ShortWayKeepsAll(refs, nodes, simplify, k - 1);
    }
  }

  /** The `tag` field of a raw way: absent, a single {k, v} object, or an array of them. */
  datatype TagField = NoTags | OneTag(k: string, v: string) | TagList(tags: seq<(string, string)>)

  datatype RawWay = RawWay(
    id: int, user: Option<string>, timestamp: Option<string>, name: Option<string>,
    nd: seq<int>, tag: TagField)

  /** The `data` object parse_way hands to `new Way`. */
  datatype WayData<N> = WayData(
    id: int, user: Option<string>, timestamp: Option<string>, name: Option<string>,
    nodes: seq<N>, tags: map<string, string>, coastline: bool)

  /** `data.tags.set(k, v)` for each pair in order: a later pair wins. */
  function SetTags(tags: seq<(string, string)>, m: map<string, string>): (r: map<string, string>)
    ensures forall i :: 0 <= i < |tags| ==> tags[i].0 in r
    ensures forall k :: k in m ==> k in r
    decreases |tags|
  {
    if |tags| == 0 then m else SetTags(tags[1..], m[tags[0].0 := tags[0].1])
  }

  /** Some tag has the value "coastline". */
  predicate HasCoastlineValue(tags: seq<(string, string)>) {
    exists i :: 0 <= i < |tags| && tags[i].1 == "coastline"
  }

  /** The way's fields before its tags are read; an empty name is falsy and is not copied. */
  function WayBase<N>(nodes: map<int, N>, simplify: int, raw: RawWay): WayData<N> {
    var name := if raw.name == Some("") then None else raw.name;
    WayData(raw.id, raw.user, raw.timestamp, name, Kept(raw.nd, nodes, simplify, |raw.nd|), map[], false)
  }

  /**
   * Importer.parse_way as written. It does nothing when not live and the id is
   * known. A tag array is copied pair by pair; a single tag object is copied
   * and then `tag.v` names a variable that does not exist, which throws; a way
   * with no tag at all throws on `way.tag.k`.
   */
  function ParseWayAsWritten<N>(ways: set<int>, nodes: map<int, N>, live: bool, simplify: int, raw: RawWay)
    : (r: Result<Option<WayData<N>>>)
    ensures !live && raw.id in ways ==> r == Ok(None)
    ensures (live || raw.id !in ways) && raw.tag.OneTag? ==> r.Error?
    ensures (live || raw.id !in ways) && raw.tag.NoTags? ==> r.Error?
    ensures r.Ok? && r.value.Some? ==> raw.tag.TagList? && r.value.value.coastline == HasCoastlineValue(raw.tag.tags)
  {
    if !live && raw.id in ways then Ok(None)
    else
      var base := WayBase(nodes, simplify, raw);
      match raw.tag
      case NoTags => Error("TypeError: way.tag is undefined")
      case OneTag(_, _) => Error("ReferenceError: tag is not defined")
      case TagList(tags) =>
        Ok(Some(base.(tags := SetTags(tags, map[]), coastline := HasCoastlineValue(tags))))
  }

  /**
   * parse_way as evidently intended: the single-tag branch reads `way.tag.v`,
   * so a way with one tag is built like a way with a one-element tag array.
   */
  function ParseWay<N>(ways: set<int>, nodes: map<int, N>, live: bool, simplify: int, raw: RawWay)
    : (r: Result<Option<WayData<N>>>)
    ensures !live && raw.id in ways ==> r == Ok(None)
    ensures (live || raw.id !in ways) ==> (r.Error? <==> raw.tag.NoTags?)
    ensures r.Ok? && r.value.Some? ==>
      && r.value.value.nodes == Kept(raw.nd, nodes, simplify, |raw.nd|)
      && r.value.value.id == raw.id
      && r.value.value.user == raw.user && r.value.value.timestamp == raw.timestamp
      && (r.value.value.name.Some? <==> raw.name.Some? && raw.name.value != "")
      && (r.value.value.name.Some? ==> r.value.value.name == raw.name)
  {
    match raw.tag
    case OneTag(k, v) =>
      ParseWayAsWritten(ways, nodes, live, simplify, raw.(tag := TagList([(k, v)])))
    case _ => ParseWayAsWritten(ways, nodes, live, simplify, raw)
  }

  /** The one-tag way that the code as written rejects is accepted by the corrected parser. */
  lemma OneTagWayThrows<N>(nodes: map<int, N>, simplify: int, id: int)
    ensures var raw := RawWay(id, None, None, None, [], OneTag("natural", "coastline"));
      && ParseWayAsWritten({}, nodes, false, simplify, raw).Error?
      && ParseWay({}, nodes, false, simplify, raw) ==
           Ok(Some(WayData(id, None, None, None, [], map["natural" := "coastline"], true)))
  {
    var tags := [("natural", "coastline")];
    assert tags[0].1 == "coastline";
    assert HasCoastlineValue(tags);
  }

  /** The corrected parser only differs from the code as written on single-tag ways. */
  lemma ParseWayAgrees<N>(ways: set<int>, nodes: map<int, N>, live: bool, simplify: int, raw: RawWay)
    requires !raw.tag.OneTag?
    ensures ParseWay(ways, nodes, live, simplify, raw) == ParseWayAsWritten(ways, nodes, live, simplify, raw)
  {
  }

  /** What the parse tasks' members are. */
  datatype Member = NodeMember(node: RawNode) | WayMember(way: RawWay) | Placeholder(text: string)

  /** Which processing function a parse task runs. */
  datatype Process = ParseNodes | ParseWays | RefreshCoastlines

  /** The condition parse_objects gives its tasks: the key must be wanted, or true when no key is given. */
  function PlotCondition(key: Option<string>): Tasks.Condition {
    if key.Some? && key.value != "" then Tasks.KeyWanted(key.value) else Tasks.Static(Bool(true))
  }

  function NodeMembers(ns: seq<RawNode>): (r: seq<Member>)
    ensures |r| == |ns|
  {
    seq(|ns|, i requires 0 <= i < |ns| => NodeMember(ns[i]))
  }

  function WayMembers(ws: seq<RawWay>): (r: seq<Member>)
    ensures |r| == |ws|
  {
    seq(|ws|, i requires 0 <= i < |ws| => WayMember(ws[i]))
  }

  /**
   * Importer.parse_objects: a node task, a way task depending on it and a
   * coastline task (one placeholder member) depending on the way task, all
   * sharing one condition, added to the parse manager in that order.
   */
  function ParseObjects(key: Option<string>, ns: seq<RawNode>, ws: seq<RawWay>, ids: Tasks.Ids,
                        mgr: Tasks.Manager<Process, Member>)
    : (r: (Tasks.Manager<Process, Member>, Tasks.Ids))
    ensures |r.0.tasks| == |mgr.tasks| + 3 && r.0.tasks[..|mgr.tasks|] == mgr.tasks && r.0.active
    ensures var n := |mgr.tasks|; var t := r.0.tasks;
      && t[n].id == ids.curUid && t[n + 1].id == ids.curUid + 1 && t[n + 2].id == ids.curUid + 2
      && t[n].deps == [] && t[n + 1].deps == [t[n].id] && t[n + 2].deps == [t[n + 1].id]
      && t[n].condition == t[n + 1].condition == t[n + 2].condition == PlotCondition(key)
      && t[n].process == ParseNodes && t[n + 1].process == ParseWays && t[n + 2].process == RefreshCoastlines
      && t[n].members == NodeMembers(ns) && t[n + 1].members == WayMembers(ws)
      && t[n + 2].members == [Placeholder("placeholder")]
    ensures r.1.curUid == ids.curUid + 3
    ensures forall j :: j in ids.registry && j !in {ids.curUid, ids.curUid + 1, ids.curUid + 2} ==>
      j in r.1.registry && r.1.registry[j] == ids.registry[j]
    ensures var u := ids.curUid;
      && u in r.1.registry && !r.1.registry[u]
      && u + 1 in r.1.registry && !r.1.registry[u + 1]
      && u + 2 in r.1.registry && !r.1.registry[u + 2]
  {
    var cond := PlotCondition(key);
    var (nodeTask, ids1) := Tasks.NewTask(NodeMembers(ns), ParseNodes, Some(cond), [], ids);
    var (wayTask, ids2) := Tasks.NewTask(WayMembers(ws), ParseWays, Some(cond), [nodeTask.id], ids1);
    var (coastTask, ids3) := Tasks.NewTask([Placeholder("placeholder")], RefreshCoastlines, Some(cond), [wayTask.id], ids2);
    (Tasks.Add(Tasks.Add(Tasks.Add(mgr, nodeTask), wayTask), coastTask), ids3)
  }

  /** A plot's tasks pass their condition iff no key was given or the wanted-key set maps the key to exactly true. */
  lemma PlotConditionMeaning<M>(key: Option<string>, t: Tasks.Task<Process, M>, wanted: map<string, Value>)
    requires t.condition == PlotCondition(key)
    ensures Tasks.PassCondition(t, wanted) <==>
      (key.None? || key.value == "" || (key.value in wanted && wanted[key.value] == Bool(true)))
  {
  }

  /** The way task waits while the node task is unfinished, and the coastline task while the way task is. */
  lemma ChainWaits(key: Option<string>, ns: seq<RawNode>, ws: seq<RawWay>, ids: Tasks.Ids,
                   mgr: Tasks.Manager<Process, Member>, reg: Tasks.Registry)
    ensures var (m, _) := ParseObjects(key, ns, ws, ids, mgr);
      var n := |mgr.tasks|;
      && (Tasks.Blocks(reg, ids.curUid) ==> !Tasks.ShouldRun(m.tasks[n + 1], reg))
      && (Tasks.Blocks(reg, ids.curUid + 1) ==> !Tasks.ShouldRun(m.tasks[n + 2], reg))
  {
  }
}

=== FILE: js.dfy ===
/**
 * The slice of JavaScript semantics the rest of the model leans on: values with
 * their truthiness, missing-property lookup, `String#split` on one character,
 * ASCII lower-casing, substring search and `parseInt` applied to a number.
 */
module Js {

  datatype Option<+T> = None | Some(value: T)

  /** A JavaScript completion: a value, or a thrown exception named by its message. */
  datatype Result<+T> = Ok(value: T) | Error(message: string)

  /**
   * A JavaScript value as far as the model needs to tell values apart. Numbers are
   * exact reals; where NaN or an infinity matters the caller handles it explicitly.
   */
  datatype Value =
    | Undefined
    | Null
    | Bool(b: bool)
    | Num(n: real)
    | Str(s: string)
    | Arr(items: seq<Value>)
    | Obj(fields: map<string, Value>)

  /** JavaScript truthiness: `undefined`, `null`, `false`, `0` and `""` are falsy. */
  predicate Truthy(v: Value) {
    match v
    case Undefined => false
    case Null => false
    case Bool(b) => b
    case Num(n) => n != 0.0
    case Str(s) => s != ""
    case Arr(_) => true
    case Obj(_) => true
  }

  /** Reading a property: a missing one reads as `undefined`. */
  function Get(m: map<string, Value>, k: string): (r: Value)
    ensures k !in m ==> r == Undefined
    ensures k in m ==> r == m[k]
  {
    if k in m then m[k] else Undefined
  }

  /** `String#split` with a one-character separator. */
  function Split(s: string, sep: char): (parts: seq<string>)
    ensures |parts| >= 1
    ensures forall i :: 0 <= i < |parts| ==> sep !in parts[i]
    ensures Join(parts, sep) == s
  {
    if |s| == 0 then [""]
    else
      var rest := Split(s[1..], sep);
      if s[0] == sep then
        assert Join([""] + rest, sep) == [sep] + Join(rest, sep);
        [""] + rest
      else
        var parts := [[s[0]] + rest[0]] + rest[1..];
        assert Join(parts, sep) == [s[0]] + Join(rest, sep) by {
          if |rest| > 1 {
            assert rest == [rest[0]] + rest[1..];
          }
        }
        parts
  }

  /** `Array#join` with a one-character separator. */
  function Join(parts: seq<string>, sep: char): string
  {
    if |parts| == 0 then ""
    else if |parts| == 1 then parts[0]
    else parts[0] + [sep] + Join(parts[1..], sep)
  }

  /** Splitting a joined list of separator-free pieces gives the pieces back. */
  lemma {:induction false} SplitJoin(parts: seq<string>, sep: char)
    requires |parts| >= 1
    requires forall i :: 0 <= i < |parts| ==> sep !in parts[i]
    ensures Split(Join(parts, sep), sep) == parts
    decreases |Join(parts, sep)|, |parts|
  {
    if |parts| == 1 {
      SplitFree(parts[0], sep);
    } else {
      var tail := Join(parts[1..], sep);
      SplitJoin(parts[1..], sep);
      SplitPrefixed(parts[0], sep, tail);
    }
  }

  /** A string without the separator splits into itself. */
  lemma {:induction false} SplitFree(s: string, sep: char)
    requires sep !in s
    ensures Split(s, sep) == [s]
  {
    if |s| > 0 {
      SplitFree(s[1..], sep);
    }
  }

  /** Splitting `p + sep + t`, with `p` separator-free, puts `p` in front of the split of `t`. */
  lemma {:induction false} SplitPrefixed(p: string, sep: char, t: string)
    requires sep !in p
    ensures Split(p + [sep] + t, sep) == [p] + Split(t, sep)
  {
    if |p| == 0 {
      assert p + [sep] + t == [sep] + t;
      assert ([sep] + t)[1..] == t;
    } else {
      assert (p + [sep] + t)[1..] == p[1..] + [sep] + t;
      SplitPrefixed(p[1..], sep, t);
      assert [p[0]] + p[1..] == p;
    }
  }

  /** `String#toLowerCase` on the ASCII letters; other characters are unchanged. */
  function Lower(s: string): (r: string)
    ensures |r| == |s|
    ensures forall i :: 0 <= i < |s| ==> r[i] == LowerChar(s[i])
  {
    if |s| == 0 then "" else [LowerChar(s[0])] + Lower(s[1..])
  }

  function LowerChar(c: char): char {
    if 'A' <= c <= 'Z' then (c as int - 'A' as int + 'a' as int) as char else c
  }

  /** `q` occurs in `s` starting at index `i`. */
  predicate OccursAt(s: string, q: string, i: int) {
    0 <= i && i + |q| <= |s| && s[i..i + |q|] == q
  }

  /** `s` contains `q` as a substring. */
  function Contains(s: string, q: string): (r: bool)
    ensures r <==> exists i :: OccursAt(s, q, i)
    decreases |s|
  {
    if |q| > |s| then false
    else if s[..|q|] == q then assert OccursAt(s, q, 0); true
    else
      var rest := Contains(s[1..], q);
      assert rest ==> exists i :: OccursAt(s, q, i) by {
        if rest {
          var j :| OccursAt(s[1..], q, j);
          assert s[1..][j..j + |q|] == s[j + 1..j + 1 + |q|];
          assert OccursAt(s, q, j + 1);
        }
      }
      assert (exists i :: OccursAt(s, q, i)) ==> rest by {
        if exists i :: OccursAt(s, q, i) {
          var i :| OccursAt(s, q, i);
          assert i != 0;
          assert s[1..][i - 1..i - 1 + |q|] == s[i..i + |q|];
          assert OccursAt(s[1..], q, i - 1);
        }
      }
      rest
  }

  /**
   * `parseInt` applied to a number: the integer part, truncated toward zero.
   * (The detour through the number's decimal string is not modelled.)
   */
  function Trunc(x: real): (r: int)
    ensures x >= 0.0 ==> r as real <= x < r as real + 1.0
    ensures x < 0.0 ==> r as real - 1.0 < x <= r as real
  {
    if x >= 0.0 then x.Floor else -((-x).Floor)
  }

  function Max(a: int, b: int): int { if a < b then b else a }

  function Min(a: int, b: int): int { if a < b then a else b }
}

=== FILE: relation.dfy ===
/**
 * Relation (data/types/relation.js): collecting the member ways into one node
 * list, the flags set by the constructor, and collect_nodes, which picks the
 * nodes inside the viewport for coastline drawing. "Inside the viewport"
 * (Geometry.overlaps against Map and Viewport) is a predicate parameter.
 */
module Relation {
  import opened Js

  /** A node as far as these rules look at it: its projected position. */
  datatype Pt = Pt(x: real, y: real)

  /** A member way: its node list and its tags. */
  datatype Member = Member(nodes: seq<Pt>, tags: map<string, string>)

  /** Reverse a sequence. */
  function Reverse<T>(s: seq<T>): (r: seq<T>)
    ensures |r| == |s|
    ensures forall i :: 0 <= i < |s| ==> r[i] == s[|s| - 1 - i]
  {
    if |s| == 0 then [] else Reverse(s[1..]) + [s[0]]
  }

  /** The node lists of the members, one after the other. */
  function Flatten(ms: seq<Member>): seq<Pt> {
    if |ms| == 0 then [] else ms[0].nodes + Flatten(ms[1..])
  }

  lemma {:induction false} FlattenAppend(ms: seq<Member>, m: Member)
    ensures Flatten(ms + [m]) == Flatten(ms) + m.nodes
  {
    if |ms| > 0 {
      assert (ms + [m])[1..] == ms[1..] + [m];
      FlattenAppend(ms[1..], m);
    } else {
      assert [m][1..] == [];
    }
  }

  /**
   * Relation#collect_ways: each member's nodes are put in front of the nodes
   * collected so far. The tags are merged with Hash#merge, whose result is
   * thrown away, so they come back unchanged.
   */
  function CollectWays(members: seq<Member>, nodes: seq<Pt>, tags: map<string, string>)
    : (r: (seq<Pt>, map<string, string>))
    ensures r.1 == tags
    ensures |r.0| == |Flatten(members)| + |nodes|
  {
    if |members| == 0 then (nodes, tags)
    else
      var rest := CollectWays(members[1..], members[0].nodes + nodes, tags);
      FlattenReverseStep(members);
      rest
  }

  lemma FlattenReverseStep(members: seq<Member>)
    requires |members| > 0
    ensures |Flatten(members)| == |members[0].nodes| + |Flatten(members[1..])|
  {
  }

  /**
   * collect_ways leaves the members' node lists concatenated in reverse member
   * order, each list in its own order, in front of the nodes already there.
   */
  lemma {:induction false} CollectWaysReverses(members: seq<Member>, nodes: seq<Pt>, tags: map<string, string>)
    ensures CollectWays(members, nodes, tags).0 == Flatten(Reverse(members)) + nodes
  {
    if |members| > 0 {
      var m := members[0];
      CollectWaysReverses(members[1..], m.nodes + nodes, tags);
      assert Reverse(members) == Reverse(members[1..]) + [m];
      FlattenAppend(Reverse(members[1..]), m);
    }
  }

  /** The flags the Relation constructor derives once the ways are collected. */
  datatype Flags = Flags(closedPoly: bool, coastline: bool, island: bool)

  /**
   * closed_poly when there is more than one node and the first and last share
   * both coordinates; coastline always; island when natural is land.
   */
  function RelationFlags(nodes: seq<Pt>, tags: map<string, string>): (r: Flags)
    ensures r.coastline
    ensures r.closedPoly <==> |nodes| > 1 && nodes[0] == nodes[|nodes| - 1]
    ensures r.island <==> "natural" in tags && tags["natural"] == "land"
  {
    var closed := |nodes| > 1 && nodes[0].x == nodes[|nodes| - 1].x && nodes[0].y == nodes[|nodes| - 1].y;
    var coastline := true;
    var island := "natural" in tags && tags["natural"] == "land";
    Flags(closed, coastline, island)
  }

  /** A relation built from a single closed way is a closed polygon, whatever its tags. */
  lemma ClosedWayMakesClosedPoly(m: Member, tags: map<string, string>)
    requires |m.nodes| > 1 && m.nodes[0] == m.nodes[|m.nodes| - 1]
    ensures RelationFlags(CollectWays([m], [], tags).0, tags).closedPoly
  {
    CollectWaysReverses([m], [], tags);
    assert Reverse([m]) == [m];
    assert Flatten([m]) == m.nodes + Flatten([]);
  }

  /** The nodes inside the viewport, in their original order. */
  function Inside(s: seq<Pt>, inside: Pt -> bool): (r: seq<Pt>)
    ensures |r| <= |s|
  {
    if |s| == 0 then []
    else Inside(s[..|s| - 1], inside) + (if inside(s[|s| - 1]) then [s[|s| - 1]] else [])
  }

  /** Index of the first inside node, or the length when there is none. */
  function FirstInside(s: seq<Pt>, inside: Pt -> bool): (r: nat)
    ensures r <= |s|
    ensures forall j :: 0 <= j < r ==> !inside(s[j])
    ensures r < |s| ==> inside(s[r])
  {
    if |s| == 0 then 0
    else if inside(s[0]) then 0
    else 1 + FirstInside(s[1..], inside)
  }

  /**
   * What collect_nodes leaves in coastline_nodes, stated without the loop: no
   * node when none is inside; otherwise the node where the line first enters
   * (the first node itself when it is inside, else the outside node just before
   * the first inside one), followed by every inside node in order.
   */
  function CoastlineNodes(s: seq<Pt>, inside: Pt -> bool): (r: seq<Pt>)
  {
    var k := FirstInside(s, inside);
    if k == |s| then []
    else [s[if k == 0 then 0 else k - 1]] + Inside(s, inside)
  }

  lemma {:induction false} InsideEmpty(s: seq<Pt>, inside: Pt -> bool)
    requires forall j :: 0 <= j < |s| ==> !inside(s[j])
    ensures Inside(s, inside) == []
  {
    if |s| > 0 {
      InsideEmpty(s[..|s| - 1], inside);
    }
  }

  /**
   * Relation#collect_nodes: walk the nodes with the previous node's inside flag
   * (null before the first). The first node, when inside, is put in front; on
   * an outside-to-inside crossing the previous node is put in front, but only
   * while nothing has been collected; every inside node is pushed at the end.
   * The angle step after the loop reads the first collected node and fails when
   * there is none.
   */
  method CollectNodes(nodes: seq<Pt>, inside: Pt -> bool) returns (coastline: seq<Pt>, ok: bool)
    ensures coastline == CoastlineNodes(nodes, inside)
    ensures ok <==> |coastline| > 0
  {
    coastline := [];
    var prev: Option<bool> := None;
    var i := 0;
    while i < |nodes|
      invariant 0 <= i <= |nodes|
      invariant i == 0 <==> prev.None?
      invariant i > 0 ==> prev == Some(inside(nodes[i - 1]))
      invariant coastline == CollectedSoFar(nodes, inside, i)
    {
      CollectedStep(nodes, inside, i);
      var isInside := inside(nodes[i]);
      if prev.Some? && prev.value != isInside {
        if isInside && |coastline| == 0 {
          coastline := [nodes[i - 1]] + coastline;
        }
      } else if prev.None? && isInside {
        coastline := [nodes[i]] + coastline;
      }
      prev := Some(isInside);
      if isInside {
        coastline := coastline + [nodes[i]];
      }
      i := i + 1;
    }
    assert nodes[..|nodes|] == nodes;
    ok := |coastline| > 0;
  }

  /** The loop invariant of collect_nodes: what the first `i` nodes leave collected. */
  ghost function CollectedSoFar(nodes: seq<Pt>, inside: Pt -> bool, i: nat): seq<Pt>
    requires i <= |nodes|
  {
    var k := FirstInside(nodes, inside);
    if k >= i then [] else [nodes[if k == 0 then 0 else k - 1]] + Inside(nodes[..i], inside)
  }

  /** One node further: before the entry nothing, at the entry the entry pair, after it one more inside node. */
  lemma CollectedStep(nodes: seq<Pt>, inside: Pt -> bool, i: nat)
    requires i < |nodes|
    ensures FirstInside(nodes, inside) > i ==>
      !inside(nodes[i]) && CollectedSoFar(nodes, inside, i + 1) == []
    ensures FirstInside(nodes, inside) == i ==>
      inside(nodes[i]) && (i > 0 ==> !inside(nodes[i - 1])) &&
      CollectedSoFar(nodes, inside, i + 1) == [nodes[if i == 0 then 0 else i - 1], nodes[i]]
    ensures FirstInside(nodes, inside) < i ==>
      |CollectedSoFar(nodes, inside, i)| > 0 &&
      CollectedSoFar(nodes, inside, i + 1) == CollectedSoFar(nodes, inside, i) + (if inside(nodes[i]) then [nodes[i]] else [])
  {
    var k := FirstInside(nodes, inside);
    assert nodes[..i + 1][..i] == nodes[..i];
    assert Inside(nodes[..i + 1], inside) ==
      Inside(nodes[..i], inside) + (if inside(nodes[i]) then [nodes[i]] else []);
    if k >= i {
      InsideEmpty(nodes[..i], inside);
    }
  }

  /** Every inside node is collected, in order, after the entry node. */
  lemma {:induction false} InsideKeepsExactlyInside(s: seq<Pt>, inside: Pt -> bool, p: Pt)
    ensures p in Inside(s, inside) <==> p in s && inside(p)
  {
    if |s| > 0 {
      InsideKeepsExactlyInside(s[..|s| - 1], inside, p);
      assert s == s[..|s| - 1] + [s[|s| - 1]];
    }
  }

  /** A first node already inside the viewport is collected twice, at the front. */
  lemma FirstInsideTwice(s: seq<Pt>, inside: Pt -> bool)
    requires |s| > 0 && inside(s[0])
    ensures |CoastlineNodes(s, inside)| >= 2
    ensures CoastlineNodes(s, inside)[0] == s[0] && CoastlineNodes(s, inside)[1] == s[0]
  {
    InsideFront(s, inside);
  }

  /** When the first node is inside, the inside list starts with it. */
  lemma {:induction false} InsideFront(s: seq<Pt>, inside: Pt -> bool)
    requires |s| > 0 && inside(s[0])
    ensures |Inside(s, inside)| > 0 && Inside(s, inside)[0] == s[0]
  {
    if |s| > 1 {
      assert s[..|s| - 1][0] == s[0];
      InsideFront(s[..|s| - 1], inside);
    } else {
      assert s[..0] == [];
    }
  }

  /** With no node inside nothing is collected, and the angle step fails. */
  lemma NoneInsideFails(s: seq<Pt>, inside: Pt -> bool)
    requires forall j :: 0 <= j < |s| ==> !inside(s[j])
    ensures CoastlineNodes(s, inside) == []
  {
  }
}

=== FILE: style.dfy ===
/**
 * Style (config/style.js): how a feature's style properties are resolved from
 * the loaded GSS, the proxy rewrite of stylesheet URLs, and the
 * post-processing of a freshly evaluated stylesheet. GSS values are Js values;
 * `Object.value` is taken as the identity (values here are not functions).
 */
module Style {
  import opened Js

  /** The properties written to the feature. */
  const Properties: seq<string> :=
    ["fillStyle", "pattern", "strokeStyle", "opacity", "lineWidth",
     "outlineColor", "outlineWidth", "radius", "hover", "mouseDown",
     "distort", "menu", "image"]

  /** The properties written to the feature's label. */
  const LabelProperties: seq<string> :=
    ["text", "fontColor", "fontSize", "fontScale", "fontBackground", "fontRotation"]

  /** Reading a property of a value: only objects have the ones asked for here. */
  function PropOf(v: Value, p: string): (r: Value)
    ensures !v.Obj? ==> r == Undefined
  {
    if v.Obj? then Get(v.fields, p) else Undefined
  }

  /** Style.extend_value: two arrays are concatenated; otherwise the new value replaces the old. */
  function ExtendValue(prev: Value, next: Value): (r: Value)
    ensures prev.Arr? && next.Arr? ==> r == Arr(prev.items + next.items)
    ensures !(prev.Arr? && next.Arr?) ==> r == next
    ensures Truthy(next) ==> Truthy(r)
  {
    if prev.Arr? && next.Arr? then Arr(prev.items + next.items) else next
  }

  /** `Style.styles[key][property]`, when both lookups are truthy. */
  function Source(styles: map<string, Value>, key: string, p: string): Option<Value> {
    var s := Get(styles, key);
    if Truthy(s) && Truthy(PropOf(s, p)) then Some(PropOf(s, p)) else None
  }

  /** A property name looked up with an undefined `feature.name` reads the key "undefined". */
  function NameKey(name: Option<string>): string {
    if name.Some? then name.value else "undefined"
  }

  /** The value the selector gives: `selector[property]` when the selector is truthy, else null. */
  function Base(selector: Value, p: string): Value {
    if Truthy(selector) then PropOf(selector, p) else Null
  }

  /** The tag loop: for each tag, its key's style and then its value's style may extend the value. */
  function ResolveTags(styles: map<string, Value>, tags: seq<(string, string)>, p: string, val: Value): Value
    decreases |tags|
  {
    if |tags| == 0 then val
    else
      var k := Source(styles, tags[0].0, p);
      var v1 := if k.Some? then ExtendValue(val, k.value) else val;
      var v := Source(styles, tags[0].1, p);
      var v2 := if v.Some? then ExtendValue(v1, v.value) else v1;
      ResolveTags(styles, tags[1..], p, v2)
  }

  /** The value parse_styles settles on for one property. */
  function Resolve(styles: map<string, Value>, selector: Value, name: Option<string>,
                   tags: seq<(string, string)>, p: string): Value
  {
    var n := Source(styles, NameKey(name), p);
    var val := if n.Some? then ExtendValue(Base(selector, p), n.value) else Base(selector, p);
    ResolveTags(styles, tags, p, val)
  }

  /** The sources that count for a property, in the order they are consulted after the selector. */
  function TagSources(styles: map<string, Value>, tags: seq<(string, string)>, p: string): seq<Value>
    decreases |tags|
  {
    if |tags| == 0 then []
    else
      var k := Source(styles, tags[0].0, p);
      var v := Source(styles, tags[0].1, p);
      (if k.Some? then [k.value] else []) + (if v.Some? then [v.value] else []) + TagSources(styles, tags[1..], p)
  }

  function Sources(styles: map<string, Value>, name: Option<string>, tags: seq<(string, string)>, p: string): seq<Value> {
    var n := Source(styles, NameKey(name), p);
    (if n.Some? then [n.value] else []) + TagSources(styles, tags, p)
  }

  /** Extend a value by each source in turn. */
  function Fold(val: Value, srcs: seq<Value>): Value
    decreases |srcs|
  {
    if |srcs| == 0 then val else Fold(ExtendValue(val, srcs[0]), srcs[1..])
  }

  lemma {:induction false} FoldAppend(val: Value, a: seq<Value>, b: seq<Value>)
    ensures Fold(val, a + b) == Fold(Fold(val, a), b)
    decreases |a|
  {
    if |a| > 0 {
      assert (a + b)[1..] == a[1..] + b;
      FoldAppend(ExtendValue(val, a[0]), a[1..], b);
    } else {
      assert a + b == b;
    }
  }

  lemma {:induction false} ResolveTagsFolds(styles: map<string, Value>, tags: seq<(string, string)>, p: string, val: Value)
    ensures ResolveTags(styles, tags, p, val) == Fold(val, TagSources(styles, tags, p))
    decreases |tags|
  {
    if |tags| > 0 {
      var k := Source(styles, tags[0].0, p);
      var v := Source(styles, tags[0].1, p);
      var ks := if k.Some? then [k.value] else [];
      var vs := if v.Some? then [v.value] else [];
      var v1 := if k.Some? then ExtendValue(val, k.value) else val;
      var v2 := if v.Some? then ExtendValue(v1, v.value) else v1;
      ResolveTagsFolds(styles, tags[1..], p, v2);
      FoldAppend(val, ks + vs, TagSources(styles, tags[1..], p));
      FoldAppend(val, ks, vs);
    }
  }

  /**
   * parse_styles resolves a property by starting from the selector's value and
   * extending it, in order, with the name's style and then each tag's key and
   * value styles, counting only the truthy ones.
   */
  lemma ResolveIsFold(styles: map<string, Value>, selector: Value, name: Option<string>, tags: seq<(string, string)>, p: string)
    ensures Resolve(styles, selector, name, tags, p) == Fold(Base(selector, p), Sources(styles, name, tags, p))
  {
    var n := Source(styles, NameKey(name), p);
    var val := if n.Some? then ExtendValue(Base(selector, p), n.value) else Base(selector, p);
    ResolveTagsFolds(styles, tags, p, val);
    FoldAppend(Base(selector, p), if n.Some? then [n.value] else [], TagSources(styles, tags, p));
  }

  /** The last source that is not an array supersedes everything before it. */
  lemma {:induction false} LastSourceWins(val: Value, srcs: seq<Value>)
    requires |srcs| > 0 && !srcs[|srcs| - 1].Arr?
    ensures Fold(val, srcs) == srcs[|srcs| - 1]
  {
    var n := |srcs| - 1;
    assert srcs == srcs[..n] + [srcs[n]];
    FoldAppend(val, srcs[..n], [srcs[n]]);
  }

  /** Only arrays from the selector onwards: the result is all of them, concatenated in order. */
  lemma {:induction false} ArraysAccumulate(items: seq<Value>, srcs: seq<Value>)
    requires forall j :: 0 <= j < |srcs| ==> srcs[j].Arr?
    ensures Fold(Arr(items), srcs) == Arr(items + Concat(srcs))
    decreases |srcs|
  {
    if |srcs| > 0 {
      ArraysAccumulate(items + srcs[0].items, srcs[1..]);
      assert items + srcs[0].items + Concat(srcs[1..]) == items + (srcs[0].items + Concat(srcs[1..]));
    }
  }

  function Concat(srcs: seq<Value>): seq<Value>
    requires forall j :: 0 <= j < |srcs| ==> srcs[j].Arr?
  {
    if |srcs| == 0 then [] else srcs[0].items + Concat(srcs[1..])
  }

  /** A value whose `gss_update_interval` is set gets a refresher instead of a plain assignment. */
  predicate Refreshes(v: Value) {
    Truthy(PropOf(v, "gss_update_interval"))
  }

  /** The outcome of parse_styles: properties set on the feature and its label, and refreshers created. */
  datatype Styled = Styled(featureProps: map<string, Value>, labelProps: map<string, Value>, refreshers: set<string>)

  /**
   * Style.parse_styles: every property and label property is resolved; a
   * truthy result is written (to the label for label properties), or handed
   * to a refresher when it carries gss_update_interval; a falsy result writes
   * nothing.
   */
  function ParseStyles(styles: map<string, Value>, selector: Value, name: Option<string>, tags: seq<(string, string)>)
    : (r: Styled)
    ensures forall p :: p in r.featureProps <==>
      p in Properties && Truthy(Resolve(styles, selector, name, tags, p)) && !Refreshes(Resolve(styles, selector, name, tags, p))
    ensures forall p :: p in r.labelProps <==>
      p in LabelProperties && Truthy(Resolve(styles, selector, name, tags, p)) && !Refreshes(Resolve(styles, selector, name, tags, p))
    ensures forall p :: p in r.featureProps ==> r.featureProps[p] == Resolve(styles, selector, name, tags, p) && Truthy(r.featureProps[p])
    ensures forall p :: p in r.labelProps ==> r.labelProps[p] == Resolve(styles, selector, name, tags, p) && Truthy(r.labelProps[p])
  {
    var feature := map p | p in Properties && Truthy(Resolve(styles, selector, name, tags, p)) && !Refreshes(Resolve(styles, selector, name, tags, p))
      :: Resolve(styles, selector, name, tags, p);
    var labelProps := map p | p in LabelProperties && Truthy(Resolve(styles, selector, name, tags, p)) && !Refreshes(Resolve(styles, selector, name, tags, p))
      :: Resolve(styles, selector, name, tags, p);
    var refreshers := set p | p in Properties + LabelProperties && Truthy(Resolve(styles, selector, name, tags, p)) && Refreshes(Resolve(styles, selector, name, tags, p));
    Styled(feature, labelProps, refreshers)
  }

  /** An opacity of 0 can never be set by parse_styles: a falsy value is never written. */
  lemma ZeroOpacityNeverSet(styles: map<string, Value>, selector: Value, name: Option<string>, tags: seq<(string, string)>)
    ensures var r := ParseStyles(styles, selector, name, tags);
      "opacity" in r.featureProps ==> r.featureProps["opacity"] != Num(0.0)
  {
  }

  /**
   * A tag whose value has a style defining a (non-array, plain) property, and
   * which is the last tag, decides that property whatever the selector and
   * the name say.
   */
  lemma LastTagValueDecides(styles: map<string, Value>, selector: Value, name: Option<string>,
                            tags: seq<(string, string)>, p: string)
    requires |tags| > 0 && p in Properties
    requires Source(styles, tags[|tags| - 1].1, p).Some?
    requires var v := Source(styles, tags[|tags| - 1].1, p).value; !v.Arr? && !Refreshes(v)
    ensures p in ParseStyles(styles, selector, name, tags).featureProps
    ensures ParseStyles(styles, selector, name, tags).featureProps[p] == Source(styles, tags[|tags| - 1].1, p).value
  {
    var n := |tags| - 1;
    ResolveIsFold(styles, selector, name, tags, p);
    TagSourcesLast(styles, tags, p);
    var srcs := Sources(styles, name, tags, p);
    LastSourceWins(Base(selector, p), srcs);
  }

  /** The last entry of the tag sources is the last tag's value style, when it counts. */
  lemma {:induction false} TagSourcesLast(styles: map<string, Value>, tags: seq<(string, string)>, p: string)
    requires |tags| > 0 && Source(styles, tags[|tags| - 1].1, p).Some?
    ensures var s := TagSources(styles, tags, p);
      |s| > 0 && s[|s| - 1] == Source(styles, tags[|tags| - 1].1, p).value
    decreases |tags|
  {
    if |tags| > 1 {
      TagSourcesLast(styles, tags[1..], p);
    }
  }

  /** The URL prefix of the cross-domain proxy. */
  const Proxy: string := "/utility/proxy?url="

  /** load_styles: a URL whose first four characters are "http" goes through the proxy. */
  function StylesheetUrl(url: string): (r: string)
    ensures |url| >= 4 && url[..4] == "http" ==> r == Proxy + url
    ensures !(|url| >= 4 && url[..4] == "http") ==> r == url
  {
    if |url| >= 4 && url[..4] == "http" then Proxy + url else url
  }

  /** Rewriting is idempotent: a proxied URL does not start with "http". */
  lemma StylesheetUrlIdempotent(url: string)
    ensures StylesheetUrl(StylesheetUrl(url)) == StylesheetUrl(url)
  {
    if |url| >= 4 && url[..4] == "http" {
      assert (Proxy + url)[..4] == "/uti";
    }
  }

  /** The original URL is always recoverable as a suffix of the rewritten one. */
  lemma StylesheetUrlKeepsUrl(url: string)
    ensures var r := StylesheetUrl(url); |r| >= |url| && r[|r| - |url|..] == url
  {
  }

  /** A property value that cannot take a `gss_update_interval`: undefined or null. */
  predicate Unset(v: Value) {
    v == Undefined || v == Null
  }

  /**
   * The refresh pass on one style: for each `refresh` pair (k, n), the style's
   * value under k gets gss_update_interval n. Reading `refresh` of a null or
   * undefined style throws, and so does setting a property of undefined or
   * null; on other non-objects the write has no effect.
   */
  function Refresh(style: Value): (r: Result<Value>)
    ensures style == Null || style == Undefined ==> r.Error?
    ensures style != Null && style != Undefined && !Truthy(PropOf(style, "refresh")) ==> r == Ok(style)
    ensures r.Ok? && r.value != style ==> style.Obj? && r.value.Obj? && r.value.fields.Keys == style.fields.Keys
    ensures r.Ok? && style.Obj? && PropOf(style, "refresh").Obj? ==>
      forall k :: k in style.fields && (k !in PropOf(style, "refresh").fields || !style.fields[k].Obj?) ==>
        r.value.Obj? && k in r.value.fields && r.value.fields[k] == style.fields[k]
    ensures style.Obj? && PropOf(style, "refresh").Obj? ==>
      (r.Error? <==> exists k :: k in PropOf(style, "refresh").fields && Unset(Get(style.fields, k)))
  {
    var refresh := PropOf(style, "refresh");
    if style == Null || style == Undefined then Error("TypeError: cannot read refresh")
    else if !Truthy(refresh) || !refresh.Obj? then Ok(style)
    else
      var pairs := refresh.fields;
      var fields := style.fields;
      if exists k :: k in pairs && Unset(Get(fields, k)) then
        Error("TypeError: cannot set gss_update_interval")
      else
        Ok(Obj(map k | k in fields ::
          if k in pairs && fields[k].Obj? then Obj(fields[k].fields["gss_update_interval" := pairs[k]]) else fields[k]))
  }

  /**
   * apply_gss before styles are installed: a truthy `debug` section is merged in
   * (with `Object.deep_extend`, a parameter here) only when Config.debug is
   * set, and is deleted either way; each style is then refreshed.
   */
  function ApplyGss(parsed: map<string, Value>, debug: bool,
                    deepExtend: (map<string, Value>, Value) -> map<string, Value>): (r: Result<map<string, Value>>)
    ensures r.Ok? && Truthy(Get(parsed, "debug")) ==> "debug" !in r.value
    ensures r.Ok? && !Truthy(Get(parsed, "debug")) ==> r.value.Keys == parsed.Keys
    ensures r.Ok? && !debug && Truthy(Get(parsed, "debug")) ==> r.value.Keys == parsed.Keys - {"debug"}
    ensures r.Ok? ==> r.value.Keys == Debugged(parsed, debug, deepExtend).Keys
    ensures r.Ok? ==> forall k :: k in r.value ==> Refresh(Debugged(parsed, debug, deepExtend)[k]) == Ok(r.value[k])
    ensures r.Error? <==> exists k :: k in Debugged(parsed, debug, deepExtend) && Refresh(Debugged(parsed, debug, deepExtend)[k]).Error?
    ensures (exists k :: k in Debugged(parsed, debug, deepExtend) && Debugged(parsed, debug, deepExtend)[k] == Null) ==> r.Error?
  {
    var styles := Debugged(parsed, debug, deepExtend);
    if exists k :: k in styles && Refresh(styles[k]).Error? then Error("TypeError: cannot set gss_update_interval")
    else Ok(map k | k in styles :: Refresh(styles[k]).value)
  }

  /** The styles after the debug section has been handled. */
  function Debugged(parsed: map<string, Value>, debug: bool,
                    deepExtend: (map<string, Value>, Value) -> map<string, Value>): (r: map<string, Value>)
    ensures Truthy(Get(parsed, "debug")) ==> "debug" !in r
    ensures !Truthy(Get(parsed, "debug")) ==> r == parsed
    ensures !debug ==> r == parsed - (if Truthy(Get(parsed, "debug")) then {"debug"} else {})
  {
    if Truthy(Get(parsed, "debug")) then
      (if debug then deepExtend(parsed, parsed["debug"]) else parsed) - {"debug"}
    else parsed
  }

  /**
   * When every property named in `refresh` is present and not null, the pass
   * succeeds, and each named object value gets its gss_update_interval.
   */
  lemma RefreshSetsInterval(style: Value, k: string)
    requires style.Obj? && PropOf(style, "refresh").Obj?
    requires forall j :: j in PropOf(style, "refresh").fields ==> !Unset(Get(style.fields, j))
    requires k in PropOf(style, "refresh").fields && k in style.fields && style.fields[k].Obj?
    ensures Refresh(style).Ok?
    ensures Refresh(style).value.Obj? && k in Refresh(style).value.fields
    ensures Refresh(style).value.fields[k] ==
      Obj(style.fields[k].fields["gss_update_interval" := PropOf(style, "refresh").fields[k]])
  {
  }

  /** A stylesheet entry that is null makes apply_gss throw while reading its `refresh`. */
  lemma NullStyleThrows(parsed: map<string, Value>, k: string,
                        deepExtend: (map<string, Value>, Value) -> map<string, Value>)
    requires k != "debug" && k in parsed && parsed[k] == Null
    ensures ApplyGss(parsed, false, deepExtend).Error?
  {
    assert k in Debugged(parsed, false, deepExtend);
  }

  /** A refresh entry naming a property the style does not have makes apply_gss throw. */
  lemma RefreshOfMissingThrows(style: Value, k: string)
    requires style.Obj? && PropOf(style, "refresh").Obj?
    requires k in PropOf(style, "refresh").fields && k !in style.fields
    ensures Refresh(style).Error?
  {
    assert Get(style.fields, k) == Undefined;
  }
}

=== FILE: tasks.dfy ===
/**
 * The cooperative task scheduler of glop/tasks.js: a `Task` is a queue of members
 * processed one at a time, gated by a condition and by the completion of the
 * tasks it depends on; a `TaskManager` serves its eligible tasks round-robin for
 * one tick. The wall-clock quota of a tick is modelled as a budget of
 * `exec_next` calls, and the side effects of a task's `process` function as a
 * state `D` threaded through the tick by the caller-supplied `process`, which
 * answers `None` when the JavaScript function would throw.
 */
module Tasks {
  import opened Js

  /**
   * Task#condition: a static value, or the closure `parse_objects` builds, which
   * reads whether the wanted-key hash maps its key to exactly `true`.
   */
  datatype Condition = Static(value: Value) | KeyWanted(key: string)

  /** `Object.value(condition)`: the static value, or the closure's result. */
  function EvalCondition(c: Condition, wanted: map<string, Value>): Value {
    match c
    case Static(v) => v
    case KeyWanted(k) => Bool(Get(wanted, k) == Bool(true))
  }

  /** Task.registry: task id to "done". */
  type Registry = map<nat, bool>

  /**
   * A task: its id, the members still to process, how many it started with, the
   * name of its process function, its condition and the ids it depends on.
   */
  datatype Task<P, M> = Task(
    id: nat,
    members: seq<M>,
    totalMembers: nat,
    process: P,
    condition: Condition,
    deps: seq<nat>)

  /** Task.cur_uid together with Task.registry. */
  datatype Ids = Ids(curUid: nat, registry: Registry)

  /** The static state before any task is registered. */
  const Initial: Ids := Ids(1, map[])

  /** Ids start at 1 and every registered id lies below the next one to hand out. */
  ghost predicate Fresh(ids: Ids) {
    && ids.curUid >= 1
    && forall id :: id in ids.registry ==> 1 <= id < ids.curUid
  }

  /** Task.register: hand out the next id and record it as not done. */
  function Register(ids: Ids): (r: (nat, Ids))
    ensures r.0 == ids.curUid && r.1.curUid == r.0 + 1
    ensures r.1.registry == ids.registry[r.0 := false]
    ensures Fresh(ids) ==> r.0 >= 1 && r.0 !in ids.registry && Fresh(r.1)
  {
    (ids.curUid, Ids(ids.curUid + 1, ids.registry[ids.curUid := false]))
  }

  /** Registering `n` tasks one after another; the ids handed out, in order. */
  function RegisterMany(ids: Ids, n: nat): (seq<nat>, Ids)
    decreases n
  {
    if n == 0 then ([], ids)
    else
      var (id, ids1) := Register(ids);
      var (rest, ids2) := RegisterMany(ids1, n - 1);
      ([id] + rest, ids2)
  }

  /**
   * Registration hands out consecutive ids (1, 2, 3, ... from the initial state),
   * each recorded as not done, and leaves earlier entries alone.
   */
  lemma {:induction false} RegisterHandsOutConsecutiveIds(ids: Ids, n: nat)
    ensures var r := RegisterMany(ids, n);
      && |r.0| == n && r.1.curUid == ids.curUid + n
      && (forall j :: 0 <= j < n ==> r.0[j] == ids.curUid + j && r.0[j] in r.1.registry && !r.1.registry[r.0[j]])
      && (forall id :: id in ids.registry && id < ids.curUid ==> id in r.1.registry && r.1.registry[id] == ids.registry[id])
    decreases n
  {
    if n > 0 {
      var (id, ids1) := Register(ids);
      RegisterHandsOutConsecutiveIds(ids1, n - 1);
      var r := RegisterMany(ids, n);
      var r1 := RegisterMany(ids1, n - 1);
      assert r.0 == [id] + r1.0;
      forall j | 0 <= j < n
        ensures r.0[j] == ids.curUid + j && r.0[j] in r.1.registry && !r.1.registry[r.0[j]]
      {
        if j > 0 {
          assert r.0[j] == r1.0[j - 1];
        }
      }
    }
  }

  /** Task.complete */
  function Complete(reg: Registry, id: nat): (r: Registry)
    ensures id in r && r[id]
    ensures forall x :: x != id ==> (x in r <==> x in reg) && (x in reg ==> r[x] == reg[x])
  {
    reg[id := true]
  }

  /** Task.is_done: the registry entry, `undefined` for an id never registered. */
  function IsDone(reg: Registry, id: nat): (r: Option<bool>)
    ensures r.None? <==> id !in reg
    ensures r.Some? ==> r.value == reg[id]
  {
    if id in reg then Some(reg[id]) else None
  }

  /** Only an entry that is exactly `false` holds a dependent back. */
  predicate Blocks(reg: Registry, id: nat) {
    IsDone(reg, id) == Some(false)
  }

  /** The dependency loop of should_run: no dependency is registered as not done. */
  function NoneBlocking(reg: Registry, deps: seq<nat>): (r: bool)
    ensures r <==> forall j :: 0 <= j < |deps| ==> !(deps[j] in reg && !reg[deps[j]])
  {
    if |deps| == 0 then true
    else if Blocks(reg, deps[0]) then false
    else NoneBlocking(reg, deps[1..])
  }

  /**
   * Task#should_run. Its first test reads the `pass_condition` method itself, a
   * function and so always truthy, so the condition plays no part here.
   */
  function ShouldRun<P, M>(t: Task<P, M>, reg: Registry): bool {
    NoneBlocking(reg, t.deps)
  }

  /** Task#pass_condition: fails only when the condition's value is exactly `false`. */
  function PassCondition<P, M>(t: Task<P, M>, wanted: map<string, Value>): bool {
    EvalCondition(t.condition, wanted) != Bool(false)
  }

  /** Task#initialize followed by Task.register. */
  function NewTask<P, M>(members: seq<M>, process: P, condition: Option<Condition>, deps: seq<nat>, ids: Ids)
    : (r: (Task<P, M>, Ids))
    ensures r.0.id == ids.curUid && r.1 == Register(ids).1
    ensures r.0.members == members && r.0.totalMembers == |members| && r.0.deps == deps
    ensures condition.None? || condition == Some(Static(Undefined)) ==> r.0.condition == Static(Bool(true))
    ensures condition.Some? && condition != Some(Static(Undefined)) ==> r.0.condition == condition.value
  {
    var c := if condition.None? || condition == Some(Static(Undefined)) then Static(Bool(true)) else condition.value;
    var (id, ids1) := Register(ids);
    (Task(id, members, |members|, process, c, deps), ids1)
  }

  /** A task built without a condition passes it whatever the wanted keys are. */
  lemma DefaultConditionPasses<P, M>(members: seq<M>, process: P, deps: seq<nat>, ids: Ids, wanted: map<string, Value>)
    ensures PassCondition(NewTask(members, process, None, deps, ids).0, wanted)
  {
  }

  /** `members[0]`, which is `undefined` on an empty queue. */
  function Head<M>(ms: seq<M>): Option<M> {
    if |ms| == 0 then None else Some(ms[0])
  }

  /** The queue after `Array#shift`. */
  function Tail<M>(ms: seq<M>): seq<M> {
    if |ms| == 0 then [] else ms[1..]
  }

  /** What exec_next did: `Continue` is a `true` return, `Done` a `false` one. */
  datatype Outcome = Continue | Done | Threw

  datatype Exec<P, M, D> = Exec(task: Task<P, M>, registry: Registry, data: D, outcome: Outcome)

  /**
   * Task#exec_next. A task held back by a dependency answers `true` and changes
   * nothing. Otherwise the head member is shifted off and processed (with
   * `undefined` when the queue was already empty); the task completes and answers
   * `false` exactly when no member is left.
   */
  function ExecNext<P, M, D>(t: Task<P, M>, reg: Registry, d: D, process: (P, D, Option<M>) -> Option<D>)
    : (r: Exec<P, M, D>)
    ensures !ShouldRun(t, reg) ==> r == Exec(t, reg, d, Continue)
    ensures ShouldRun(t, reg) ==> r.task == t.(members := Tail(t.members))
    ensures ShouldRun(t, reg) ==> (r.outcome == Threw <==> process(t.process, d, Head(t.members)).None?)
    ensures ShouldRun(t, reg) && r.outcome != Threw ==>
      r.data == process(t.process, d, Head(t.members)).value && (r.outcome == Done <==> |t.members| <= 1)
    ensures r.outcome == Done ==> r.registry == Complete(reg, t.id)
    ensures r.outcome != Done ==> r.registry == reg
  {
    if !ShouldRun(t, reg) then Exec(t, reg, d, Continue)
    else
      var t1 := t.(members := Tail(t.members));
      match process(t.process, d, Head(t.members))
      case None => Exec(t1, reg, d, Threw)
      case Some(d1) =>
        if |t1.members| > 0 then Exec(t1, reg, d1, Continue)
        else Exec(t1, Complete(reg, t.id), d1, Done)
  }

  /** A task waiting on an unfinished dependency makes no progress at all. */
  lemma DependentWaits<P, M, D>(t: Task<P, M>, reg: Registry, dep: nat, d: D, process: (P, D, Option<M>) -> Option<D>)
    requires dep in t.deps && dep in reg && !reg[dep]
    ensures ExecNext(t, reg, d, process) == Exec(t, reg, d, Continue)
  {
  }

  /** `process` run over a queue in order; an empty queue still runs it once with `undefined`. */
  function ProcessAll<P, M, D>(p: P, d: D, ms: seq<M>, process: (P, D, Option<M>) -> Option<D>): D
    decreases |ms|
  {
    match process(p, d, Head(ms))
    case None => d
    case Some(d1) => if |ms| <= 1 then d1 else ProcessAll(p, d1, ms[1..], process)
  }

  /** `n` consecutive exec_next calls on one task, stopping early once it stops answering `Continue`. */
  function Drain<P, M, D>(t: Task<P, M>, reg: Registry, d: D, process: (P, D, Option<M>) -> Option<D>, n: nat)
    : Exec<P, M, D>
    requires n >= 1
    decreases n
  {
    var e := ExecNext(t, reg, d, process);
    if n == 1 || e.outcome != Continue then e else Drain(e.task, e.registry, e.data, process, n - 1)
  }

  /**
   * A runnable task whose process never throws is drained by exactly
   * max(1, |members|) calls: its members are processed in order (an empty task
   * processes `undefined` once), and the last call completes it in the registry.
   */
  lemma {:induction false} DrainProcessesInOrder<P, M, D>(
    t: Task<P, M>, reg: Registry, d: D, process: (P, D, Option<M>) -> Option<D>)
    requires ShouldRun(t, reg)
    requires forall x, m :: process(t.process, x, m).Some?
    ensures var e := Drain(t, reg, d, process, Max(1, |t.members|));
      && e.outcome == Done
      && e.task.members == []
      && e.registry == Complete(reg, t.id)
      && e.data == ProcessAll(t.process, d, t.members, process)
    decreases |t.members|
  {
    var e := ExecNext(t, reg, d, process);
    if |t.members| > 1 {
      assert e.outcome == Continue;
      assert e.task.members == t.members[1..];
      DrainProcessesInOrder(e.task, e.registry, e.data, process);
    }
  }


  /** Ids of a list of tasks, in order. */
  function IdsOf<P, M>(ts: seq<Task<P, M>>): (r: seq<nat>)
    ensures |r| == |ts| && forall j :: 0 <= j < |ts| ==> r[j] == ts[j].id
  {
    seq(|ts|, j requires 0 <= j < |ts| => ts[j].id)
  }

  lemma IdsOfCons<P, M>(t: Task<P, M>, ts: seq<Task<P, M>>)
    ensures IdsOf([t] + ts) == [t.id] + IdsOf(ts)
  {
  }

  ghost predicate Distinct<T>(s: seq<T>) {
    forall a, b :: 0 <= a < b < |s| ==> s[a] != s[b]
  }

  lemma DistinctCons<T>(x: T, s: seq<T>)
    ensures Distinct([x] + s) <==> x !in s && Distinct(s)
  {
    var xs := [x] + s;
    if Distinct(xs) {
      forall a, b | 0 <= a < b < |s|
        ensures s[a] != s[b]
      {
        assert xs[a + 1] == s[a] && xs[b + 1] == s[b];
      }
      forall b | 0 <= b < |s|
        ensures s[b] != x
      {
        assert xs[0] == x && xs[b + 1] == s[b];
      }
    }
  }

  /** Where the task with a given id sits. */
  function IndexOf<P, M>(ts: seq<Task<P, M>>, id: nat): (k: nat)
    requires id in IdsOf(ts)
    ensures k < |ts| && ts[k].id == id
  {
    if ts[0].id == id then 0
    else
      assert IdsOf(ts) == [ts[0].id] + IdsOf(ts[1..]) by { IdsOfCons(ts[0], ts[1..]); }
      1 + IndexOf(ts[1..], id)
  }

  /** `tasks.without(task)`, with tasks told apart by id. */
  function WithoutId<P, M>(ts: seq<Task<P, M>>, id: nat): (r: seq<Task<P, M>>)
    ensures forall x :: x in IdsOf(r) <==> x in IdsOf(ts) && x != id
    ensures Distinct(IdsOf(ts)) ==> Distinct(IdsOf(r))
  {
    if |ts| == 0 then []
    else
      var rest := WithoutId(ts[1..], id);
      WithoutIdStep(ts, id, rest);
      if ts[0].id == id then rest else [ts[0]] + rest
  }

  /** The recursive step of WithoutId: the head task stays unless it has the id. */
  lemma WithoutIdStep<P, M>(ts: seq<Task<P, M>>, id: nat, rest: seq<Task<P, M>>)
    requires |ts| > 0
    requires forall x :: x in IdsOf(rest) <==> x in IdsOf(ts[1..]) && x != id
    requires Distinct(IdsOf(ts[1..])) ==> Distinct(IdsOf(rest))
    ensures var r := if ts[0].id == id then rest else [ts[0]] + rest;
      && (forall x :: x in IdsOf(r) <==> x in IdsOf(ts) && x != id)
      && (Distinct(IdsOf(ts)) ==> Distinct(IdsOf(r)))
  {
    var ids, tail, kept := IdsOf(ts), IdsOf(ts[1..]), IdsOf(rest);
    assert ids == [ts[0].id] + tail by {
      IdsOfCons(ts[0], ts[1..]);
      assert ts == [ts[0]] + ts[1..];
    }
    assert forall x :: x in ids <==> x == ts[0].id || x in tail;
    DistinctCons(ts[0].id, tail);
    if ts[0].id != id {
      assert IdsOf([ts[0]] + rest) == [ts[0].id] + kept by {
        IdsOfCons(ts[0], rest);
      }
      DistinctCons(ts[0].id, kept);
    }
  }

  /** `without` keeps exactly the tasks with another id. */
  lemma {:induction false} WithoutIdKeepsOthers<P, M>(ts: seq<Task<P, M>>, id: nat)
    ensures forall j :: 0 <= j < |WithoutId(ts, id)| ==> WithoutId(ts, id)[j] in ts && WithoutId(ts, id)[j].id != id
    ensures forall j :: 0 <= j < |ts| && ts[j].id != id ==> ts[j] in WithoutId(ts, id)
  {
    if |ts| > 0 {
      WithoutIdKeepsOthers(ts[1..], id);
      var r := WithoutId(ts, id);
      var rest := WithoutId(ts[1..], id);
      assert r == if ts[0].id == id then rest else [ts[0]] + rest;
      forall j | 0 <= j < |ts| && ts[j].id != id
        ensures ts[j] in r
      {
        if j > 0 {
          assert ts[j] == ts[1..][j - 1];
        }
      }
    }
  }

  /** `cur_tasks.without(task)` on the list of eligible ids. */
  function Remove(s: seq<nat>, id: nat): (r: seq<nat>)
    ensures forall x :: x in r <==> x in s && x != id
    ensures Distinct(s) ==> Distinct(r)
  {
    if |s| == 0 then []
    else
      var rest := Remove(s[1..], id);
      assert s == [s[0]] + s[1..];
      DistinctCons(s[0], s[1..]);
      if s[0] == id then rest
      else
        DistinctCons(s[0], rest);
        [s[0]] + rest
  }

  /** Every task still holds no more members than it was created with. */
  ghost predicate Bounded<P, M>(ts: seq<Task<P, M>>) {
    forall j :: 0 <= j < |ts| ==> |ts[j].members| <= ts[j].totalMembers
  }

  /**
   * The state of one TaskManager#run: the manager's task list, the ids of the
   * eligible tasks (`cur_tasks`), the registry, the process state, the step
   * counter `i`, the ids served so far (one per exec_next call) and whether a
   * process call has thrown.
   */
  datatype Tick<P, M, D> = Tick(
    tasks: seq<Task<P, M>>,
    cur: seq<nat>,
    registry: Registry,
    data: D,
    i: nat,
    served: seq<nat>,
    threw: bool)

  ghost predicate TickOk<P, M, D>(s: Tick<P, M, D>) {
    && Distinct(IdsOf(s.tasks))
    && Distinct(s.cur)
    && (forall id :: id in s.cur ==> id in IdsOf(s.tasks))
  }

  /** Every task of `later` has the condition of the task of `earlier` with its id. */
  ghost predicate KeepsConditions<P, M>(later: seq<Task<P, M>>, earlier: seq<Task<P, M>>) {
    forall a, b :: 0 <= a < |later| && 0 <= b < |earlier| && later[a].id == earlier[b].id ==>
      later[a].condition == earlier[b].condition
  }

  /**
   * What a tick may do to its state: tasks that are not eligible stay as they
   * are; tasks and eligible ids only disappear, and a task disappears only when
   * it was eligible and has completed; completion is never undone; conditions and
   * member bounds are kept.
   */
  ghost predicate Evolves<P, M, D>(s: Tick<P, M, D>, r: Tick<P, M, D>) {
    && (forall t :: t in s.tasks && t.id !in s.cur ==> t in r.tasks)
    && (forall x :: x in IdsOf(r.tasks) ==> x in IdsOf(s.tasks))
    && (forall x :: x in r.cur ==> x in s.cur)
    && (forall x :: x in s.cur && x in IdsOf(r.tasks) ==> x in r.cur)
    && (forall x :: x in IdsOf(s.tasks) && x !in IdsOf(r.tasks) ==> x in s.cur && x in r.registry && r.registry[x])
    && (forall x :: x in s.registry && s.registry[x] ==> x in r.registry && r.registry[x])
    && KeepsConditions(r.tasks, s.tasks)
    && (Bounded(s.tasks) ==> Bounded(r.tasks))
  }

  lemma EvolvesRefl<P, M, D>(s: Tick<P, M, D>)
    requires TickOk(s)
    ensures Evolves(s, s)
  {
    forall a, b | 0 <= a < |s.tasks| && 0 <= b < |s.tasks| && s.tasks[a].id == s.tasks[b].id
      ensures s.tasks[a].condition == s.tasks[b].condition
    {
      assert IdsOf(s.tasks)[a] == IdsOf(s.tasks)[b];
    }
  }

  lemma EvolvesTrans<P, M, D>(a: Tick<P, M, D>, b: Tick<P, M, D>, c: Tick<P, M, D>)
    requires Evolves(a, b) && Evolves(b, c)
    ensures Evolves(a, c)
  {
    forall x, y | 0 <= x < |c.tasks| && 0 <= y < |a.tasks| && c.tasks[x].id == a.tasks[y].id
      ensures c.tasks[x].condition == a.tasks[y].condition
    {
      assert c.tasks[x].id in IdsOf(c.tasks);
      assert c.tasks[x].id in IdsOf(b.tasks);
      var k :| 0 <= k < |b.tasks| && IdsOf(b.tasks)[k] == c.tasks[x].id;
    }
  }

  /** Replacing a task by one with the same id keeps the id list. */
  lemma UpdateKeepsIds<P, M>(ts: seq<Task<P, M>>, k: nat, t: Task<P, M>)
    requires k < |ts| && t.id == ts[k].id
    ensures IdsOf(ts[k := t]) == IdsOf(ts)
  {
  }

  /** The task step `s.i` serves: `cur_tasks[i % cur_tasks.length]`. */
  function ServedIndex<P, M, D>(s: Tick<P, M, D>): (k: nat)
    requires TickOk(s) && |s.cur| > 0
    ensures k < |s.tasks| && s.tasks[k].id == s.cur[s.i % |s.cur|]
  {
    IndexOf(s.tasks, s.cur[s.i % |s.cur|])
  }

  /** The served task replaced by its later state: everything of `Evolves` holds. */
  lemma EvolvesByUpdate<P, M, D>(s: Tick<P, M, D>, r: Tick<P, M, D>, k: nat)
    requires TickOk(s) && k < |s.tasks| && s.tasks[k].id in s.cur
    requires |r.tasks| == |s.tasks| && r.cur == s.cur
    requires forall j :: 0 <= j < |s.tasks| && j != k ==> r.tasks[j] == s.tasks[j]
    requires r.tasks[k] == s.tasks[k].(members := r.tasks[k].members)
    requires |r.tasks[k].members| <= |s.tasks[k].members|
    requires forall x :: x in s.registry && s.registry[x] ==> x in r.registry && r.registry[x]
    ensures Evolves(s, r)
  {
    assert IdsOf(r.tasks) == IdsOf(s.tasks);
    forall t | t in s.tasks && t.id !in s.cur
      ensures t in r.tasks
    {
      var j :| 0 <= j < |s.tasks| && s.tasks[j] == t;
      assert r.tasks[j] == t;
    }
    SameIdsKeepConditions(r.tasks, s.tasks);
  }

  /** Position by position the same ids and conditions, over distinct ids: conditions are kept. */
  lemma SameIdsKeepConditions<P, M>(later: seq<Task<P, M>>, earlier: seq<Task<P, M>>)
    requires Distinct(IdsOf(earlier)) && |later| == |earlier|
    requires forall j :: 0 <= j < |earlier| ==> later[j].id == earlier[j].id && later[j].condition == earlier[j].condition
    ensures KeepsConditions(later, earlier)
  {
    forall a, b | 0 <= a < |later| && 0 <= b < |earlier| && later[a].id == earlier[b].id
      ensures later[a].condition == earlier[b].condition
    {
      assert IdsOf(earlier)[a] == IdsOf(earlier)[b];
    }
  }

  /** Removing one id keeps the condition and the queue bound of every remaining task. */
  lemma WithoutIdKeepsConditions<P, M>(ts: seq<Task<P, M>>, id: nat)
    requires Distinct(IdsOf(ts))
    ensures KeepsConditions(WithoutId(ts, id), ts)
    ensures Bounded(ts) ==> Bounded(WithoutId(ts, id))
  {
    var r := WithoutId(ts, id);
    WithoutIdKeepsOthers(ts, id);
    forall a, b | 0 <= a < |r| && 0 <= b < |ts| && r[a].id == ts[b].id
      ensures r[a].condition == ts[b].condition
    {
      var c :| 0 <= c < |ts| && ts[c] == r[a];
      assert IdsOf(ts)[c] == IdsOf(ts)[b];
    }
    if Bounded(ts) {
      forall j | 0 <= j < |r|
        ensures |r[j].members| <= r[j].totalMembers
      {
        var c :| 0 <= c < |ts| && ts[c] == r[j];
      }
    }
  }

  /** The served task removed from both lists after completing. */
  lemma EvolvesByRemoval<P, M, D>(s: Tick<P, M, D>, r: Tick<P, M, D>, id: nat)
    requires TickOk(s) && id in s.cur
    requires r.tasks == WithoutId(s.tasks, id) && r.cur == Remove(s.cur, id)
    requires id in r.registry && r.registry[id]
    requires forall x :: x in s.registry && s.registry[x] ==> x in r.registry && r.registry[x]
    ensures Evolves(s, r) && TickOk(r)
  {
    WithoutIdKeepsOthers(s.tasks, id);
    WithoutIdKeepsConditions(s.tasks, id);
    forall t | t in s.tasks && t.id !in s.cur
      ensures t in r.tasks
    {
      var j :| 0 <= j < |s.tasks| && s.tasks[j] == t;
    }
  }

  /**
   * One iteration of the loop in TaskManager#run. The task at position
   * `i mod |cur_tasks|` runs exec_next; if that answers `false` the task leaves
   * both lists, otherwise it stays in place with its shorter queue.
   */
  function Step<P, M, D>(s: Tick<P, M, D>, process: (P, D, Option<M>) -> Option<D>): (r: Tick<P, M, D>)
    requires TickOk(s) && |s.cur| > 0 && !s.threw
    ensures TickOk(r) && Evolves(s, r)
    ensures r.i == s.i + 1 && r.served == s.served + [s.cur[s.i % |s.cur|]]
    ensures !ShouldRun(s.tasks[ServedIndex(s)], s.registry) ==> r == s.(i := s.i + 1, served := r.served)
  {
    var id := s.cur[s.i % |s.cur|];
    var k := ServedIndex(s);
    var e := ExecNext(s.tasks[k], s.registry, s.data, process);
    var served := s.served + [id];
    if e.outcome == Done then
      var r := Tick(WithoutId(s.tasks, id), Remove(s.cur, id), e.registry, e.data, s.i + 1, served, false);
      EvolvesByRemoval(s, r, id);
      r
    else
      var r := Tick(s.tasks[k := e.task], s.cur, e.registry, e.data, s.i + 1, served, e.outcome == Threw);
      UpdateKeepsIds(s.tasks, k, e.task);
      EvolvesByUpdate(s, r, k);
      r
  }

  /**
   * What one step does to the lists: a task whose exec_next answered `false`
   * leaves both the task list and the eligible ids while every other task and
   * id stays; otherwise the eligible ids are unchanged and only the served task
   * is rewritten. The tick ends early exactly when the process call threw.
   */
  lemma StepOutcome<P, M, D>(s: Tick<P, M, D>, process: (P, D, Option<M>) -> Option<D>)
    requires TickOk(s) && |s.cur| > 0 && !s.threw
    ensures var r := Step(s, process);
      var id := s.cur[s.i % |s.cur|];
      var e := ExecNext(s.tasks[ServedIndex(s)], s.registry, s.data, process);
      && (r.threw <==> e.outcome == Threw)
      && (e.outcome == Done ==>
            && id !in IdsOf(r.tasks) && id !in r.cur
            && (forall t :: t in s.tasks && t.id != id ==> t in r.tasks)
            && (forall x :: x in s.cur && x != id ==> x in r.cur))
      && (e.outcome != Done ==>
            && r.cur == s.cur && |r.tasks| == |s.tasks|
            && forall j :: 0 <= j < |s.tasks| && j != ServedIndex(s) ==> r.tasks[j] == s.tasks[j])
  {
    var id := s.cur[s.i % |s.cur|];
    WithoutIdKeepsOthers(s.tasks, id);
    var r := Step(s, process);
    forall t | t in s.tasks && t.id != id
      ensures t in WithoutId(s.tasks, id)
    {
      var j :| 0 <= j < |s.tasks| && s.tasks[j] == t;
    }
  }

  /**
   * The loop of TaskManager#run under a budget of exec_next calls: it stops when
   * no eligible task is left, when the budget is spent, or when a process call
   * throws (the exception leaves the loop).
   */
  function Steps<P, M, D>(s: Tick<P, M, D>, budget: nat, process: (P, D, Option<M>) -> Option<D>)
    : (r: Tick<P, M, D>)
    requires TickOk(s)
    ensures TickOk(r) && Evolves(s, r)
    ensures s.i <= r.i <= s.i + budget
    ensures s.served <= r.served && |r.served| == |s.served| + (r.i - s.i)
    ensures r.threw || |r.cur| == 0 || r.i == s.i + budget
    ensures s.threw ==> r == s
    ensures ServedFrom(r.served, |s.served|, s.cur)
    decreases budget
  {
    if |s.cur| == 0 || budget == 0 || s.threw then
      EvolvesRefl(s);
      s
    else
      var s1 := Step(s, process);
      var r := Steps(s1, budget - 1, process);
      StepsCompose(s, s1, r, s.cur[s.i % |s.cur|]);
      r
  }

  /** Every id served from position `n` on is in `cur`. */
  ghost predicate ServedFrom(served: seq<nat>, n: nat, cur: seq<nat>) {
    forall j :: n <= j < |served| ==> served[j] in cur
  }

  /** One step followed by the rest of the loop: evolution and the served ids compose. */
  lemma StepsCompose<P, M, D>(s: Tick<P, M, D>, s1: Tick<P, M, D>, r: Tick<P, M, D>, id: nat)
    requires Evolves(s, s1) && Evolves(s1, r)
    requires s1.served == s.served + [id] && id in s.cur
    requires s1.served <= r.served && ServedFrom(r.served, |s1.served|, s1.cur)
    ensures Evolves(s, r) && ServedFrom(r.served, |s.served|, s.cur)
  {
    EvolvesTrans(s, s1, r);
    ServedFromStep(r.served, s.served, id, s1.served, s1.cur, s.cur);
  }

  lemma ServedFromStep(served: seq<nat>, before: seq<nat>, id: nat, after: seq<nat>, cur1: seq<nat>, cur: seq<nat>)
    requires after == before + [id] && after <= served && ServedFrom(served, |after|, cur1)
    requires id in cur && forall x :: x in cur1 ==> x in cur
    ensures ServedFrom(served, |before|, cur)
  {
    assert served[|before|] == (before + [id])[|before|];
  }

  /**
   * A task whose exec_next answered `false` is never served again in the same
   * tick: its id is gone from the eligible list for good.
   */
  lemma CompletedNotServedAgain<P, M, D>(s: Tick<P, M, D>, budget: nat, process: (P, D, Option<M>) -> Option<D>)
    requires TickOk(s) && |s.cur| > 0 && !s.threw
    requires ExecNext(s.tasks[ServedIndex(s)], s.registry, s.data, process).outcome == Done
    ensures var r := Step(s, process);
      var later := Steps(r, budget, process).served[|r.served|..];
      && s.cur[s.i % |s.cur|] == r.served[|r.served| - 1]
      && s.cur[s.i % |s.cur|] !in later
  {
    var r := Step(s, process);
    StepOutcome(s, process);
    var served := Steps(r, budget, process).served;
    NotServedLater(served, |r.served|, r.cur, s.cur[s.i % |s.cur|]);
  }

  /** `id` belongs to a task of `ts` that passes its condition. */
  ghost predicate PassingId<P, M>(ts: seq<Task<P, M>>, wanted: map<string, Value>, id: nat) {
    exists k :: 0 <= k < |ts| && ts[k].id == id && PassCondition(ts[k], wanted)
  }

  /**
   * Every task a tick serves passed its condition when the tick started: the
   * ids the loop hands to exec_next all come from the initial `cur_tasks`.
   */
  lemma ServedWereEligible<P, M, D>(ts: seq<Task<P, M>>, wanted: map<string, Value>, reg: Registry, d: D,
                                     budget: nat, process: (P, D, Option<M>) -> Option<D>)
    requires Distinct(IdsOf(ts))
    ensures var r := Steps(Tick(ts, Eligible(ts, wanted), reg, d, 0, [], false), budget, process);
      forall j :: 0 <= j < |r.served| ==> PassingId(ts, wanted, r.served[j])
  {
    var r := Steps(Tick(ts, Eligible(ts, wanted), reg, d, 0, [], false), budget, process);
    EligibleOnly(ts, wanted, r.served);
  }

  /** Ids served from the eligible list belong to tasks that pass their condition. */
  lemma EligibleOnly<P, M>(ts: seq<Task<P, M>>, wanted: map<string, Value>, served: seq<nat>)
    requires Distinct(IdsOf(ts)) && ServedFrom(served, 0, Eligible(ts, wanted))
    ensures forall j :: 0 <= j < |served| ==> PassingId(ts, wanted, served[j])
  {
    forall j | 0 <= j < |served|
      ensures PassingId(ts, wanted, served[j])
    {
      assert served[j] in Eligible(ts, wanted);
      var k :| 0 <= k < |ts| && IdsOf(ts)[k] == served[j];
      assert ts[k].id == served[j] && PassCondition(ts[k], wanted);
    }
  }

  /** An id missing from `cur` is not among the ids served from `cur` after position `n`. */
  lemma NotServedLater(served: seq<nat>, n: nat, cur: seq<nat>, id: nat)
    requires n <= |served| && ServedFrom(served, n, cur) && id !in cur
    ensures id !in served[n..]
  {
    forall j | 0 <= j < |served[n..]|
      ensures served[n..][j] != id
    {
      assert served[n..][j] == served[n + j];
    }
  }

  /**
   * The busy spin: while every eligible task waits on a dependency, a tick burns
   * its whole budget and changes nothing but the step counter.
   */
  lemma {:induction false} BlockedTickSpins<P, M, D>(s: Tick<P, M, D>, n: nat, process: (P, D, Option<M>) -> Option<D>)
    requires TickOk(s) && !s.threw
    requires forall k :: 0 <= k < |s.tasks| && s.tasks[k].id in s.cur ==> !ShouldRun(s.tasks[k], s.registry)
    ensures var r := Steps(s, n, process);
      && r.tasks == s.tasks && r.cur == s.cur && r.registry == s.registry && r.data == s.data
      && !r.threw && r.i == s.i + (if |s.cur| == 0 then 0 else n)
    decreases n
  {
    if |s.cur| > 0 && n > 0 {
      var k := ServedIndex(s);
      var s1 := Step(s, process);
      BlockedTickSpins(s1, n - 1, process);
    }
  }

  /** TaskManager#completed: a percentage, or NaN when the tasks hold no members at all. */
  datatype Percent = Pct(value: real) | NaN

  function TotalMembers<P, M>(ts: seq<Task<P, M>>): nat {
    if |ts| == 0 then 0 else ts[0].totalMembers + TotalMembers(ts[1..])
  }

  function LeftMembers<P, M>(ts: seq<Task<P, M>>): nat {
    if |ts| == 0 then 0 else |ts[0].members| + LeftMembers(ts[1..])
  }

  /** TaskManager#get_completed: `(total - left) / total * 100`, which is `0/0` for no members. */
  function GetCompleted<P, M>(ts: seq<Task<P, M>>): (r: Percent)
    ensures r == NaN <==> TotalMembers(ts) == 0
    ensures r.Pct? ==> r.value * (TotalMembers(ts) as real) == ((TotalMembers(ts) - LeftMembers(ts)) as real) * 100.0
  {
    var total := TotalMembers(ts);
    var left := LeftMembers(ts);
    if total == 0 then NaN else Pct(((total - left) as real / total as real) * 100.0)
  }

  lemma {:induction false} LeftAtMostTotal<P, M>(ts: seq<Task<P, M>>)
    requires Bounded(ts)
    ensures LeftMembers(ts) <= TotalMembers(ts)
  {
    if |ts| > 0 {
      assert Bounded(ts[1..]) by {
        forall j | 0 <= j < |ts[1..]|
          ensures |ts[1..][j].members| <= ts[1..][j].totalMembers
        {
          assert ts[1..][j] == ts[j + 1];
        }
      }
      LeftAtMostTotal(ts[1..]);
    }
  }

  /** While no task holds more members than it started with, completion lies in 0..100. */
  lemma CompletedInRange<P, M>(ts: seq<Task<P, M>>)
    requires Bounded(ts)
    ensures GetCompleted(ts).Pct? ==> 0.0 <= GetCompleted(ts).value <= 100.0
  {
    LeftAtMostTotal(ts);
    var total := TotalMembers(ts);
    var left := LeftMembers(ts);
    RatioInUnit((total - left) as real, total as real);
  }

  lemma RatioInUnit(a: real, b: real)
    requires 0.0 <= a <= b
    ensures b != 0.0 ==> 0.0 <= a / b <= 1.0
  {
    if b == 0.0 {
      return;
    }
    var q := a / b;
    assert q * b == a;
    assert (1.0 - q) * b == b - a;
  }

  /** The recursive step of Eligible: the head task joins the ids eligible among the rest. */
  lemma EligibleStep<P, M>(ts: seq<Task<P, M>>, wanted: map<string, Value>, rest: seq<nat>)
    requires |ts| > 0
    requires forall x :: x in rest ==> x in IdsOf(ts[1..])
    requires Distinct(IdsOf(ts[1..])) ==> Distinct(rest)
    requires Distinct(IdsOf(ts[1..])) ==>
      forall k :: 0 <= k < |ts[1..]| ==> (ts[1..][k].id in rest <==> PassCondition(ts[1..][k], wanted))
    ensures var r := if PassCondition(ts[0], wanted) then [ts[0].id] + rest else rest;
      && (forall x :: x in r ==> x in IdsOf(ts))
      && (Distinct(IdsOf(ts)) ==> Distinct(r))
      && (Distinct(IdsOf(ts)) ==> forall k :: 0 <= k < |ts| ==> (ts[k].id in r <==> PassCondition(ts[k], wanted)))
  {
    var r := if PassCondition(ts[0], wanted) then [ts[0].id] + rest else rest;
    var ids := IdsOf(ts);
    var tail := IdsOf(ts[1..]);
    assert ids == [ts[0].id] + tail by {
      IdsOfCons(ts[0], ts[1..]);
      assert ts == [ts[0]] + ts[1..];
    }
    forall x | x in r
      ensures x in ids
    {
      if x != ts[0].id {
        assert x in tail;
      }
    }
    if Distinct(ids) {
      DistinctCons(ts[0].id, tail);
      DistinctCons(ts[0].id, rest);
      assert ts[0].id !in rest;
      forall k | 0 <= k < |ts|
        ensures ts[k].id in r <==> PassCondition(ts[k], wanted)
      {
        if k > 0 {
          assert ts[k] == ts[1..][k - 1];
          assert ts[k].id == tail[k - 1];
        }
      }
    }
  }

  /** The ids of the tasks that pass their condition at tick start, in list order. */
  function Eligible<P, M>(ts: seq<Task<P, M>>, wanted: map<string, Value>): (r: seq<nat>)
    ensures forall x :: x in r ==> x in IdsOf(ts)
    ensures Distinct(IdsOf(ts)) ==> Distinct(r)
    ensures Distinct(IdsOf(ts)) ==> forall k :: 0 <= k < |ts| ==> (ts[k].id in r <==> PassCondition(ts[k], wanted))
  {
    if |ts| == 0 then []
    else
      var rest := Eligible(ts[1..], wanted);
      EligibleStep(ts, wanted, rest);
      if PassCondition(ts[0], wanted) then [ts[0].id] + rest else rest
  }

  /** The tasks whose id is in `ids`, in list order (`cur_tasks` as task objects). */
  function Select<P, M>(ts: seq<Task<P, M>>, ids: seq<nat>): (r: seq<Task<P, M>>)
    ensures forall j :: 0 <= j < |r| ==> r[j] in ts && r[j].id in ids
    ensures forall j :: 0 <= j < |ts| && ts[j].id in ids ==> ts[j] in r
    ensures |ids| == 0 ==> r == []
    ensures Bounded(ts) ==> Bounded(r)
  {
    if |ts| == 0 then []
    else if ts[0].id in ids then [ts[0]] + Select(ts[1..], ids)
    else Select(ts[1..], ids)
  }

  /** Select looks at ids only through membership. */
  lemma {:induction false} SelectAgrees<P, M>(ts: seq<Task<P, M>>, a: seq<nat>, b: seq<nat>)
    requires forall j :: 0 <= j < |ts| ==> (ts[j].id in a <==> ts[j].id in b)
    ensures Select(ts, a) == Select(ts, b)
  {
    if |ts| > 0 {
      assert ts[0].id in a <==> ts[0].id in b;
      SelectAgrees(ts[1..], a, b);
    }
  }

  /**
   * What a tick starting from the eligible ids leaves behind: ineligible tasks
   * untouched, removed tasks eligible and completed, and, once no eligible id is
   * left, only tasks failing their condition.
   */
  lemma TickOutcome<P, M, D>(ts: seq<Task<P, M>>, wanted: map<string, Value>, s0: Tick<P, M, D>, s: Tick<P, M, D>)
    requires Distinct(IdsOf(ts))
    requires s0.tasks == ts && s0.cur == Eligible(ts, wanted)
    requires Evolves(s0, s)
    ensures forall t :: t in ts && !PassCondition(t, wanted) ==> t in s.tasks
    ensures forall k :: 0 <= k < |ts| && ts[k].id !in IdsOf(s.tasks) ==>
      PassCondition(ts[k], wanted) && ts[k].id in s.registry && s.registry[ts[k].id]
    ensures |s.cur| == 0 ==> forall t :: t in s.tasks ==> !PassCondition(t, wanted)
  {
    forall t | t in ts && !PassCondition(t, wanted)
      ensures t in s.tasks
    {
      var k :| 0 <= k < |ts| && ts[k] == t;
    }
    if |s.cur| == 0 {
      forall t | t in s.tasks
        ensures !PassCondition(t, wanted)
      {
        SurvivorFailsCondition(ts, wanted, s0, s, t);
      }
    }
  }

  /** A task still listed after a tick that leaves no eligible id fails its condition. */
  lemma SurvivorFailsCondition<P, M, D>(ts: seq<Task<P, M>>, wanted: map<string, Value>, s0: Tick<P, M, D>, s: Tick<P, M, D>, t: Task<P, M>)
    requires Distinct(IdsOf(ts))
    requires s0.tasks == ts && s0.cur == Eligible(ts, wanted)
    requires Evolves(s0, s) && |s.cur| == 0 && t in s.tasks
    ensures !PassCondition(t, wanted)
  {
    var j :| 0 <= j < |s.tasks| && s.tasks[j] == t;
    assert t.id in IdsOf(s.tasks);
    var k :| 0 <= k < |ts| && IdsOf(ts)[k] == t.id;
    assert t.condition == ts[k].condition;
  }

  /** After a tick, a listed task is still eligible exactly when it was eligible at tick start. */
  lemma CurStillEligible<P, M, D>(s0: Tick<P, M, D>, s: Tick<P, M, D>)
    requires TickOk(s) && Evolves(s0, s)
    ensures forall j :: 0 <= j < |s.tasks| ==> (s.tasks[j].id in s.cur <==> s.tasks[j].id in s0.cur)
  {
    forall j | 0 <= j < |s.tasks|
      ensures s.tasks[j].id in s.cur <==> s.tasks[j].id in s0.cur
    {
      assert s.tasks[j].id == IdsOf(s.tasks)[j];
    }
  }

  /** A TaskManager: its tasks, the last completion figure and whether it listens for ticks. */
  datatype Manager<P, M> = Manager(tasks: seq<Task<P, M>>, completed: Percent, active: bool)

  datatype RunResult<P, M, D> = RunResult(
    manager: Manager<P, M>,
    registry: Registry,
    data: D,
    served: seq<nat>,
    threw: bool)

  /**
   * TaskManager#run with a budget of exec_next calls. Tasks failing their
   * condition at tick start are left exactly as they were; a task leaves the list
   * only once it has completed in the registry; `completed` is recomputed over the
   * eligible tasks still unfinished; and the manager stops when its list is empty.
   * An exception from `process` ends the tick early with nothing recomputed.
   */
  function Run<P, M, D>(
    mgr: Manager<P, M>, reg: Registry, wanted: map<string, Value>, budget: nat,
    d: D, process: (P, D, Option<M>) -> Option<D>): (r: RunResult<P, M, D>)
    requires Distinct(IdsOf(mgr.tasks))
    ensures |r.served| <= budget
    ensures Distinct(IdsOf(r.manager.tasks))
    ensures forall t :: t in mgr.tasks && !PassCondition(t, wanted) ==> t in r.manager.tasks
    ensures forall x :: x in IdsOf(r.manager.tasks) ==> x in IdsOf(mgr.tasks)
    ensures forall k :: 0 <= k < |mgr.tasks| && mgr.tasks[k].id !in IdsOf(r.manager.tasks) ==>
      PassCondition(mgr.tasks[k], wanted) && mgr.tasks[k].id in r.registry && r.registry[mgr.tasks[k].id]
    ensures forall x :: x in reg && reg[x] ==> x in r.registry && r.registry[x]
    ensures !r.threw ==> (r.manager.active <==> mgr.active && |r.manager.tasks| > 0)
    ensures r.threw ==> r.manager.active == mgr.active && r.manager.completed == mgr.completed
    ensures !r.threw && |r.served| < budget ==>
      r.manager.completed == NaN && forall t :: t in r.manager.tasks ==> !PassCondition(t, wanted)
    ensures Bounded(mgr.tasks) ==> Bounded(r.manager.tasks)
    ensures !r.threw ==> r.manager.completed == GetCompleted(Select(r.manager.tasks, Eligible(mgr.tasks, wanted)))
    ensures !r.threw && Bounded(mgr.tasks) && r.manager.completed.Pct? ==> 0.0 <= r.manager.completed.value <= 100.0
  {
    var s0 := Tick(mgr.tasks, Eligible(mgr.tasks, wanted), reg, d, 0, [], false);
    var s := Steps(s0, budget, process);
    TickOutcome(mgr.tasks, wanted, s0, s);
    CurStillEligible(s0, s);
    SelectAgrees(s.tasks, s.cur, s0.cur);
    var left := Select(s.tasks, s.cur);
    assert Bounded(mgr.tasks) && GetCompleted(left).Pct? ==> 0.0 <= GetCompleted(left).value <= 100.0 by {
      if Bounded(mgr.tasks) {
        CompletedInRange(left);
      }
    }
    if s.threw then
      RunResult(mgr.(tasks := s.tasks), s.registry, s.data, s.served, true)
    else
      var active := if |s.tasks| < 1 then false else mgr.active;
      RunResult(Manager(s.tasks, GetCompleted(left), active), s.registry, s.data, s.served, false)
  }

  /**
   * A tick in which no task passes its condition serves nothing, changes no
   * task and no registry entry, and reports NaN completion.
   */
  lemma IdleRun<P, M, D>(
    mgr: Manager<P, M>, reg: Registry, wanted: map<string, Value>, budget: nat,
    d: D, process: (P, D, Option<M>) -> Option<D>)
    requires Distinct(IdsOf(mgr.tasks))
    requires forall t :: t in mgr.tasks ==> !PassCondition(t, wanted)
    ensures var r := Run(mgr, reg, wanted, budget, d, process);
      && !r.threw && r.served == [] && r.manager.tasks == mgr.tasks
      && r.registry == reg && r.data == d && r.manager.completed == NaN
  {
    NoneEligible(mgr.tasks, wanted);
    var s0 := Tick(mgr.tasks, [], reg, d, 0, [], false);
    assert Steps(s0, budget, process) == s0;
  }

  /** With no task passing its condition, the eligible list is empty. */
  lemma {:induction false} NoneEligible<P, M>(ts: seq<Task<P, M>>, wanted: map<string, Value>)
    requires forall t :: t in ts ==> !PassCondition(t, wanted)
    ensures Eligible(ts, wanted) == []
  {
    if |ts| > 0 {
      assert ts[0] in ts;
      NoneEligible(ts[1..], wanted);
    }
  }

  /** TaskManager#add: append the task and restart the manager if it had stopped. */
  function Add<P, M>(mgr: Manager<P, M>, t: Task<P, M>): (r: Manager<P, M>)
    ensures r.tasks == mgr.tasks + [t] && r.active
    ensures r.completed == mgr.completed
  {
    Manager(mgr.tasks + [t], mgr.completed, true)
  }
}

=== FILE: timer.dfy ===
/**
 * TimerManager of glop/timer.js: it runs a function, records how long the run
 * took, and schedules the next run after a delay derived from a sample of the
 * recorded execution times. The clock is a parameter: a run is given its measured
 * execution time in milliseconds, and the delay it asks `setTimeout` for is its
 * result.
 */
module Timer {
  import opened Js

  /** The recorded execution times (newest first), the spacing factor and the starting interval. */
  datatype TimerManager = TimerManager(times: seq<int>, spacing: real, interval: real)

  /** The object literal's initial state: no times, spacing 0.8, interval 10. */
  const Initial: TimerManager := TimerManager([], 0.8, 10.0)

  /** At most this many execution times are kept. */
  const MaxTimes: nat := 100

  /** The shortest delay ever scheduled, in milliseconds. */
  const MinDelay: int := 50

  /** The indices of `times` that the sample reads. */
  const SampleIndices: seq<nat> := [1, 2, 3, 5, 8, 13]

  /** `times[k] || 0`: a missing entry reads as 0. */
  function At(times: seq<int>, k: nat): int {
    if k < |times| then times[k] else 0
  }

  function SumAt(times: seq<int>, ks: seq<nat>): int {
    if |ks| == 0 then 0 else At(times, ks[0]) + SumAt(times, ks[1..])
  }

  /** TimerManager#sample: the entries at the sample indices, summed, over 9. */
  function Sample(times: seq<int>): real {
    SumAt(times, SampleIndices) as real / 9.0
  }

  /** Two time lists that agree at every sampled index give the same sample. */
  lemma {:induction false} SampleReadsOnlyIndices(a: seq<int>, b: seq<int>)
    requires forall j :: 0 <= j < |SampleIndices| ==> At(a, SampleIndices[j]) == At(b, SampleIndices[j])
    ensures Sample(a) == Sample(b)
  {
    SumAtAgrees(a, b, SampleIndices);
  }

  lemma {:induction false} SumAtAgrees(a: seq<int>, b: seq<int>, ks: seq<nat>)
    requires forall j :: 0 <= j < |ks| ==> At(a, ks[j]) == At(b, ks[j])
    ensures SumAt(a, ks) == SumAt(b, ks)
  {
    if |ks| > 0 {
      SumAtAgrees(a, b, ks[1..]);
    }
  }

  lemma {:induction false} SumAtBounds(times: seq<int>, ks: seq<nat>, top: int)
    requires top >= 0
    requires forall j :: 0 <= j < |times| ==> 0 <= times[j] <= top
    ensures 0 <= SumAt(times, ks) <= |ks| * top
  {
    if |ks| > 0 {
      SumAtBounds(times, ks[1..], top);
      assert |ks| * top == top + (|ks| - 1) * top;
    }
  }

  /** With every recorded time in 0..top, the sample lies in 0 .. 6*top/9. */
  lemma SampleBounds(times: seq<int>, top: int)
    requires top >= 0
    requires forall j :: 0 <= j < |times| ==> 0 <= times[j] <= top
    ensures 0.0 <= Sample(times) <= (6 * top) as real / 9.0
  {
    SumAtBounds(times, SampleIndices, top);
  }

  /**
   * TimerManager#setup with the optional spacing `s` and interval `i`: a missing
   * or zero argument keeps the current value. The first delay is `i || interval`.
   */
  function Setup(tm: TimerManager, s: Option<real>, i: Option<real>): (r: (TimerManager, real))
    ensures r.0.times == tm.times
    ensures r.0.spacing == (if s.Some? && s.value != 0.0 then s.value else tm.spacing)
    ensures r.0.interval == (if i.Some? && i.value != 0.0 then i.value else tm.interval)
    ensures r.1 == r.0.interval
  {
    var interval := if i.Some? && i.value != 0.0 then i.value else tm.interval;
    var spacing := if s.Some? && s.value != 0.0 then s.value else tm.spacing;
    (TimerManager(tm.times, spacing, interval), interval)
  }

  /** Without arguments the first run is 10 ms away and the spacing is 0.8. */
  lemma SetupDefaults()
    ensures Setup(Initial, None, None) == (TimerManager([], 0.8, 10.0), 10.0)
  {
  }

  /**
   * TimerManager#run given the measured execution time: record it in front,
   * drop the oldest entry once there are more than 100, and schedule the next
   * run `max(50, parseInt(spacing * sample))` milliseconds later.
   */
  function Run(tm: TimerManager, executionTime: int): (r: (TimerManager, int))
    ensures r.0.spacing == tm.spacing && r.0.interval == tm.interval
    ensures |r.0.times| >= 1 && r.0.times[0] == executionTime
    ensures r.0.times[1..] <= tm.times
    ensures |r.0.times| == Max(Min(|tm.times| + 1, MaxTimes), |tm.times|)
    ensures r.1 >= MinDelay
    ensures r.1 == Delay(tm.spacing, Sample(r.0.times))
  {
    var pushed := [executionTime] + tm.times;
    var times := if |pushed| > MaxTimes then pushed[..|pushed| - 1] else pushed;
    (TimerManager(times, tm.spacing, tm.interval), Delay(tm.spacing, Sample(times)))
  }

  /** `Math.max(50, parseInt(spacing * sample))`. */
  function Delay(spacing: real, sample: real): (d: int)
    ensures d >= MinDelay
  {
    Max(MinDelay, Trunc(spacing * sample))
  }

  /** Runs keep at most 100 times once they start with at most 100. */
  lemma {:induction false} RunsKeepTimesBounded(tm: TimerManager, ets: seq<int>)
    requires |tm.times| <= MaxTimes
    ensures |RunAll(tm, ets).times| <= MaxTimes
    ensures |RunAll(tm, ets).times| == Min(|tm.times| + |ets|, MaxTimes)
    decreases |ets|
  {
    if |ets| > 0 {
      RunsKeepTimesBounded(Run(tm, ets[0]).0, ets[1..]);
    }
  }

  /** A series of runs with the given execution times. */
  function RunAll(tm: TimerManager, ets: seq<int>): TimerManager
    decreases |ets|
  {
    if |ets| == 0 then tm else RunAll(Run(tm, ets[0]).0, ets[1..])
  }

  /**
   * The sample never reads index 0, so the execution time of the run just
   * finished has no effect on the delay it schedules.
   */
  lemma NewestTimeIgnored(tm: TimerManager, a: int, b: int)
    ensures Run(tm, a).1 == Run(tm, b).1
  {
    var ta := Run(tm, a).0.times;
    var tb := Run(tm, b).0.times;
    var n := |ta| - 1;
    assert |tb| - 1 == n <= |tm.times|;
    assert ta[1..] == tm.times[..n] == tb[1..];
    SameTailSameSample(ta, tb);
  }

  /** Time lists that differ at most in their first entry give the same sample. */
  lemma SameTailSameSample(ta: seq<int>, tb: seq<int>)
    requires |ta| >= 1 && |tb| >= 1 && ta[1..] == tb[1..]
    ensures Sample(ta) == Sample(tb)
  {
    forall j | 0 <= j < |SampleIndices|
      ensures At(ta, SampleIndices[j]) == At(tb, SampleIndices[j])
    {
      var k := SampleIndices[j];
      if k < |ta| {
        assert ta[k] == ta[1..][k - 1];
        assert tb[k] == tb[1..][k - 1];
      }
    }
    SampleReadsOnlyIndices(ta, tb);
  }
}
